=== FILE: README.md ===
# cf-download, modelled in Dafny

`cf download` is a Cloud Foundry CLI plugin that copies an application's
remote file tree to the local disk. It lists each remote directory with
`cf files`, turns the listing into file names and directory names, and
downloads every file. It then walks every subdirectory, skipping paths on a
filter list built from `.cfignore` and `--omit`, and reports the files it
could not fetch or write.

This project models that core as pure functions over immutable data.

- **Text** models the Go `strings` helpers the plugin relies on: `SplitAfterN(…, 3)`, `Fields`, `Split`, `TrimSpace`, `TrimPrefix`/`TrimSuffix` and `Contains`.
- **SizeToken** models the size-column test `isDelimiter`, that is the regular expression `^[0-9]([0-9]|.)*(G|M|B|K)$` or a lone `-`.
- **Tokenizer** models the loop, shared by every listing parser, that glues multi-word file names back together.
- **Outcomes** holds the shared result types. A process that ends through `os.Exit` or a runtime panic is a `Halt` value, not a crash.
- **DirParser** models the refactored `dir_parser` package. This covers the listing fetch with up to ten retries, the "OK" / "noFiles" / "Failed" classification and the tokenizing of a good body.
- **Filter** models the `filter` package: building the filter list and the exact-match `CheckToFilter`.
- **Downloader** models the per-file part of the refactored `downloader` package: the "OK" check, the empty-file marker, the seven write attempts with doubling sleeps, and the counter or the failure message.
- **LegacyParser**, **Monolith**, **Loaders** and **Prototype** model the older generations of the same code.
  - LegacyParser covers the `execParseDir` of `parser.go` and `download.go`.
  - Monolith covers the filter list and file download of `download.go`.
  - Loaders covers the file download of `loaders.go`.
  - Prototype covers the pairwise listing and file download of `test.go`.
- **Walk** is the recursive `Download`/`download` of all four generations, run in one sequential order.
  - Every started unit (a goroutine) is counted in `spawned` and every finished one in `done`. This is how the model tracks the `WaitGroup`.
  - Each generation's own listing and file download are plugged in.
  - Recursion depth is bounded by a fuel argument, and running out of fuel is the `Truncated` halt.
- **Cli** models the plugin's `Run` from the parsed flags onwards: `GetDirectoryContext`, the root listing, the walk, the final count and the failure report.
- **FakeExec** models the test double `cmd_exec_fake`.
- **ListingExample** models printed listings and the first unit test of the parser.

The outside world is an input. The remote command is a function from path and attempt number to the output and whether the command failed. Local writes are a function from path and attempt number to success. Directory creation is a predicate saying whether it fails. The `.cfignore` file is an optional string.

Places where the code behaves in a way worth knowing:

- In the older generations, an app "not found" status line is only printed, and processing continues. It does not take precedence over the other checks.
- The refactored root listing ends the process for the path `/` both when the listing failed and when the directory is empty (`parser.go` in `dir_parser`, lines 68-75). An empty directory is not a silent success there.
- `Run` passes its local root (`rootWorkingDirectory` declared with `:=`, so a local shadowing the package variable) to the downloader as the root to strip before filtering. So the prefix strip only removes a remote prefix equal to the local directory. `Walk.Config.root` carries that value, and `Cli.Config` sets it so.
- The refactored downloader lists subdirectories through its own internal parser, whose failure list nobody reads. Failures of subdirectory listings are therefore never reported. The model keeps them in `Walk.State.hidden`.
- The filter compares whole paths, not prefixes. A filtered directory is skipped, so it is never listed and nothing in it is found through it. But a listing entry whose name holds a slash and that names a path below the filtered directory is still fetched (`WalkTrace.SlashedNameKept`).
- `download.go` and `loaders.go` bump the counter before the write. `loaders.go` also writes the body of a FAILED response.

## Model

| member | source | states |
|---|---|---|
| Outcomes.ServerError | downloader/download.go:171 | the server-error message quotes the path right after ` Server Error: '`, followed by the closing quote and ` not downloaded` |
| Outcomes.ServerErrorInjective | downloader/download.go:171 | two paths with the same server-error message are the same path |
| Outcomes.WriteError | downloader/download.go:158 | the write-error message quotes the path right after ` Write Error: '`, followed by the closing quote and the rest of the sentence |
| Outcomes.WriteErrorInjective | downloader/download.go:158 | two paths with the same write-error message are the same path |
| Outcomes.MessagesDiffer | downloader/download.go:158-171 | a server-error message never equals a write-error message, whatever the two paths |
| Text.SplitAfter3 | dir_parser/parser.go:89 | the pieces concatenate back to the output; there are one to three of them; there are at least two exactly when the output has a newline; every piece but the last is a complete line |
| Text.SplitAfter3Lines | dir_parser/parser.go:89 | a banner line, a status line and a body split back into exactly those three pieces |
| Text.Split | filter/filter.go:19 | no piece contains the separator, and joining the pieces with it gives back the input |
| Text.Fields | dir_parser/parser.go:49 | every field is non-empty and contains no white space; `Text.FieldsSkipSpace` and `Text.FieldsWord` pin down which fields, as the maximal runs of non-space characters in order |
| Text.FieldsSkipSpace | dir_parser/parser.go:49 | white space in front of a string adds no field: the fields of `ws + rest` are the fields of `rest` |
| Text.FieldsWord | dir_parser/parser.go:49 | a space-free word followed by white space or by nothing is the first field, and the fields of the rest follow it |
| Text.TwoWords | dir_parser/parser.go:49 | a word, a gap of white space and a second word, followed by white space or nothing, are the first two fields, and the fields of the rest follow |
| Text.TrimSpace | filter/filter.go:44 | the result has no white space at either end; it is empty exactly for an all-white-space input; an unpadded input is returned unchanged; `Text.TrimSpaceInfix` and `Text.TrimSpacePadded` say which part of the input is kept |
| Text.TrimSpaceInfix | filter/filter.go:44 | the result is the stretch of the input that starts where the leading white space ends, with nothing but white space before it and after it |
| Text.TrimSpacePadded | filter/filter.go:44 | white space put on either side of an unpadded string is exactly what is removed: the string comes back |
| SizeToken.DelimiterCharacterisation | dir_parser/parser.go:128-134 | a size token is `-`, or at least two runes that start with a digit, end with G, M, B or K and contain no newline |
| SizeToken.MatchesTailExactly | dir_parser/parser.go:129 | the star-then-unit tail of the pattern matches exactly the strings ending in a unit letter with no newline before it |
| SizeToken.DelimiterOfToken | dir_parser/parser.go:57 | for a listing field, which has no white space, a delimiter is `-` or digit … unit letter |
| Tokenizer.Step | dir_parser/parser.go:53-64 | a field ending in `/` emits exactly one directory name; a size field emits exactly one file name when a name is pending; either empties the pending name; any other field extends it; names are only appended |
| Tokenizer.Run | dir_parser/parser.go:52-66 | the loop only appends names, at most one per field |
| Tokenizer.StepGood | dir_parser/parser.go:53-64 | one iteration keeps the pending buffer as words each followed by one space, and emits only well-formed names |
| Tokenizer.RunGood | dir_parser/parser.go:52-66 | the loop over fields without white space keeps the buffer and the emitted names well-formed |
| Tokenizer.ParseBody | dir_parser/parser.go:49-66 | every directory name ends with `/`; every file name is non-empty with no white space at either end |
| Tokenizer.RunAppend | dir_parser/parser.go:52-66 | running over two field lists in a row equals running over their concatenation |
| Tokenizer.TokenizeKeepsOrder | dir_parser/parser.go:52-66 | the names from a prefix of the fields come first, unchanged and in order, in the names from all of them |
| Tokenizer.Tokenize | dir_parser/parser.go:52-66 | n fields yield at most n names |
| Tokenizer.Gather | dir_parser/parser.go:63-64 | plain words only grow the pending buffer, each followed by one space, and emit nothing |
| Tokenizer.SpacedJoin | dir_parser/parser.go:59 | the buffer of words is their single-space join plus one space, so trimming that space gives the join |
| Tokenizer.SpacedName | dir_parser/parser.go:57-64 | the words before a size token become one file name joined by single spaces; a size token with nothing pending emits nothing |
| Tokenizer.CloseName | dir_parser/parser.go:57-61 | a size token closes the pending name, less its trailing space, as one file name, or emits nothing when no name is pending, and empties the buffer |
| Tokenizer.ReadLine | dir_parser/parser.go:52-66 | a readable listing line yields its file name, or its directory name with the slash |
| Tokenizer.ReadLines | dir_parser/parser.go:52-66 | readable lines yield their file names and directory names, appended in order |
| Tokenizer.TokenizeLines | dir_parser/parser.go:52-66 | tokenizing the fields of readable lines gives back exactly their file names and directory names |
| DirParser.Pieces | dir_parser/parser.go:89 | a response splits into one to three pieces |
| DirParser.UsedAttempt | dir_parser/parser.go:92-100 | the attempt used is the first one with at least two pieces, or the tenth retry |
| DirParser.FetchListing | dir_parser/parser.go:88-100 | the loop makes one to eleven calls; all calls but the last had fewer than two pieces; unless the retries ran out the last has two or more; the response kept is the one the reference choice picks |
| DirParser.UsedStep | dir_parser/parser.go:94-98 | a short response before the last retry passes the choice to the next attempt |
| DirParser.Classify | dir_parser/parser.go:102-121 | an accepted two-piece response panics; otherwise the status is Failed exactly when the status line lacks "OK", and then the whole output is returned; noFiles means the body is exactly the empty listing; OK returns the body |
| DirParser.GetDirectory | dir_parser/parser.go:85-121 | one to eleven calls; the result classifies the last response; every earlier response was short |
| DirParser.DirectoryFailure | dir_parser/parser.go:107-110 | a server-error message for the path is recorded exactly when the status is Failed |
| DirParser.ExecParseDir | dir_parser/parser.go:44-79 | one to eleven `cf files` calls |
| DirParser.Interpret | dir_parser/parser.go:44-79 | the calls made are passed through; the result never ends as `Truncated` (only the walk's fuel does), though it can exit or panic; entries come only with the process running and no failure recorded |
| DirParser.ExecParseDirOutcome | dir_parser/parser.go:44-79 | a panic exactly for an accepted response without a body; an exit exactly at `/` for a rejected response or an empty directory; a failure message exactly for a rejected response |
| DirParser.ExecParseDirEntries | dir_parser/parser.go:47-67 | entries come only from an accepted, non-empty body, and have the tokenizer's shape |
| DirParser.ExecParseDirListing | dir_parser/parser.go:44-67 | a banner, an "OK" line and a body list exactly what the tokenizer reads from the body, on the first call, with no failure |
| Filter.Normalize | filter/filter.go:43-53 | an entry is dropped exactly when it is all white space; a kept non-empty entry starts with `/` |
| Filter.NormalizeAll | filter/filter.go:43-53 | the normalised list is no longer than the input |
| Filter.NormalizeAllRooted | filter/filter.go:47-49 | every normalised entry is empty or starts with `/` |
| Filter.NormalizeAllAppend | filter/filter.go:43-53 | normalising a concatenation normalises each part in order |
| Filter.NormalizeAllCount | filter/filter.go:46 | one output entry per non-blank input entry |
| Filter.NormalizeAllMembers | filter/filter.go:43-53 | every non-blank input has its normal form in the output, and every output entry is the normal form of an input |
| Filter.GetFilterListParts | filter/filter.go:9-56 | the list is the normalised `.cfignore` lines followed by the normalised omit pieces; a missing `.cfignore` adds nothing |
| Filter.NothingToNormalize | filter/filter.go:35 | splitting the empty string leaves nothing after normalising |
| Filter.GetFilterList | filter/filter.go:9-56 | every filter entry is empty or starts with `/` |
| Filter.BlankOmit | filter/filter.go:35-38 | a blank omit value adds no entry |
| Filter.GetFilterListLength | filter/filter.go:9-56 | the list has one entry per non-blank line and non-blank omit piece |
| Filter.SlashVariants | filter/filter.go:47-49 | `app`, `/app`, `app/` and `/app/` all become `/app` |
| Filter.NormalizeUnpadded | filter/filter.go:44 | an entry with no white space at its ends is not trimmed |
| Filter.NormalizePadded | filter/filter.go:43-49 | white space around an entry, such as a `.cfignore` line's trailing carriage return, does not change its normal form |
| Filter.EmptyEntry | filter/filter.go:44-49 | an entry becomes the empty entry exactly when it trims to a lone slash |
| Filter.CheckToFilter | filter/filter.go:58-71 | a path is filtered exactly when, less one trailing slash and then the root prefix, it is on the list |
| Filter.Member | filter/filter.go:62-68 | the loop answers true exactly when the path is on the list |
| Filter.EmptyListFiltersNothing | filter/filter.go:58-71 | an empty list filters nothing |
| Filter.CheckToFilterSetOnly | filter/filter.go:62-68 | only membership matters: order and repeats on the list do not |
| Filter.ExactMatch | filter/filter.go:58-71 | a path under the root matches its entry with or without a directory's trailing slash |
| Filter.NoPrefixMatch | filter/filter.go:65 | an entry matches neither a longer sibling name nor anything below it |
| Downloader.CheckDownload | downloader/download.go:167-184 | no failure exactly when there is a status line containing "OK"; otherwise the path's server error |
| Downloader.LastAttempt | downloader/download.go:148-151 | the loop stops at one of the seven attempts |
| Downloader.Retry | downloader/download.go:146-151 | one to seven attempts; the result is that of the last attempt; every earlier attempt failed; a failure means all seven were made |
| Downloader.LastAttemptIsFirstSuccess | downloader/download.go:148-151 | the attempt the loop stops at is the first success, or the seventh when every attempt fails |
| Downloader.WriteWithRetry | downloader/download.go:146-151 | one to seven attempts; success is that of the last; every earlier one failed; a failure means seven attempts; the sleeps before retries are 1, 2, 4, … seconds, one per retry |
| Downloader.Content | downloader/download.go:137-139 | the written text is the body, or nothing when the body mentions "No files found" |
| Downloader.WriteFile | downloader/download.go:126-165 | a file is counted exactly when it is written; only a running process writes; a panic records no failure; at most seven attempts |
| Downloader.DownloadFile | downloader/download.go:116-124 | a counted file had a three-piece response whose status line contains "OK"; counted exactly when written; only a running process writes |
| Downloader.WriteFileAccounting | downloader/download.go:126-165 | unless it panics, a file is either counted or adds one failure, never both; it is counted exactly when it is written |
| Downloader.WriteFileServerFailure | downloader/download.go:130-132 | a response without an "OK" status line is neither written nor counted and records a server error |
| Downloader.WriteFileWrites | downloader/download.go:126-165 | an accepted body is counted exactly when one of the seven attempts succeeds, and it is written as the content on the first success; otherwise a write error after seven attempts |
| Downloader.DownloadFileBody | downloader/download.go:116-165 | a banner, an "OK" line and a body are written as the content on the first attempt |
| Downloader.DownloadFileOneLine | downloader/download.go:127-130 | a one-line response is rejected with a server error |
| LegacyParser.ExecParseDir | parser.go:18-88 | exactly one `cf files` call |
| LegacyParser.ExecParseDirOutcome | parser.go:18-88 | a panic exactly below three pieces; an exit exactly for a transport error not caught first by the empty-body rule (the 190001 rule catches it even then); a failure exactly for FAILED on an error-free, non-empty response; entries only when running without failure |
| LegacyParser.TransportErrorRecordsNothing | parser.go:45-66 | a failed call records no failure and yields no entries |
| LegacyParser.StatusLineOnlyFailed | parser.go:25-66 | the status line matters only through FAILED: an app "not found" line acts like an "OK" line |
| LegacyParser.WithoutFailed | parser.go:34-87 | without FAILED, the result depends only on the body and the transport error |
| LegacyParser.ExecParseDirListing | parser.go:68-87 | a good listing yields what the shared tokenizer reads from the body |
| Monolith.LineEntries | download.go:231-236 | one entry per `.cfignore` line |
| Monolith.OmitEntries | download.go:249-255 | one entry per omit piece |
| Monolith.DropTrailingEmpty | download.go:240-243 | an empty last element is always dropped, and only that one; otherwise the list is unchanged |
| Monolith.FinishAll | download.go:262-270 | the final pass never lengthens the list |
| Monolith.Finish | download.go:263-267 | a kept entry starts with `/`, does not trim to a lone slash, and after that slash is the entry less one trailing slash |
| Monolith.FinishAllKept | download.go:262-270 | every entry of the final pass is kept |
| Monolith.GetFilterList | download.go:222-273 | every filter entry starts with `/` and none trims to a lone slash |
| Monolith.FinishAllAppend | download.go:262-270 | the final pass over a concatenation is the concatenation of the passes |
| Monolith.EmptyOmit | download.go:247 | an empty omit value adds no entry |
| Monolith.TrailingDropRedundant | download.go:240-243 | dropping the trailing empty line changes nothing, since the final pass drops empty lines anyway |
| Monolith.LineNotTrimmed | download.go:231-238 | a `.cfignore` line keeps its inner and outer white space |
| Monolith.LoneSlashDiffers | download.go:267 | a lone slash is the empty entry in the refactored filter but dropped here |
| Monolith.DownloadFile | download.go:384-422 | a server error writes nothing, counts nothing and lets the process go on; the process goes on exactly when the file was refused or written; a written file took one attempt |
| Monolith.DownloadFileOutcome | download.go:384-422 | a panic exactly below three pieces; FAILED records one server error and writes nothing; the counter moves only when not verbose, already before a failed write ends the process; a written file holds the body verbatim |
| Loaders.DownloadFile | loaders.go:67-103 | the process goes on exactly when the file was written, with one attempt, whatever the status line said |
| Loaders.CheckDownload | loaders.go:105-124 | a panic exactly below two pieces; FAILED records a server error; otherwise a transport error ends the process |
| Loaders.FailedStillWritten | loaders.go:85-103 | a FAILED response is recorded as a failure and still written and counted |
| Loaders.CountedBeforeWrite | loaders.go:91-97 | once the check passes, the counter moves exactly when not verbose, whatever the write does |
| Loaders.WriteErrorExits | loaders.go:67-75 | a failed write ends the process and writes nothing |
| Prototype.EvenTokens | test.go:90 | the loop visits (n+1)/2 of n fields |
| Prototype.Select | test.go:91-95 | the selected names all end with `/` (directories) or none do (files) |
| Prototype.Pairwise | test.go:88-97 | the loop's files and directories are exactly the even-position fields without and with a trailing slash |
| Prototype.Advance | test.go:90-96 | one turn of the loop keeps the loop invariant |
| Prototype.Done | test.go:90 | at loop exit the accumulated lists are the full selection |
| Prototype.OddFieldsIgnored | test.go:90 | fields at odd positions do not affect the result |
| Prototype.PairwiseCount | test.go:91-95 | every visited field lands in exactly one of the two lists |
| Prototype.ExecParseDir | test.go:69-99 | one call, no failure recorded; a panic exactly below three pieces; an exit exactly for a transport error on a non-empty body; directories end with `/`, files do not |
| Prototype.DownloadFile | test.go:101-122 | nothing counted or recorded; written, verbatim, exactly when there are three pieces, no "status code", no transport error and the write works; otherwise those last two end the process |
| Prototype.Context | test.go:47-56 | the local root is `<wd>/<app>` followed by `-concurrent/`; the starting path ends with `/`; it is `/` unless there are exactly three arguments, when it is the third plus at most one slash, and the third itself when it already ends with `/` |
| Prototype.ContextIdempotent | test.go:50-56 | giving the computed starting path again gives it back |
| FakeExec.EntryText | cmd_exec_fake/cmd_exec.go:49-53 | an entry's line starts with a newline and ends in `-` exactly for a directory |
| FakeExec.ListingBody | cmd_exec_fake/cmd_exec.go:47-54 | the listing is empty exactly when there are no entries, and otherwise starts with a newline |
| FakeExec.GetFile | cmd_exec_fake/cmd_exec.go:32-63 | never an error; the configured output in plain mode; otherwise the banner and "OK" line come first |
| FakeExec.AsLines | cmd_exec_fake/cmd_exec.go:48-54 | one listing line per entry, in enumeration order |
| FakeExec.SizesAreDelimiters | cmd_exec_fake/cmd_exec.go:50-52 | the fake's size columns `-` and `1B` are size tokens |
| FakeExec.EntryFields | cmd_exec_fake/cmd_exec.go:49-53 | an entry's line splits into its name (with a directory's slash) and its size |
| FakeExec.DirEntryFields | cmd_exec_fake/cmd_exec.go:49-50 | a directory entry's line, followed by white space or nothing, splits into the name with its slash and the size `-` |
| FakeExec.FileEntryFields | cmd_exec_fake/cmd_exec.go:51-52 | a file entry's line, followed by white space or nothing, splits into the name and the size `1B` |
| FakeExec.ListingFields | cmd_exec_fake/cmd_exec.go:48-54 | the fields of the fake's listing are the lines' tokens in order |
| FakeExec.ListingBodyEnd | cmd_exec_fake/cmd_exec.go:47-54 | the fake's listing never ends with a newline, so it is never the empty-directory body |
| FakeExec.AllReadableLines | cmd_exec_fake/cmd_exec.go:48-54 | the lines of plain entries are readable by the tokenizer |
| FakeExec.BannerLines | cmd_exec_fake/cmd_exec.go:39 | the banner and the status line are complete lines and the status says OK |
| FakeExec.ParseListing | cmd_exec_fake/cmd_exec.go:44-56 | the tokenizer reads the fake's listing back as its entries |
| FakeExec.ListingRoundTrip | cmd_exec_fake/cmd_exec.go:44-56 | the refactored parser, fed the fake's listing, returns the file names and the slashed directory names in order, on the first call, with no failure |
| FakeExec.FileRoundTrip | cmd_exec_fake/cmd_exec.go:58-60 | the downloader, fed a fake file, writes its content on the first successful attempt |
| ListingExample.LineFields | dir_parser/dir_parser_test.go:31 | a printed line splits into its name token and its size token |
| ListingExample.ListingFields | dir_parser/dir_parser_test.go:31 | the fields of a printed listing are its lines' tokens |
| ListingExample.ParsePrinted | dir_parser/parser.go:44-67 | a printed listing parses back to its file names and slashed directory names |
| ListingExample.FirstUnitTest | dir_parser/dir_parser_test.go:30-43 | the test's listing yields the five file names and three directory names it expects, in order |
| ListingExample.TestFileNames | dir_parser/dir_parser_test.go:33-38 | the test listing's files are `.bash_logout`, `.bashrc`, `.profile`, `run.pid`, `staging_info.yml` |
| ListingExample.TestDirNames | dir_parser/dir_parser_test.go:39-42 | the test listing's directories are `app/`, `logs/`, `tmp/` |
| Walk.FileStep | downloader/download.go:86 | a file download never ends as `Truncated` (only the walk's fuel does), though it can end the process; it writes only while the process runs |
| Walk.ListStep | downloader/download.go:103 | a listing never ends as `Truncated` (only the walk's fuel does), though it can end the process; it makes at least one `cf files` call |
| Walk.AfterFile | downloader/download.go:86-87 | a file unit fetches exactly that file, starts one unit, finishes it exactly when the process goes on, and writes at most one local file |
| Walk.AfterList | downloader/download.go:103 | a listing records exactly that directory as listed, fetches nothing, and adds at most its one failure, hidden in the refactored downloader |
| Walk.Spawn | downloader/download.go:105-106 | a subdirectory walk starts one unit exactly in the concurrent generations, and changes nothing else |
| Walk.Kept | downloader/download.go:76-84 | no kept path is filtered |
| Walk.NoFilterKeepsAll | test.go:139-148 | the prototype keeps every entry, as the read path plus the name, in order |
| Walk.Files | downloader/download.go:76-88 | the file loop keeps the walk's guarantees, and when it runs to the end has fetched exactly the unfiltered files, as read path plus name, in listing order, one unit each |
| Walk.FileUnit | downloader/download.go:80-87 | one pass of the file loop keeps the guarantees |
| Walk.Chain | downloader/download.go:103-106 | the guarantees compose from a subdirectory's walk to its parent's |
| Walk.Download | downloader/download.go:68-109 | whatever it does, every file fetched and every directory listed lies below the read path and is not filtered; lists only grow; in the refactored downloader, unless the walk ended in a panic, every fetched file was counted or reported; while running, every unit it started is finished, and so is its own unit except in the synchronous prototype, which never calls `Done` |
| Walk.Dirs | downloader/download.go:91-107 | the directory loop keeps the guarantees and, when it runs to the end, has listed every unfiltered subdirectory |
| Walk.Visit | downloader/download.go:94-106 | one unfiltered subdirectory is listed and walked, keeping the guarantees |
| Walk.ListStopped | downloader/download.go:103 | a listing that ends the process leaves the directory listed and nothing else |
| Walk.SubWalk | downloader/download.go:103-106 | listing, starting and walking a subdirectory keep the guarantees and leave it listed |
| Walk.FromRoot | main.go:150-155 | if the process is still running after `wg.Wait`, all units are finished in the concurrent generations, and all but the root's unit in the synchronous prototype; refactored accounting holds; every fetched file lies below the starting path and is not filtered |
| WalkTrace.WriteAt | downloader/download.go:77-87 | a file download writes at most one local file, at the local path it was given, with the content the download produced, and none exactly when the download writes nothing |
| WalkTrace.FilesFollow | downloader/download.go:76-88 | while running, the file loop fetches the unfiltered files in order, writes their mirrors, and starts one unit per file |
| WalkTrace.DownloadFollows | downloader/download.go:68-109 | while running, a walk does exactly what the trace of its listing says: files first, then each unfiltered subdirectory listed and walked, one unit per file and, when concurrent, per directory |
| WalkTrace.DirsFollow | downloader/download.go:91-107 | while running, the directory loop lists and walks each unfiltered subdirectory in order, and nothing for a filtered one |
| WalkTrace.VisitFollows | downloader/download.go:94-106 | while running, a subdirectory visit lists it and then walks what its listing returned |
| WalkTrace.ListedFollows | downloader/download.go:103-106 | listing a subdirectory, starting its unit and walking its listing follow the listing followed by the walk's trace |
| WalkTrace.FilesExplained | downloader/download.go:76-88 | the file loop's trace fetches exactly the unfiltered names as read path plus name, lists nothing, and writes each file at the write path plus the same name |
| WalkTrace.TreeExplained | downloader/download.go:68-109 | a directory's trace fetches its unfiltered files and then those of each directory it lists, writes each at its mirror, and lists only unfiltered subdirectories of listings |
| WalkTrace.DirsExplained | downloader/download.go:91-107 | the subdirectory loop's trace fetches only files of directories it lists and lists only unfiltered subdirectories of listings |
| WalkTrace.SubExplained | downloader/download.go:94-106 | a subdirectory's trace lists it first, then only unfiltered subdirectories of listings, and fetches only files of listed directories |
| WalkTrace.WalkExplained | downloader/download.go:68-109 | a walk still running fetched, in order, the unfiltered files of its listing and then of each directory it listed; listed only unfiltered subdirectories of its listing or of listed directories, so nothing is found through a filtered directory; wrote each fetched file whose download wrote it at the write path plus the same relative path; started one unit per file and, when concurrent, per directory |
| WalkTrace.SlashedNameKept | filter/filter.go:58-71 | with a directory filtered, its own entry is skipped, but an entry of the parent listing whose name holds a slash and names a path below it is kept |
| WalkTrace.FilteredDir | filter/filter.go:58-71 | a directory path with its trailing slash matches the entry naming it |
| WalkTrace.KeptBelow | filter/filter.go:58-71 | a path below a filtered directory does not match the directory's entry |
| Cli.GetDirectoryContext | main.go:178-198 | the local root extends the base directory and ends with `/`; the starting path starts and ends with `/` |
| Cli.RelativeEnds | main.go:185-193 | the path appended to the local root is empty or ends with `/`; the starting path starts and ends with `/` |
| Cli.NoPathArgument | main.go:182-183 | without a path argument the walk starts at `/` and goes to the base directory |
| Cli.PathSpellings | cf_download_test.go:101-113 | `p`, `/p`, `p/` and `/p/` all start at `/p/` and go to `<base>p/` |
| Cli.RootFollowsPath | main.go:188-193 | unless the argument starts with two slashes, the local root is the base directory plus the starting path without its leading slash |
| Cli.Session | main.go:140-155 | a root listing that ends the process leaves the walk stopped the same way with nothing fetched; the starting path is the first listed; nothing is printed yet |
| Cli.Config | main.go:117-137 | the refactored downloader runs with the run's verbosity and a filter list whose entries are empty or start with `/` |
| Cli.SessionOutcome | main.go:140-162 | a root listing that ends the process fetches nothing; while running every unit finishes; the report is the parser's failures then the downloader's; refactored accounting; every fetched file is below the start and unfiltered |
| Cli.RunAsWritten | main.go:156 | prints zero, whatever the walk did, which is the walk of the intended run |
| Cli.Run | main.go:117-162 | while the process runs, all units finish; the report lists the root listing's failure then the walk's; in the refactored downloader this run uses, unless the walk ended in a panic, the printed count plus the failures is the number of files fetched; every fetched file is below the start and not filtered |
| Cli.CompletedCountLost | main.go:156 | the intended line prints the downloader's count, and the line printed as written agrees with it exactly when no file was downloaded |

## Left out

- I/O: `cf files`, file writes and directory creation are inputs of the model. Their outputs and success are given, and nothing is executed.
- Concurrency: goroutines run in one sequential, depth-first order. The `WaitGroup` is modelled by the `spawned`/`done` counters. Other interleavings, and the data races on the shared counters and failure lists, are not modelled.
- Walk.Download: recursion is bounded by a fuel argument. A walk deeper than the fuel ends as `Truncated`, which the real program never does. Every property holds whatever the fuel.
- Walk.Visit: the creation of each local subdirectory is modelled only as whether it fails. Which directories were created is not recorded.
- Sleeps: the three-second retry sleep and the write-retry sleeps are not timed. The write delays are returned as a list.
- Console output: ANSI colours, the Windows message variants and `consoleWriter`'s progress line are not modelled. The messages are kept only as the two failure texts, `Outcomes.ServerError` and `Outcomes.WriteError`. The text printed for the "not found" and 190001 cases is dropped.
- The CLI front end is not modelled: `ParseFlags`, the `CF_TRACE` check, the `Exists`/`--overwrite` check, `GOMAXPROCS` and `PrintCompletionInfo`. The model starts from the parsed flags.
- `filepath.FromSlash` on local paths is the identity here, as on Unix.
- Strings are sequences of characters, not UTF-8 bytes.
- `cmd_exec` (the real command runner) is not part of this model; it is the `fetch` input.
- The refactored downloader calls `CheckToFilter` with two arguments after stripping the root itself, whereas `filter.go` has the three-argument form. Both are modelled as the three-argument `Filter.CheckToFilter` with the downloader's root. `loaders.go`'s directory walk is the same as `download.go`'s and is modelled by the `Snapshot` variant with `download.go`'s filter.
- Walk.FromRoot: with `superConcurrent` false, the prototype's `download` never calls `wg.Done` (test.go:125-127) although `Run` added a unit for the root (test.go:59). So `wg.Wait` (test.go:64) would block for ever. The model ends such a walk with the root's unit still open. `Run` sets `superConcurrent` to true (test.go:34), so this is never reached.
- The prototype's `Run` starting the root walk in its own goroutine is modelled like the refactored `Run`: one unit for the root.
- The app "not found" check of the older parsers only prints a message, so it has no effect in the model beyond the panic when the status line is missing.
- The package-level failure lists are not printed at the end. `Cli.Run` returns the report instead.

## Findings

| source | as written | input that shows it | evidently intended | confidence | as-written member | corrected member |
|---|---|---|---|---|---|---|
| main.go:156 | `Run` prints the package variable `filesDownloaded` (main.go:61), which nothing in the refactored code assigns, so "Files completed" is always 0 | any run that downloads at least one file | print the downloader's count, `dloader.GetFilesDownloadedCount()` | not executed | Cli.RunAsWritten (with Cli.CompletedCountLost) | Cli.Run |

=== FILE: cli.dfy ===
/**
 The plugin's `Run` from the point where the flags are parsed: build the
 filter list, work out the local root and the remote starting path, list
 the starting path, walk it with the refactored downloader, wait for every
 unit, and gather the failure report (the root parser's failures first).
 */
module Cli {
  import opened Text
  import opened Outcomes
  import Filter
  import DirParser
  import Walk

  /** The local directory a download goes to when no path is given. */
  function BaseRoot(workingDir: String, appName: String): String {
    workingDir + "/" + appName + "-download/"
  }

  /** Whether the third argument is a starting path rather than a flag. */
  predicate HasPathArgument(args: seq<String>) {
    |args| > 2 && !("-" <= args[2])
  }

  /**
   `GetDirectoryContext`: the local root and the remote starting path. A
   path argument gets a trailing slash, loses one leading slash, is
   appended to the local root, and gets its leading slash back.
   */
  function GetDirectoryContext(workingDir: String, appName: String, args: seq<String>): (r: (String, String))
    ensures BaseRoot(workingDir, appName) <= r.0 && HasSuffix(r.0, "/")
    ensures r.1 != [] && r.1[0] == '/' && HasSuffix(r.1, "/")
  {
    var root := BaseRoot(workingDir, appName);
    BaseRootEnds(workingDir, appName);
    if HasPathArgument(args) then
      var p := Relative(args[2]);
      RelativeEnds(args[2]);
      SlashEnd(root + p);
      assert p != [] ==> (root + p)[|root + p| - 1] == p[|p| - 1];
      (root + p, Lead(p))
    else
      (root, "/")
  }

  lemma BaseRootEnds(workingDir: String, appName: String)
    ensures HasSuffix(BaseRoot(workingDir, appName), "/")
  {
    var s := workingDir + "/" + appName + "-download";
    assert BaseRoot(workingDir, appName) == s + "/";
    SlashEnd(s);
  }

  /** A path argument as it is appended to the local root: a trailing slash added if missing, one leading slash removed. */
  function Relative(arg: String): String {
    TrimPrefix(if HasSuffix(arg, "/") then arg else arg + "/", "/")
  }

  /** The starting path: the relative path with a leading slash put back if it has none. */
  function Lead(p: String): String {
    if "/" <= p then p else "/" + p
  }

  /** The relative path is empty (for a lone slash) or ends with a slash; its starting path starts and ends with one. */
  lemma RelativeEnds(arg: String)
    ensures var p := Relative(arg);
            && (p == [] || HasSuffix(p, "/"))
            && Lead(p) != [] && Lead(p)[0] == '/' && HasSuffix(Lead(p), "/")
  {
    var q := if HasSuffix(arg, "/") then arg else arg + "/";
    SlashEnd(arg);
    SlashEnd(q);
    var p := TrimPrefix(q, "/");
    SlashEnd(p);
    if p != [] {
      assert p[|p| - 1] == q[|q| - 1];
      assert ("/" + p)[|"/" + p| - 1] == p[|p| - 1];
    }
    SlashEnd("/" + p);
  }

  /** Ending with a slash is having a slash as the last character. */
  lemma SlashEnd(s: String)
    ensures HasSuffix(s, "/") <==> s != [] && s[|s| - 1] == '/'
    ensures HasSuffix(s + "/", "/")
  {
    if s != [] && s[|s| - 1] == '/' {
      assert s[|s| - 1..] == "/";
    }
    assert (s + "/")[|s|..] == "/";
  }

  /** With no path argument the download starts at the remote root and goes to the base directory. */
  lemma NoPathArgument(workingDir: String, appName: String, args: seq<String>)
    requires !HasPathArgument(args)
    ensures GetDirectoryContext(workingDir, appName, args) == (BaseRoot(workingDir, appName), "/")
  {
  }

  /**
   The four spellings of a path (with or without a leading slash, with or
   without a trailing slash) all start at `/p/` and go to `<base>p/`.
   */
  lemma PathSpellings(workingDir: String, appName: String, a0: String, a1: String, p: String, arg: String)
    requires p != [] && p[0] != '/' && p[0] != '-' && p[|p| - 1] != '/'
    requires arg in {p, "/" + p, p + "/", "/" + p + "/"}
    ensures GetDirectoryContext(workingDir, appName, [a0, a1, arg]) == (BaseRoot(workingDir, appName) + p + "/", "/" + p + "/")
  {
    var q := p + "/";
    SlashEnd(p);
    SlashEnd("/" + p);
    assert ("/" + p)[|"/" + p| - 1] == p[|p| - 1];
    assert q[0] != '/' && !("/" <= q);
    assert TrimPrefix("/" + q, "/") == q;
    assert TrimPrefix(q, "/") == q;
    assert "/" + p + "/" == "/" + q;
    assert arg[0] != '-';
    assert HasPathArgument([a0, a1, arg]);
    Associative(BaseRoot(workingDir, appName), p, "/");
  }

  /**
   Unless the path argument starts with two slashes, the local root is the
   base directory followed by the starting path without its leading slash.
   */
  lemma RootFollowsPath(workingDir: String, appName: String, args: seq<String>)
    requires HasPathArgument(args) ==> !("//" <= args[2])
    ensures var r := GetDirectoryContext(workingDir, appName, args);
            r.0 == BaseRoot(workingDir, appName) + r.1[1..]
  {
    if HasPathArgument(args) {
      RelativeLead(args[2]);
    }
  }

  lemma RelativeLead(arg: String)
    requires !("//" <= arg)
    ensures Lead(Relative(arg))[1..] == Relative(arg)
  {
    var q := if HasSuffix(arg, "/") then arg else arg + "/";
    SlashEnd(arg);
    if "/" <= q && |q| >= 2 {
      assert |arg| >= 2;
      assert q[1] == arg[1];
      assert !("/" <= q[1..]);
    }
  }

  /** What a run leaves behind. */
  datatype RunResult = RunResult(
    rootListing: ListResult,
    walk: Walk.State,
    report: seq<String>,
    printed: nat)

  /** The package variable `filesDownloaded` that the final line prints: nothing ever assigns it. */
  const FilesDownloadedGlobal: nat := 0

  /**
   The run shared by both readings: list the starting path with the root
   parser; unless that ends the process, start one unit and walk the
   starting path with the downloader, then collect the report.
   */
  function Session(env: Walk.Env, cfg: Walk.Config, start: String, localRoot: String, fuel: nat): (r: RunResult)
    ensures r.rootListing.halt != Running ==> r.walk.halt == r.rootListing.halt && r.walk.fetched == []
    ensures r.walk.listed != [] && r.walk.listed[0] == start
    ensures r.printed == 0
  {
    var l := DirParser.ExecParseDir(start, env.fetch(start));
    var s0 := Walk.State(l.halt, 0, [], [], 1, 0, [], [start], []);
    var s := Walk.Download(cfg, env, l.files, l.dirs, start, localRoot, s0, fuel);
    RunResult(l, s, AsSeq(l.failure) + s.failures, 0)
  }

  /**
   A root listing that ends the process leaves the walk fetching nothing;
   while the process runs, every unit started has finished (`wg.Wait`
   returns);
   unless the walk ended in a panic, every file fetched by the refactored
   downloader was counted or reported; every file fetched lies below the
   starting path and is not filtered.
   */
  lemma SessionOutcome(env: Walk.Env, cfg: Walk.Config, start: String, localRoot: String, fuel: nat)
    requires cfg.variant.Refactored?
    ensures var r := Session(env, cfg, start, localRoot, fuel);
            && (r.rootListing.halt != Running ==> r.walk.halt == r.rootListing.halt && r.walk.fetched == [])
            && (r.walk.halt == Running ==> r.walk.done == r.walk.spawned)
            && r.report == AsSeq(r.rootListing.failure) + r.walk.failures
            && (r.walk.halt != Panicked ==> r.walk.counted + |r.walk.failures| == |r.walk.fetched|)
            && (forall k :: 0 <= k < |r.walk.fetched| ==> start <= r.walk.fetched[k] && !Walk.Filtered(cfg, r.walk.fetched[k]))
  {
    var l := DirParser.ExecParseDir(start, env.fetch(start));
    var s0 := Walk.State(l.halt, 0, [], [], 1, 0, [], [start], []);
    var s := Walk.Download(cfg, env, l.files, l.dirs, start, localRoot, s0, fuel);
    Walk.FromRoot(cfg, env, l.files, l.dirs, start, localRoot, l.halt, fuel);
    assert Session(env, cfg, start, localRoot, fuel) == RunResult(l, s, AsSeq(l.failure) + s.failures, 0);
  }

  /**
   The downloader's settings in `Run`: refactored, with the local root as
   the root it strips, and a filter list whose entries are empty or start
   with a slash.
   */
  function Config(workingDir: String, appName: String, args: seq<String>,
                  cfignore: Option<String>, omit: String, verbose: bool): (c: Walk.Config)
    ensures c.variant.Refactored? && c.verbose == verbose
    ensures forall k :: 0 <= k < |c.filterList| ==> Filter.Rooted(c.filterList[k])
  {
    Walk.Config(Walk.Refactored, verbose, GetDirectoryContext(workingDir, appName, args).0,
                Filter.GetFilterList(cfignore, omit, verbose))
  }

  /** `Run` as written: the final line prints the package variable, which stays at zero. */
  function RunAsWritten(env: Walk.Env, workingDir: String, appName: String, args: seq<String>,
                        cfignore: Option<String>, omit: String, verbose: bool, fuel: nat): (r: RunResult)
    ensures r.printed == 0
    ensures r.walk == Run(env, workingDir, appName, args, cfignore, omit, verbose, fuel).walk
  {
    var ctx := GetDirectoryContext(workingDir, appName, args);
    Session(env, Config(workingDir, appName, args, cfignore, omit, verbose), ctx.1, ctx.0, fuel).(printed := FilesDownloadedGlobal)
  }

  /** `Run` as intended: the final line prints the downloader's count of files downloaded. */
  function Run(env: Walk.Env, workingDir: String, appName: String, args: seq<String>,
               cfignore: Option<String>, omit: String, verbose: bool, fuel: nat): (r: RunResult)
    ensures r.walk.halt == Running ==> r.walk.done == r.walk.spawned
    ensures r.report == AsSeq(r.rootListing.failure) + r.walk.failures
    ensures r.walk.halt != Panicked ==> r.printed + |r.walk.failures| == |r.walk.fetched|
    ensures forall k :: 0 <= k < |r.walk.fetched| ==>
              && GetDirectoryContext(workingDir, appName, args).1 <= r.walk.fetched[k]
              && !Walk.Filtered(Config(workingDir, appName, args, cfignore, omit, verbose), r.walk.fetched[k])
  {
    var ctx := GetDirectoryContext(workingDir, appName, args);
    var cfg := Config(workingDir, appName, args, cfignore, omit, verbose);
    var r := Session(env, cfg, ctx.1, ctx.0, fuel);
    SessionOutcome(env, cfg, ctx.1, ctx.0, fuel);
    r.(printed := r.walk.counted)
  }

  /** The line printed as written agrees with the downloader's count exactly when no file was downloaded. */
  lemma CompletedCountLost(env: Walk.Env, workingDir: String, appName: String, args: seq<String>,
                           cfignore: Option<String>, omit: String, verbose: bool, fuel: nat)
    ensures var r := Run(env, workingDir, appName, args, cfignore, omit, verbose, fuel);
            && r.printed == r.walk.counted
            && (RunAsWritten(env, workingDir, appName, args, cfignore, omit, verbose, fuel).printed == r.printed <==> r.walk.counted == 0)
  {
  }
}

=== FILE: dir_parser.dfy ===
/**
 The `dir_parser` package: fetch a directory listing with `cf files`,
 classify the response, and tokenize the body of a good one. The remote
 command is a function from the attempt number to its response, so the
 retry loop is visible; the parser's failure list is the `failure` field of
 the result, which the caller appends.
 */
module DirParser {
  import opened Text
  import opened Outcomes
  import opened Tokenizer

  /** The status string of `GetDirectory`: "OK", "noFiles" or "Failed". */
  datatype Status = OK | NoFiles | Failed

  /** What `GetDirectory` returns, or that it panicked reading a missing third piece. */
  datatype Directory = Directory(dir: String, status: Status) | IndexPanic

  /** Retries after the first call when the response has fewer than two lines. */
  const MaxRetries: nat := 10

  /** The body `cf files` prints for an empty directory. */
  const EmptyListing: String := "\nNo files found\n"

  /** The pieces of a response: first line, second line, rest. */
  function Pieces(f: Fetched): (ps: seq<String>)
    ensures 1 <= |ps| <= 3
  {
    SplitAfter3(f.output)
  }

  /** The response has a status line that contains "OK". */
  predicate Accepted(ps: seq<String>) {
    |ps| >= 2 && Contains(ps[1], "OK")
  }

  /**
   The attempt whose response is used, counting from `k`: the first one with
   at least two pieces, or the last permitted one.
   */
  function UsedAttempt(fetch: nat -> Fetched, k: nat): (n: nat)
    requires k <= MaxRetries
    ensures k <= n <= MaxRetries
    ensures forall j :: k <= j < n ==> |Pieces(fetch(j))| < 2
    ensures n < MaxRetries ==> |Pieces(fetch(n))| >= 2
    decreases MaxRetries - k
  {
    if k == MaxRetries || |Pieces(fetch(k))| >= 2 then k else UsedAttempt(fetch, k + 1)
  }

  /**
   The retry loop as written: call once, then call again while the response
   has fewer than two pieces and fewer than ten retries were made. Returns
   the response kept and the number of calls made.
   */
  method FetchListing(fetch: nat -> Fetched) returns (out: Fetched, calls: nat)
    ensures 1 <= calls <= MaxRetries + 1
    ensures out == fetch(calls - 1)
    ensures forall j :: 0 <= j < calls - 1 ==> |Pieces(fetch(j))| < 2
    ensures calls <= MaxRetries ==> |Pieces(out)| >= 2
    ensures calls - 1 == UsedAttempt(fetch, 0)
  {
    out := fetch(0);
    var pieces := Pieces(out);
    var iterations := 0;
    while |pieces| < 2 && iterations < MaxRetries
      invariant 0 <= iterations <= MaxRetries
      invariant out == fetch(iterations) && pieces == Pieces(out)
      invariant UsedAttempt(fetch, 0) == UsedAttempt(fetch, iterations)
      decreases MaxRetries - iterations
    {
      UsedStep(fetch, iterations);
      out := fetch(iterations + 1);
      pieces := Pieces(out);
      iterations := iterations + 1;
    }
    var n := UsedAttempt(fetch, 0);
    assert n == iterations;
    calls := n + 1;
  }

  /** An attempt with fewer than two pieces, before the last, passes the choice on to the next one. */
  lemma UsedStep(fetch: nat -> Fetched, k: nat)
    requires k < MaxRetries && |Pieces(fetch(k))| < 2
    ensures UsedAttempt(fetch, k) == UsedAttempt(fetch, k + 1)
  {
  }

  /** Classifies one response (the tail of `GetDirectory`, after the retries). */
  function Classify(out: Fetched): (d: Directory)
    ensures d == IndexPanic <==> Accepted(Pieces(out)) && |Pieces(out)| == 2
    ensures d.Directory? ==> (d.status == Failed <==> !Accepted(Pieces(out)))
    ensures d.Directory? && d.status == Failed ==> d.dir == out.output
    ensures d.Directory? && d.status == NoFiles ==> d.dir == [] && Pieces(out)[2] == EmptyListing
    ensures d.Directory? && d.status == OK ==> d.dir == Pieces(out)[2] && d.dir != EmptyListing
  {
    var ps := Pieces(out);
    if Accepted(ps) then
      if |ps| < 3 then IndexPanic
      else if ps[2] == EmptyListing then Directory([], NoFiles)
      else Directory(ps[2], OK)
    else
      Directory(out.output, Failed)
  }

  /** `GetDirectory`: the retries, then the classification of the response kept. */
  function GetDirectory(fetch: nat -> Fetched): (r: (Directory, nat))
    ensures 1 <= r.1 <= MaxRetries + 1
    ensures r.0 == Classify(fetch(r.1 - 1))
    ensures forall j :: 0 <= j < r.1 - 1 ==> |Pieces(fetch(j))| < 2
  {
    var n := UsedAttempt(fetch, 0);
    (Classify(fetch(n)), n + 1)
  }

  /** The failure `GetDirectory` appends: one message exactly when the status is Failed. */
  function DirectoryFailure(readPath: String, d: Directory): (f: Option<String>)
    ensures f.Some? <==> d.Directory? && d.status == Failed
    ensures f.Some? ==> f.value == ServerError(readPath)
  {
    if d.Directory? && d.status == Failed then Some(ServerError(readPath)) else None
  }

  /**
   `ExecParseDir`: a good listing is tokenized; any other status (empty
   directory included) yields no entries, and ends the process when the
   path is the root.
   */
  function ExecParseDir(readPath: String, fetch: nat -> Fetched): (r: ListResult)
    ensures 1 <= r.fetches <= MaxRetries + 1
  {
    var g := GetDirectory(fetch);
    Interpret(readPath, fetch(g.1 - 1), g.1)
  }

  /**
   `ExecParseDir` once the response to use is known. The process never
   stops for lack of depth here, and entries come only with the walk still
   running and no failure recorded.
   */
  function Interpret(readPath: String, out: Fetched, calls: nat): (r: ListResult)
    ensures r.fetches == calls
    ensures r.halt != Truncated
    ensures r.files != [] || r.dirs != [] ==> r.halt == Running && r.failure.None?
  {
    var d := Classify(out);
    var failure := DirectoryFailure(readPath, d);
    if d == IndexPanic then
      ListResult(Panicked, [], [], failure, calls)
    else if d.status == OK then
      var e := ParseBody(d.dir);
      ListResult(Running, e.files, e.dirs, failure, calls)
    else if readPath == "/" then
      ListResult(Exited, [], [], failure, calls)
    else
      ListResult(Running, [], [], failure, calls)
  }

  /**
   How `ExecParseDir` ends, against the response it used: a panic exactly
   for an accepted response without a body; an exit exactly for the root
   when the response was rejected or the directory empty; a failure message
   exactly for a rejected response.
   */
  lemma ExecParseDirOutcome(readPath: String, out: Fetched, calls: nat)
    ensures var r := Interpret(readPath, out, calls);
            var ps := Pieces(out);
            && (r.halt == Panicked <==> Accepted(ps) && |ps| == 2)
            && (r.halt == Exited <==> readPath == "/" && (!Accepted(ps) || (|ps| == 3 && ps[2] == EmptyListing)))
            && (r.halt != Truncated)
            && (r.failure.Some? <==> !Accepted(ps))
            && (r.failure.Some? ==> r.failure.value == ServerError(readPath))
  {
  }

  /**
   Entries come only from an accepted, non-empty listing, and have the
   tokenizer's shape: directories end with a slash, file names are
   non-empty with no white space at either end.
   */
  lemma ExecParseDirEntries(readPath: String, out: Fetched, calls: nat)
    ensures var r := Interpret(readPath, out, calls);
            var ps := Pieces(out);
            && (r.files != [] || r.dirs != [] ==> Accepted(ps) && |ps| == 3 && ps[2] != EmptyListing)
            && (forall k :: 0 <= k < |r.dirs| ==> GoodDir(r.dirs[k]))
            && (forall k :: 0 <= k < |r.files| ==> GoodFile(r.files[k]))
  {
  }

  /** A response with a status line "OK" and a body lists exactly what the tokenizer reads from the body. */
  lemma ExecParseDirListing(readPath: String, fetch: nat -> Fetched, banner: String, status: String, body: String)
    requires IsLine(banner) && IsLine(status) && Contains(status, "OK") && body != EmptyListing
    requires fetch(0).output == banner + status + body
    ensures ExecParseDir(readPath, fetch) == ListResult(Running, ParseBody(body).files, ParseBody(body).dirs, None, 1)
  {
    SplitAfter3Lines(banner, status, body);
  }
}

=== FILE: downloader.dfy ===
/**
 The per-file half of the `downloader` package: `CheckDownload`, the local
 write with its doubling retry delays, `WriteFile` and `DownloadFile`. The
 remote response is an input; the local write is a function from the
 attempt number to whether that attempt succeeded.
 */
module Downloader {
  import opened Text
  import opened Outcomes
  import opened DirParser

  /** Write attempts in all: the first one and six retries. */
  const MaxAttempts: nat := 7

  /** The seconds slept before each retry: `i` runs 1, 2, 4, ..., 32. */
  const RetryDelays: seq<nat> := [1, 2, 4, 8, 16, 32]

  /** Marker the server prints in the body of an empty file. */
  const EmptyMarker: String := "No files found"

  /**
   `CheckDownload`: a response with a status line containing "OK" is
   accepted; anything else adds one server error to the failure list.
   */
  function CheckDownload(readPath: String, file: seq<String>): (f: Option<String>)
    ensures f.None? <==> Accepted(file)
    ensures f.Some? ==> f.value == ServerError(readPath)
  {
    if |file| >= 2 && Contains(file[1], "OK") then None else Some(ServerError(readPath))
  }

  /** The attempt that ends the retry loop, counting from `k`: the first success, or the last one allowed. */
  function LastAttempt(writes: nat -> bool, k: nat): (n: nat)
    requires k < MaxAttempts
    ensures k <= n < MaxAttempts
    decreases MaxAttempts - k
  {
    if k == MaxAttempts - 1 || writes(k) then k else LastAttempt(writes, k + 1)
  }

  /**
   Reference meaning of the retry loop: how many attempts it makes and
   whether the file ends up written. The loop stops at the first attempt
   that succeeds, and gives up after the seventh.
   */
  function Retry(writes: nat -> bool): (r: (nat, bool))
    ensures 1 <= r.0 <= MaxAttempts
    ensures r.1 == writes(r.0 - 1)
    ensures forall j :: 0 <= j < r.0 - 1 ==> !writes(j)
    ensures !r.1 ==> r.0 == MaxAttempts
  {
    var n := LastAttempt(writes, 0);
    LastAttemptIsFirstSuccess(writes, 0);
    (n + 1, writes(n))
  }

  /** The attempt the retry loop stops at is the first success, or the seventh attempt when all fail. */
  lemma {:induction false} LastAttemptIsFirstSuccess(writes: nat -> bool, k: nat)
    requires k < MaxAttempts
    ensures forall j :: k <= j < LastAttempt(writes, k) ==> !writes(j)
    ensures writes(LastAttempt(writes, k)) || LastAttempt(writes, k) == MaxAttempts - 1
    decreases MaxAttempts - k
  {
    if k < MaxAttempts - 1 && !writes(k) {
      LastAttemptIsFirstSuccess(writes, k + 1);
    }
  }

  /**
   The write and its retry loop as written: write once, then, while the last
   write failed and `i <= 32`, sleep `i` seconds, write again and double `i`.
   Returns the attempts made, whether the last one succeeded, and the delays
   slept.
   */
  method WriteWithRetry(writes: nat -> bool) returns (attempts: nat, ok: bool, delays: seq<nat>)
    ensures 1 <= attempts <= MaxAttempts
    ensures ok == writes(attempts - 1)
    ensures forall j :: 0 <= j < attempts - 1 ==> !writes(j)
    ensures !ok ==> attempts == MaxAttempts
    ensures delays == RetryDelays[..attempts - 1]
    ensures (attempts, ok) == Retry(writes)
  {
    ok := writes(0);
    attempts := 1;
    delays := [];
    var i := 1;
    while i <= 32 && !ok
      invariant 1 <= attempts <= MaxAttempts
      invariant i == [1, 2, 4, 8, 16, 32, 64][attempts - 1]
      invariant ok == writes(attempts - 1)
      invariant forall j :: 0 <= j < attempts - 1 ==> !writes(j)
      invariant delays == RetryDelays[..attempts - 1]
      invariant LastAttempt(writes, 0) == LastAttempt(writes, attempts - 1)
      decreases MaxAttempts - attempts
    {
      delays := delays + [i];
      ok := writes(attempts);
      attempts := attempts + 1;
      i := i * 2;
    }
  }

  /** What reaches the local file: piece three, or nothing when it holds the empty-file marker. */
  function Content(body: String): (c: String)
    ensures c == [] || c == body
    ensures Contains(body, EmptyMarker) ==> c == []
    ensures !Contains(body, EmptyMarker) ==> c == body
  {
    if Contains(body, EmptyMarker) then [] else body
  }

  /**
   `WriteFile`: check the response; if it is accepted, write its body (with
   retries), then either count the file or record a write error. Reading
   piece three of an accepted two-piece response panics.
   */
  function WriteFile(readPath: String, file: seq<String>, writes: nat -> bool): (r: FileResult)
    ensures r.counted <==> r.written.Some?
    ensures r.written.Some? ==> r.halt == Running
    ensures r.halt != Running ==> r.failure.None? && r.halt != Truncated
    ensures r.attempts <= MaxAttempts
  {
    var check := CheckDownload(readPath, file);
    if check.Some? then
      FileResult(Running, false, check, None, 0)
    else if |file| < 3 then
      FileResult(Panicked, false, None, None, 0)
    else
      var retry := Retry(writes);
      if retry.1 then FileResult(Running, true, None, Some(Content(file[2])), retry.0)
      else FileResult(Running, false, Some(WriteError(readPath)), None, retry.0)
  }

  /**
   `DownloadFile`: fetch the file, split the response into three pieces and
   write it. A file counted had an accepted response with a body.
   */
  function DownloadFile(readPath: String, out: Fetched, writes: nat -> bool): (r: FileResult)
    ensures r.counted ==> Accepted(SplitAfter3(out.output)) && |SplitAfter3(out.output)| == 3
    ensures r.counted <==> r.written.Some?
    ensures r.written.Some? ==> r.halt == Running
    ensures r.halt != Truncated
  {
    WriteFile(readPath, SplitAfter3(out.output), writes)
  }

  /**
   Every `WriteFile` that does not panic either counts the file or records
   exactly one failure, never both; a panic does neither.
   */
  lemma WriteFileAccounting(readPath: String, file: seq<String>, writes: nat -> bool)
    ensures var r := WriteFile(readPath, file, writes);
            && (r.halt == Running <==> !(Accepted(file) && |file| == 2))
            && (r.halt == Running ==> (r.counted <==> r.failure.None?))
            && (r.halt != Running ==> !r.counted && r.failure.None? && r.written.None?)
            && (r.counted <==> r.written.Some?)
  {
  }

  /** A response the server did not accept is neither written nor counted, and records a server error. */
  lemma WriteFileServerFailure(readPath: String, file: seq<String>, writes: nat -> bool)
    requires !Accepted(file)
    ensures WriteFile(readPath, file, writes) == FileResult(Running, false, Some(ServerError(readPath)), None, 0)
  {
  }

  /**
   An accepted three-piece response is written, with the empty-file marker
   replaced by nothing; the file is counted when some attempt among the
   first seven succeeds, and a write error is recorded otherwise.
   */
  lemma WriteFileWrites(readPath: String, file: seq<String>, writes: nat -> bool)
    requires Accepted(file) && |file| == 3
    ensures var r := WriteFile(readPath, file, writes);
            && 1 <= r.attempts <= MaxAttempts
            && (r.counted <==> exists j :: 0 <= j < MaxAttempts && writes(j))
            && (r.counted ==> r.written == Some(Content(file[2])) && writes(r.attempts - 1))
            && (!r.counted ==> r.failure == Some(WriteError(readPath)) && r.attempts == MaxAttempts)
            && (forall j :: 0 <= j < r.attempts - 1 ==> !writes(j))
  {
    LastAttemptIsFirstSuccess(writes, 0);
    var n := LastAttempt(writes, 0);
    if !writes(n) {
      assert forall j :: 0 <= j < MaxAttempts ==> !writes(j);
    }
  }

  /**
   A response made of a banner line, a status line containing "OK" and a
   body is written as that body (empty when it holds the marker) on the
   first successful attempt.
   */
  lemma DownloadFileBody(readPath: String, banner: String, status: String, body: String, writes: nat -> bool)
    requires IsLine(banner) && IsLine(status) && Contains(status, "OK") && writes(0)
    ensures DownloadFile(readPath, Fetched(banner + status + body, false), writes)
         == FileResult(Running, true, None, Some(Content(body)), 1)
  {
    SplitAfter3Lines(banner, status, body);
  }

  /** A response on one line is rejected: no status line. */
  lemma DownloadFileOneLine(readPath: String, out: Fetched, writes: nat -> bool)
    requires '\n' !in out.output
    ensures DownloadFile(readPath, out, writes) == FileResult(Running, false, Some(ServerError(readPath)), None, 0)
  {
  }
}

=== FILE: fake_exec.dfy ===
/**
 The test double `cmd_exec_fake`: in plain mode `GetFile` hands back a
 configured output; in fake-directory mode it answers like `cf files` from
 a local tree, serialising a directory as one line per entry and a file as
 its contents, both behind a fixed banner and an "OK" line. The local tree
 is an input: what `GetFile` finds at the path it was asked for.
 */
module FakeExec {
  import opened Text
  import opened Outcomes
  import opened SizeToken
  import opened Tokenizer
  import DirParser
  import Downloader

  /** The banner line every fake response starts with (written in pieces so that proofs see it has one newline, at the end). */
  const Banner: String := "Getting files for app " + "payToWin in org jstart " + "/ space koldus as " + "email@us.ibm.com..." + "\n"

  const StatusOK: String := "OK\n"

  /** One directory entry as `Readdir` reports it. */
  datatype Entry = Entry(name: String, isDir: bool)

  /** What the local path holds: a directory's entries, in enumeration order, or a file's contents. */
  datatype Target = Dir(entries: seq<Entry>) | File(contents: String)

  /** The fake's state: the output to hand back in plain mode, and whether fake-directory mode is on. */
  datatype Exec = Exec(output: String, useFakeDir: bool)

  /**
   One listing line: a tab-separated size column of `-` for a directory and
   `1B` for a file. It starts a new line and ends in `-` exactly for a
   directory.
   */
  function EntryText(e: Entry): (t: String)
    ensures |t| >= 4 && t[0] == '\n'
    ensures t[|t| - 1] == '-' <==> e.isDir
  {
    if e.isDir then "\n" + e.name + "/\t\t-" else "\n" + e.name + " \t\t1B"
  }

  /** The entries' lines, in order: empty exactly for no entries, and otherwise starting a new line. */
  function ListingBody(es: seq<Entry>): (r: String)
    ensures r == [] <==> es == []
    ensures r != [] ==> r[0] == '\n'
  {
    if es == [] then [] else EntryText(es[0]) + ListingBody(es[1..])
  }

  /** `GetFile`: the configured output in plain mode, else the serialised target; never an error. */
  function GetFile(c: Exec, target: Target): (r: Fetched)
    ensures !r.failed
    ensures !c.useFakeDir ==> r.output == c.output
    ensures c.useFakeDir ==> Banner + StatusOK <= r.output
  {
    if !c.useFakeDir then Fetched(c.output, false)
    else
      var rest := if target.Dir? then ListingBody(target.entries) else target.contents;
      assert Banner + StatusOK + rest == (Banner + StatusOK) + rest;
      Fetched(Banner + StatusOK + rest, false)
  }

  /** The listing line the tokenizer sees for an entry. */
  function AsLine(e: Entry): Line {
    Line(e.name, e.isDir, if e.isDir then "-" else "1B")
  }

  function AsLines(es: seq<Entry>): (ls: seq<Line>)
    ensures |ls| == |es|
    ensures forall k :: 0 <= k < |ls| ==> ls[k] == AsLine(es[k])
  {
    if es == [] then [] else [AsLine(es[0])] + AsLines(es[1..])
  }

  /**
   A name the listing gives back unchanged: one field, and for a file also
   not ending with a slash and not shaped like a size.
   */
  predicate Plain(e: Entry) {
    && e.name != [] && NoSpace(e.name)
    && (!e.isDir ==> !HasSuffix(e.name, "/") && !IsDelimiter(e.name))
  }

  lemma SizesAreDelimiters()
    ensures IsDelimiter("-") && IsDelimiter("1B")
  {
    assert MatchesSizePattern("1B") by {
      assert IsDigit('1') && IsUnit('B');
      DelimiterCharacterisation("1B");
    }
  }

  /** A directory entry's line, followed by white space or nothing, reads as its slashed name and the size `-`. */
  lemma DirEntryFields(name: String, rest: String)
    requires name != [] && NoSpace(name)
    requires rest == [] || IsSpace(rest[0])
    ensures Fields(EntryText(Entry(name, true)) + rest) == [name + "/", "-"] + Fields(rest)
  {
    SlashedWord(name);
    DirText(name, rest);
    FieldsSkipSpace("\n", (name + "/") + ("\t\t" + ("-" + rest)));
    TwoWords(name + "/", "\t\t", "-", rest);
  }

  /** A directory entry's line, regrouped around its two fields. */
  lemma DirText(name: String, rest: String)
    ensures EntryText(Entry(name, true)) + rest == "\n" + ((name + "/") + ("\t\t" + ("-" + rest)))
  {
  }

  /** A file entry's line, followed by white space or nothing, reads as its name and the size `1B`. */
  lemma FileEntryFields(name: String, rest: String)
    requires name != [] && NoSpace(name)
    requires rest == [] || IsSpace(rest[0])
    ensures Fields(EntryText(Entry(name, false)) + rest) == [name, "1B"] + Fields(rest)
  {
    assert EntryText(Entry(name, false)) + rest == "\n" + (name + (" \t\t" + ("1B" + rest)));
    FieldsSkipSpace("\n", name + (" \t\t" + ("1B" + rest)));
    TwoWords(name, " \t\t", "1B", rest);
  }

  /** An entry's line splits into its name token (with the slash for a directory) and its size token. */
  lemma EntryFields(e: Entry, rest: String)
    requires Plain(e)
    requires rest == [] || IsSpace(rest[0])
    ensures Fields(EntryText(e) + rest) == LineTokens(AsLine(e)) + Fields(rest)
  {
    if e.isDir {
      DirEntryFields(e.name, rest);
    } else {
      FileEntryFields(e.name, rest);
    }
  }

  /** The fields of a listing body are the lines' tokens, in order. */
  lemma {:induction false} ListingFields(es: seq<Entry>)
    requires forall k :: 0 <= k < |es| ==> Plain(es[k])
    ensures Fields(ListingBody(es)) == LinesTokens(AsLines(es))
    decreases |es|
  {
    if es != [] {
      var rest := ListingBody(es[1..]);
      ListingFields(es[1..]);
      assert rest == [] || rest[0] == '\n' by {
        if es[1..] != [] {
          assert rest == EntryText(es[1..][0]) + ListingBody(es[1..][1..]);
        }
      }
      EntryFields(es[0], rest);
      assert AsLines(es)[1..] == AsLines(es[1..]);
      Associative(LineTokens(AsLine(es[0])), LinesTokens(AsLines(es[1..])), []);
    }
  }

  /** A listing body never ends with a newline, so it is never the empty-directory body. */
  lemma {:induction false} ListingBodyEnd(es: seq<Entry>)
    ensures ListingBody(es) == [] || ListingBody(es)[|ListingBody(es)| - 1] != '\n'
    decreases |es|
  {
    if es != [] {
      ListingBodyEnd(es[1..]);
      var t := EntryText(es[0]);
      assert t[|t| - 1] != '\n';
    }
  }

  lemma AllReadableLines(es: seq<Entry>)
    requires forall k :: 0 <= k < |es| ==> Plain(es[k])
    ensures forall k :: 0 <= k < |AsLines(es)| ==> Readable(AsLines(es)[k])
  {
    SizesAreDelimiters();
  }

  /**
   Round trip: the refactored parser, fed a fake-directory listing of plain
   names, gives back the file names and the directory names with a slash
   appended, in enumeration order, on the first call and with no failure.
   */
  lemma ListingRoundTrip(readPath: String, es: seq<Entry>, fetch: nat -> Fetched)
    requires forall k :: 0 <= k < |es| ==> Plain(es[k])
    requires fetch(0) == GetFile(Exec([], true), Dir(es))
    ensures DirParser.ExecParseDir(readPath, fetch)
         == ListResult(Running, FileNames(AsLines(es)), DirNames(AsLines(es)), None, 1)
  {
    var body := ListingBody(es);
    ListingBodyEnd(es);
    assert body != DirParser.EmptyListing;
    BannerLines();
    DirParser.ExecParseDirListing(readPath, fetch, Banner, StatusOK, body);
    ParseListing(es);
  }

  /** The tokenizer reads a listing body back as its entries. */
  lemma ParseListing(es: seq<Entry>)
    requires forall k :: 0 <= k < |es| ==> Plain(es[k])
    ensures ParseBody(ListingBody(es)) == Entries(FileNames(AsLines(es)), DirNames(AsLines(es)))
  {
    ListingFields(es);
    AllReadableLines(es);
    TokenizeLines(AsLines(es));
  }

  /** The banner and the status line are complete lines, and the status line says OK. */
  lemma BannerLines()
    ensures IsLine(Banner) && IsLine(StatusOK) && Contains(StatusOK, "OK")
  {
    var a, b, c, d := "Getting files for app ", "payToWin in org jstart ", "/ space koldus as ", "email@us.ibm.com...";
    assert '\n' !in a && '\n' !in b && '\n' !in c && '\n' !in d;
    var text := a + b + c + d;
    assert '\n' !in text;
    assert Banner == text + "\n";
    assert Banner[..|Banner| - 1] == text;
    assert OccursAt(StatusOK, "OK", 0);
  }

  /**
   Round trip for a file: the downloader, fed a fake file, writes its
   contents (nothing if they mention the empty-file marker) on the first
   successful attempt.
   */
  lemma FileRoundTrip(readPath: String, contents: String, writes: nat -> bool)
    requires writes(0)
    ensures Downloader.DownloadFile(readPath, GetFile(Exec([], true), File(contents)), writes)
         == FileResult(Running, true, None, Some(Downloader.Content(contents)), 1)
  {
    BannerLines();
    Downloader.DownloadFileBody(readPath, Banner, StatusOK, contents, writes);
  }
}

=== FILE: filter.dfy ===
/**
 The `filter` package: the list of paths not to download, built from the
 lines of `.cfignore` and the `;`-separated `--omit` value, and the exact
 match test against it. Reading `.cfignore` is I/O; its content is an
 input here, `None` when the file could not be read.
 */
module Filter {
  import opened Text
  import opened Outcomes

  /**
   One line or omit piece, normalised: white space trimmed; a blank entry is
   dropped; otherwise one leading slash removed, a slash put in front, and
   one trailing slash removed.
   */
  function Normalize(e: String): (r: Option<String>)
    ensures r.None? <==> AllSpace(e)
    ensures r.Some? && r.value != [] ==> r.value[0] == '/'
  {
    var t := TrimSpace(e);
    if t == [] then None else Some(TrimSuffix("/" + TrimPrefix(t, "/"), "/"))
  }

  /** The non-blank entries, normalised, in order. */
  function NormalizeAll(es: seq<String>): (r: seq<String>)
    ensures |r| <= |es|
  {
    if es == [] then []
    else
      match Normalize(es[0])
      case None => NormalizeAll(es[1..])
      case Some(x) => [x] + NormalizeAll(es[1..])
  }

  /** Number of entries that are not blank: the reference count for `NormalizeAll`. */
  function NonBlank(es: seq<String>): nat {
    if es == [] then 0 else (if AllSpace(es[0]) then 0 else 1) + NonBlank(es[1..])
  }

  /** `GetFilterList`: `.cfignore` lines first, then the omit pieces, all normalised; every entry is empty or starts with a slash. */
  function GetFilterList(cfignore: Option<String>, omit: String, verbose: bool): (r: seq<String>)
    ensures forall k :: 0 <= k < |r| ==> Rooted(r[k])
  {
    var lines := if cfignore.None? && verbose then [] else Split(Content(cfignore), '\n');
    NormalizeAllRooted(lines + Split(omit, ';'));
    NormalizeAll(lines + Split(omit, ';'))
  }

  /** What the program reads from `.cfignore`: nothing when the file is missing. */
  function Content(cfignore: Option<String>): String {
    if cfignore.Some? then cfignore.value else []
  }

  /** `CheckToFilter`: the path, less one trailing slash and then the root prefix, is an entry. */
  function CheckToFilter(appPath: String, root: String, filterList: seq<String>): (r: bool)
    ensures r <==> TrimPrefix(TrimSuffix(appPath, "/"), root) in filterList
  {
    var comparePath := TrimPrefix(TrimSuffix(appPath, "/"), root);
    Member(comparePath, filterList)
  }

  /** The loop over the list: true at the first entry equal to `x`. */
  function Member(x: String, items: seq<String>): (r: bool)
    ensures r <==> x in items
  {
    if items == [] then false
    else if x == items[0] then true
    else
      assert items == [items[0]] + items[1..];
      Member(x, items[1..])
  }

  /** One step of `NormalizeAll`. */
  lemma NormalizeAllCons(es: seq<String>)
    requires es != []
    ensures NormalizeAll(es) == AsSeq(Normalize(es[0])) + NormalizeAll(es[1..])
  {
    if Normalize(es[0]).None? {
      assert [] + NormalizeAll(es[1..]) == NormalizeAll(es[1..]);
    }
  }

  /** An entry as the list holds it: empty, or starting with a slash. */
  predicate Rooted(x: String) {
    x == [] || x[0] == '/'
  }

  /** Every normalised entry is empty or starts with a slash. */
  lemma {:induction false} NormalizeAllRooted(es: seq<String>)
    ensures All(NormalizeAll(es), Rooted)
    decreases |es|
  {
    if es != [] {
      NormalizeAllRooted(es[1..]);
      NormalizeAllCons(es);
      RootedEntry(Normalize(es[0]));
      AllAppend(AsSeq(Normalize(es[0])), NormalizeAll(es[1..]), Rooted);
    }
  }

  lemma RootedEntry(n: Option<String>)
    requires n.Some? && n.value != [] ==> n.value[0] == '/'
    ensures All(AsSeq(n), Rooted)
  {
    if n.Some? {
      assert AsSeq(n)[0] == n.value;
    }
  }

  /** Normalising a concatenation normalises each part: order between and within groups is kept. */
  lemma {:induction false} NormalizeAllAppend(a: seq<String>, b: seq<String>)
    ensures NormalizeAll(a + b) == NormalizeAll(a) + NormalizeAll(b)
    decreases |a|
  {
    if a == [] {
      assert a + b == b;
    } else {
      assert (a + b)[0] == a[0];
      assert (a + b)[1..] == a[1..] + b;
      NormalizeAllAppend(a[1..], b);
    }
  }

  /** One output entry per non-blank input. */
  lemma {:induction false} NormalizeAllCount(es: seq<String>)
    ensures |NormalizeAll(es)| == NonBlank(es)
    decreases |es|
  {
    if es != [] {
      NormalizeAllCount(es[1..]);
    }
  }

  /** Every non-blank input contributes its normal form, and every output entry comes from an input. */
  lemma {:induction false} NormalizeAllMembers(es: seq<String>)
    ensures forall e :: e in es && !AllSpace(e) ==> Normalize(e).value in NormalizeAll(es)
    ensures forall x :: x in NormalizeAll(es) ==> exists e :: e in es && Normalize(e) == Some(x)
    decreases |es|
  {
    if es != [] {
      NormalizeAllMembers(es[1..]);
      assert forall e :: e in es ==> e == es[0] || e in es[1..];
    }
  }

  /**
   The filter list is the normalised `.cfignore` lines followed by the
   normalised omit pieces; a missing `.cfignore` contributes nothing, as an
   empty one does, whether or not the run is verbose.
   */
  lemma GetFilterListParts(cfignore: Option<String>, omit: String, verbose: bool)
    ensures GetFilterList(cfignore, omit, verbose)
         == NormalizeAll(Split(Content(cfignore), '\n')) + NormalizeAll(Split(omit, ';'))
    ensures cfignore.None? ==> GetFilterList(cfignore, omit, verbose) == NormalizeAll(Split(omit, ';'))
  {
    var lines := if cfignore.None? && verbose then [] else Split(Content(cfignore), '\n');
    NormalizeAllAppend(lines, Split(omit, ';'));
    if cfignore.None? {
      NothingToNormalize('\n');
    }
  }

  /** Splitting the empty string gives one blank piece, which normalises to nothing. */
  lemma NothingToNormalize(sep: char)
    ensures NormalizeAll(Split([], sep)) == []
  {
    var blank: seq<String> := [[]];
    assert Split([], sep) == blank;
    assert Normalize([]) == None;
    NormalizeAllCons(blank);
    assert blank[1..] == [];
  }

  /** An omit value that is empty or all white space adds nothing: its one piece is blank. */
  lemma BlankOmit(cfignore: Option<String>, omit: String, verbose: bool)
    requires AllSpace(omit)
    ensures GetFilterList(cfignore, omit, verbose) == NormalizeAll(Split(Content(cfignore), '\n'))
  {
    assert ';' !in omit;
    var one: seq<String> := [omit];
    assert Split(omit, ';') == one;
    assert Normalize(omit) == None;
    NormalizeAllCons(one);
    assert one[1..] == [];
    GetFilterListParts(cfignore, omit, verbose);
    AppendNothing(NormalizeAll(Split(Content(cfignore), '\n')), NormalizeAll(one));
  }

  lemma AppendNothing(a: seq<String>, b: seq<String>)
    requires b == []
    ensures a + b == a
  {
  }

  /** The list has one entry per non-blank line and non-blank omit piece. */
  lemma GetFilterListLength(cfignore: Option<String>, omit: String, verbose: bool)
    ensures |GetFilterList(cfignore, omit, verbose)| == NonBlank(Split(Content(cfignore), '\n')) + NonBlank(Split(omit, ';'))
  {
    GetFilterListParts(cfignore, omit, verbose);
    NormalizeAllCount(Split(Content(cfignore), '\n'));
    NormalizeAllCount(Split(omit, ';'));
  }

  /** `app`, `/app`, `app/` and `/app/` name the same entry `/app`. */
  lemma SlashVariants(name: String)
    requires name != [] && name[0] != '/' && name[|name| - 1] != '/'
    requires !IsSpace(name[0]) && !IsSpace(name[|name| - 1])
    ensures Normalize(name) == Some("/" + name)
    ensures Normalize("/" + name) == Some("/" + name)
    ensures Normalize(name + "/") == Some("/" + name)
    ensures Normalize("/" + name + "/") == Some("/" + name)
  {
    var b, c, d := "/" + name, name + "/", "/" + name + "/";
    assert b[|b| - 1] == name[|name| - 1] && c[0] == name[0] && d[1..] == c && b[1..] == name;
    NormalizeUnpadded(name);
    NormalizeUnpadded(b);
    NormalizeUnpadded(c);
    NormalizeUnpadded(d);
    assert TrimPrefix(name, "/") == name;
    assert TrimPrefix(b, "/") == name;
    assert TrimPrefix(c, "/") == c;
    assert TrimPrefix(d, "/") == c;
    assert TrimSuffix(b, "/") == b;
    assert TrimSuffix("/" + c, "/") == b by {
      assert ("/" + c)[..|"/" + c| - 1] == b;
    }
  }

  /** An entry with no white space at its ends is not trimmed. */
  lemma NormalizeUnpadded(e: String)
    requires e != [] && !IsSpace(e[0]) && !IsSpace(e[|e| - 1])
    ensures Normalize(e) == Some(TrimSuffix("/" + TrimPrefix(e, "/"), "/"))
  {
    assert TrimSpace(e) == e;
  }

  /** White space around an entry (a `.cfignore` line with spaces or a `\r`) does not change its normal form. */
  lemma NormalizePadded(a: String, e: String, b: String)
    requires AllSpace(a) && AllSpace(b)
    requires e == [] || (!IsSpace(e[0]) && !IsSpace(e[|e| - 1]))
    ensures Normalize(a + (e + b)) == Normalize(e)
  {
    TrimSpacePadded(a, e, b);
    assert TrimSpace(e) == e;
  }

  /** An entry normalises to the empty string exactly when it trims to a lone slash. */
  lemma EmptyEntry(e: String)
    ensures Normalize(e) == Some([]) <==> TrimSpace(e) == "/"
  {
    var t := TrimSpace(e);
    if t != [] {
      var x := "/" + TrimPrefix(t, "/");
      if TrimSuffix(x, "/") == [] {
        assert x == "/";
        assert TrimPrefix(t, "/") == [];
      }
    }
  }

  /** An empty filter list filters nothing. */
  lemma EmptyListFiltersNothing(appPath: String, root: String)
    ensures !CheckToFilter(appPath, root, [])
  {
  }

  /** Only membership matters: the order of the list and repeated entries do not. */
  lemma CheckToFilterSetOnly(appPath: String, root: String, l1: seq<String>, l2: seq<String>)
    requires (set x | x in l1) == (set x | x in l2)
    ensures CheckToFilter(appPath, root, l1) == CheckToFilter(appPath, root, l2)
  {
    var p := TrimPrefix(TrimSuffix(appPath, "/"), root);
    var s1, s2 := set x | x in l1, set x | x in l2;
    assert p in l1 <==> p in s1;
    assert p in l2 <==> p in s2;
    assert CheckToFilter(appPath, root, l1) <==> p in l1;
    assert CheckToFilter(appPath, root, l2) <==> p in l2;
  }

  /** A path below the root matches its entry, with or without the trailing slash of a directory. */
  lemma ExactMatch(root: String, entry: String)
    requires entry != [] && !HasSuffix(entry, "/")
    ensures CheckToFilter(root + entry, root, [entry])
    ensures CheckToFilter(root + entry + "/", root, [entry])
  {
    var p := root + entry;
    assert (p + "/")[|p|..] == "/";
    assert (p + "/")[..|p|] == p;
    assert p[|p| - 1..] == entry[|entry| - 1..];
    assert p[..|root|] == root;
    assert (p + "/")[..|root|] == root;
  }

  /**
   Matching is exact: an entry matches neither a longer sibling name nor
   anything below it (with the root already stripped).
   */
  lemma NoPrefixMatch(entry: String, rest: String)
    requires rest != [] && rest != "/"
    ensures !CheckToFilter(entry + rest, [], [entry])
  {
    var p := entry + rest;
    if HasSuffix(p, "/") {
      assert |rest| >= 2;
    }
    assert |TrimSuffix(p, "/")| > |entry|;
  }
}

=== FILE: legacy_parser.dfy ===
/**
 `execParseDir` of the older single-package snapshots: `parser.go` and the
 monolithic `download.go` carry the same function (only the wording of the
 printed messages differs). One `cf files` call, no retries, and checks in
 this order: an app "not found" status line is only printed; an
 "error code: 190001" body ends the process on a transport error; a body
 containing "No files found" is empty; any other transport error ends the
 process; a FAILED status line records a failure; anything else is
 tokenized as in `dir_parser`.
 */
module LegacyParser {
  import opened Text
  import opened Outcomes
  import opened Tokenizer

  const NotRunning: String := "error code: 190001"
  const EmptyMarker: String := "No files found"

  /** `execParseDir` on the response of its one `cf files` call. */
  function ExecParseDir(readPath: String, out: Fetched): (r: ListResult)
    ensures r.fetches == 1 && r.halt != Truncated
  {
    var ps := SplitAfter3(out.output);
    if |ps| < 3 then
      // `dirSlice[1]` or `dirSlice[2]` is out of range
      ListResult(Panicked, [], [], None, 1)
    else if Contains(ps[2], NotRunning) && out.failed then
      ListResult(Exited, [], [], None, 1)
    else if Contains(ps[2], EmptyMarker) then
      ListResult(Running, [], [], None, 1)
    else if out.failed then
      ListResult(Exited, [], [], None, 1)
    else if Contains(ps[1], "FAILED") then
      ListResult(Running, [], [], Some(ServerError(readPath)), 1)
    else
      var e := ParseBody(ps[2]);
      ListResult(Running, e.files, e.dirs, None, 1)
  }

  /**
   How `execParseDir` ends: a panic exactly for a response of fewer than
   three pieces; an exit exactly for a transport error that the empty-body
   rule does not catch first (the 190001 rule catches it even then); a
   failure exactly for a FAILED status line on an error-free, non-empty
   response.
   */
  lemma ExecParseDirOutcome(readPath: String, out: Fetched)
    ensures var r := ExecParseDir(readPath, out);
            var ps := SplitAfter3(out.output);
            && (r.halt == Panicked <==> |ps| < 3)
            && (r.halt == Exited <==> |ps| == 3 && out.failed && (Contains(ps[2], NotRunning) || !Contains(ps[2], EmptyMarker)))
            && r.halt != Truncated
            && (r.failure.Some? <==> |ps| == 3 && !out.failed && !Contains(ps[2], EmptyMarker) && Contains(ps[1], "FAILED"))
            && (r.failure.Some? ==> r.failure.value == ServerError(readPath))
            && (r.files != [] || r.dirs != [] ==> r.halt == Running && r.failure.None?)
  {
  }

  /**
   A transport error never reaches the FAILED check: a failed call either
   ends the process, panics, or (empty body) returns nothing, and records
   no failure.
   */
  lemma TransportErrorRecordsNothing(readPath: String, out: Fetched)
    requires out.failed
    ensures ExecParseDir(readPath, out).failure.None?
    ensures ExecParseDir(readPath, out).files == [] && ExecParseDir(readPath, out).dirs == []
  {
    var ps := SplitAfter3(out.output);
    if |ps| == 3 && !(Contains(ps[2], NotRunning) && out.failed) && !Contains(ps[2], EmptyMarker) {
      assert ExecParseDir(readPath, out) == ListResult(Exited, [], [], None, 1);
    }
  }

  /**
   The status line matters only through FAILED: two error-free responses
   with the same banner and body and status lines without FAILED (an app
   "not found" line, an "OK" line) give the same result.
   */
  lemma StatusLineOnlyFailed(readPath: String, banner: String, s1: String, s2: String, body: String, failed: bool)
    requires IsLine(banner) && IsLine(s1) && IsLine(s2)
    requires !Contains(s1, "FAILED") && !Contains(s2, "FAILED")
    ensures ExecParseDir(readPath, Fetched(banner + s1 + body, failed)) == ExecParseDir(readPath, Fetched(banner + s2 + body, failed))
  {
    WithoutFailed(readPath, banner, s1, body, failed);
    WithoutFailed(readPath, banner, s2, body, failed);
  }

  /** The result of a three-piece response whose status line has no FAILED, in terms of its body. */
  function BodyResult(body: String, failed: bool): ListResult {
    if Contains(body, NotRunning) && failed then ListResult(Exited, [], [], None, 1)
    else if Contains(body, EmptyMarker) then ListResult(Running, [], [], None, 1)
    else if failed then ListResult(Exited, [], [], None, 1)
    else ListResult(Running, ParseBody(body).files, ParseBody(body).dirs, None, 1)
  }

  lemma WithoutFailed(readPath: String, banner: String, status: String, body: String, failed: bool)
    requires IsLine(banner) && IsLine(status) && !Contains(status, "FAILED")
    ensures ExecParseDir(readPath, Fetched(banner + status + body, failed)) == BodyResult(body, failed)
  {
    SplitAfter3Lines(banner, status, body);
  }

  /**
   On a good response the legacy parser lists exactly what the tokenizer
   reads from the body, as the refactored parser does.
   */
  lemma ExecParseDirListing(readPath: String, banner: String, status: String, body: String)
    requires IsLine(banner) && IsLine(status) && !Contains(status, "FAILED")
    requires !Contains(body, EmptyMarker)
    ensures ExecParseDir(readPath, Fetched(banner + status + body, false))
         == ListResult(Running, ParseBody(body).files, ParseBody(body).dirs, None, 1)
  {
    WithoutFailed(readPath, banner, status, body, false);
  }
}

=== FILE: listing_example.dfy ===
/**
 Listings as `cf files` prints them: one line per entry, the name (with a
 slash for a directory), one space, the size column. Reading such a
 listing back gives the names, and the first listing of the parser's unit
 tests is worked through.
 */
module ListingExample {
  import opened Text
  import opened Outcomes
  import opened SizeToken
  import opened Tokenizer
  import DirParser

  /** One printed line. */
  function LineText(l: Line): String {
    (if l.isDir then l.name + "/" else l.name) + " " + l.size
  }

  /** The lines joined by newlines, with no newline after the last. */
  function ListingText(ls: seq<Line>): String
    decreases |ls|
  {
    if ls == [] then []
    else if |ls| == 1 then LineText(ls[0])
    else LineText(ls[0]) + ("\n" + ListingText(ls[1..]))
  }

  /** A line whose name and size are single words and that the tokenizer reads back. */
  predicate Printable(l: Line) {
    Readable(l) && NoSpace(l.size)
  }

  /** Every line is printable (stated by recursion, so that concrete listings unfold step by step). */
  predicate AllPrintable(ls: seq<Line>) {
    ls == [] || (Printable(ls[0]) && AllPrintable(ls[1..]))
  }

  lemma {:induction false} AllPrintableEach(ls: seq<Line>)
    requires AllPrintable(ls)
    ensures forall k :: 0 <= k < |ls| ==> Readable(ls[k])
    decreases |ls|
  {
    if ls != [] {
      AllPrintableEach(ls[1..]);
      assert forall k :: 1 <= k < |ls| ==> ls[k] == ls[1..][k - 1];
    }
  }

  /** A printed line splits into its name token and its size token. */
  lemma LineFields(l: Line, rest: String)
    requires Printable(l)
    requires rest == [] || IsSpace(rest[0])
    ensures Fields(LineText(l) + rest) == LineTokens(l) + Fields(rest)
  {
    var w := if l.isDir then l.name + "/" else l.name;
    if l.isDir {
      SlashedWord(l.name);
    }
    DelimiterCharacterisation(l.size);
    Associative(w, " ", l.size);
    Associative(w + " ", l.size, rest);
    Associative(w, " ", l.size + rest);
    assert AllSpace(" ");
    TwoWords(w, " ", l.size, rest);
  }

  /** The fields of a printed listing are its lines' tokens, in order. */
  lemma {:induction false} ListingFields(ls: seq<Line>)
    requires AllPrintable(ls)
    ensures Fields(ListingText(ls)) == LinesTokens(ls)
    decreases |ls|
  {
    if |ls| == 1 {
      LineFields(ls[0], []);
      assert LineText(ls[0]) + [] == LineText(ls[0]);
      assert LinesTokens(ls[1..]) == [];
    } else if |ls| > 1 {
      ListingFields(ls[1..]);
      LineFields(ls[0], "\n" + ListingText(ls[1..]));
      FieldsSkipSpace("\n", ListingText(ls[1..]));
    }
  }

  /** Round trip: a printed listing parses back to its file names and its directory names with slashes. */
  lemma ParsePrinted(ls: seq<Line>)
    requires AllPrintable(ls)
    ensures ParseBody(ListingText(ls)) == Entries(FileNames(ls), DirNames(ls))
  {
    ListingFields(ls);
    AllPrintableEach(ls);
    TokenizeLines(ls);
  }

  /** A file line with a name that cannot be taken for a size and a size of the usual shape. */
  lemma FileLine(name: String, size: String)
    requires name != [] && NoSpace(name) && name[|name| - 1] != '/' && !IsDigit(name[0]) && name != "-"
    requires |size| >= 2 && NoSpace(size) && IsDigit(size[0]) && IsUnit(size[|size| - 1])
    ensures Printable(Line(name, false, size))
  {
    DelimiterOfToken(name);
    DelimiterOfToken(size);
  }

  lemma DirLine(name: String)
    requires NoSpace(name)
    ensures Printable(Line(name, true, "-"))
  {
  }

  /** The lines of the first listing in the parser's unit tests. */
  const BashLogout := Line(".bash_logout", false, "220B")
  const Bashrc := Line(".bashrc", false, "3.0K")
  const Profile := Line(".profile", false, "675B")
  const AppDir := Line("app", true, "-")
  const LogsDir := Line("logs", true, "-")
  const RunPid := Line("run.pid", false, "3B")
  const StagingInfo := Line("staging_info.yml", false, "131B")
  const TmpDir := Line("tmp", true, "-")

  /** The entries of the first listing in the parser's unit tests. */
  function TestLines(): seq<Line> {
    [BashLogout] + ([Bashrc] + ([Profile] +
    ([AppDir] + ([LogsDir] + ([RunPid] +
    ([StagingInfo] + [TmpDir]))))))
  }

  /** The banner of that test (written in pieces so that proofs see its one newline, at the end). */
  const TestBanner: String := "Getting files for app " + "debugger in org jstart " + "/ space reveille as " + "email@us.ibm.com..." + "\n"

  lemma TestBannerLine()
    ensures IsLine(TestBanner)
  {
    var a, b, c, d := "Getting files for app ", "debugger in org jstart ", "/ space reveille as ", "email@us.ibm.com...";
    assert '\n' !in a && '\n' !in b && '\n' !in c && '\n' !in d;
    var text := a + b + c + d;
    assert '\n' !in text;
    assert TestBanner == text + "\n";
    assert TestBanner[..|TestBanner| - 1] == text;
  }

  /**
   The parser's first unit test: the banner, an OK line and the listing of
   five files and three directories give the five file names and the three
   directory names with slashes, in listing order, on the first call, with
   no failure.
   */
  lemma FirstUnitTest(readPath: String, fetch: nat -> Fetched)
    requires fetch(0).output == TestBanner + "OK\n" + ListingText(TestLines())
    ensures DirParser.ExecParseDir(readPath, fetch)
         == ListResult(Running, [".bash_logout", ".bashrc", ".profile", "run.pid", "staging_info.yml"], ["app/", "logs/", "tmp/"], None, 1)
  {
    var body := ListingText(TestLines());
    TestBannerLine();
    StatusLine();
    TestBodyStart();
    DirParser.ExecParseDirListing(readPath, fetch, TestBanner, "OK\n", body);
    TestBody();
  }

  lemma StatusLine()
    ensures IsLine("OK\n") && Contains("OK\n", "OK")
  {
    assert OccursAt("OK\n", "OK", 0);
  }

  /** The test's listing body parses to its five files and three directories. */
  lemma TestBody()
    ensures ParseBody(ListingText(TestLines()))
         == Entries([".bash_logout", ".bashrc", ".profile", "run.pid", "staging_info.yml"], ["app/", "logs/", "tmp/"])
  {
    TestLinesPrintable();
    ParsePrinted(TestLines());
    TestFileNames();
    TestDirNames();
  }

  lemma PrintableStep(l: Line, rest: seq<Line>)
    requires Printable(l) && AllPrintable(rest)
    ensures AllPrintable([l] + rest)
  {
    assert ([l] + rest)[1..] == rest;
  }

  lemma TestLinesPrintable()
    ensures AllPrintable(TestLines())
  {
    PrintableBashLogout();
    PrintableBashrc();
    PrintableProfile();
    PrintableRunPid();
    PrintableStagingInfo();
    PrintableDirs();
    PrintableEight(BashLogout, Bashrc, Profile, AppDir, LogsDir, RunPid, StagingInfo, TmpDir);
  }

  lemma PrintableDirs()
    ensures Printable(AppDir) && Printable(LogsDir) && Printable(TmpDir)
  {
    DirLine("app");
    DirLine("logs");
    DirLine("tmp");
  }

  lemma PrintableEight(a: Line, b: Line, c: Line, d: Line, e: Line, f: Line, g: Line, h: Line)
    requires Printable(a) && Printable(b) && Printable(c) && Printable(d)
    requires Printable(e) && Printable(f) && Printable(g) && Printable(h)
    ensures AllPrintable([a] + ([b] + ([c] + ([d] + ([e] + ([f] + ([g] + [h])))))))
  {
    PrintableStep(h, []);
    assert [h] == [h] + [];
    PrintableStep(g, [h]);
    PrintableStep(f, [g] + [h]);
    PrintableStep(e, [f] + ([g] + [h]));
    PrintableStep(d, [e] + ([f] + ([g] + [h])));
    PrintableStep(c, [d] + ([e] + ([f] + ([g] + [h]))));
    PrintableStep(b, [c] + ([d] + ([e] + ([f] + ([g] + [h])))));
    PrintableStep(a, [b] + ([c] + ([d] + ([e] + ([f] + ([g] + [h]))))));
  }

  /** The five file lines are printable. */
  lemma PrintableBashLogout()
    ensures Printable(BashLogout)
  {
    FileLine(".bash_logout", "220B");
  }
  lemma PrintableBashrc()
    ensures Printable(Bashrc)
  {
    FileLine(".bashrc", "3.0K");
  }
  lemma PrintableProfile()
    ensures Printable(Profile)
  {
    FileLine(".profile", "675B");
  }
  lemma PrintableRunPid()
    ensures Printable(RunPid)
  {
    FileLine("run.pid", "3B");
  }
  lemma PrintableStagingInfo()
    ensures Printable(StagingInfo)
  {
    FileLine("staging_info.yml", "131B");
  }

  lemma TestBodyStart()
    ensures ListingText(TestLines()) != DirParser.EmptyListing
  {
    assert DirParser.EmptyListing[0] == '\n';
    var ls := TestLines();
    assert ListingText(ls) == LineText(ls[0]) + ("\n" + ListingText(ls[1..]));
    assert LineText(ls[0])[0] == '.';
  }

  /** One step of `FileNames` and `DirNames`. */
  lemma NamesStep(l: Line, rest: seq<Line>)
    ensures FileNames([l] + rest) == (if l.isDir then [] else [l.name]) + FileNames(rest)
    ensures DirNames([l] + rest) == (if l.isDir then [l.name + "/"] else []) + DirNames(rest)
  {
    assert ([l] + rest)[1..] == rest;
  }

  /** The names a line contributes to `FileNames` and to `DirNames`. */
  function FileOf(l: Line): seq<String> {
    if l.isDir then [] else [l.name]
  }

  function DirOf(l: Line): seq<String> {
    if l.isDir then [l.name + "/"] else []
  }

  lemma NamesEight(a: Line, b: Line, c: Line, d: Line, e: Line, f: Line, g: Line, h: Line)
    ensures FileNames([a] + ([b] + ([c] + ([d] + ([e] + ([f] + ([g] + [h])))))))
         == FileOf(a) + (FileOf(b) + (FileOf(c) + (FileOf(d) + (FileOf(e) + (FileOf(f) + (FileOf(g) + FileOf(h)))))))
    ensures DirNames([a] + ([b] + ([c] + ([d] + ([e] + ([f] + ([g] + [h])))))))
         == DirOf(a) + (DirOf(b) + (DirOf(c) + (DirOf(d) + (DirOf(e) + (DirOf(f) + (DirOf(g) + DirOf(h)))))))
  {
    NamesStep(h, []);
    assert [h] == [h] + [];
    assert FileOf(h) + [] == FileOf(h) && DirOf(h) + [] == DirOf(h);
    NamesStep(g, [h]);
    NamesStep(f, [g] + [h]);
    NamesStep(e, [f] + ([g] + [h]));
    NamesStep(d, [e] + ([f] + ([g] + [h])));
    NamesStep(c, [d] + ([e] + ([f] + ([g] + [h]))));
    NamesStep(b, [c] + ([d] + ([e] + ([f] + ([g] + [h])))));
    NamesStep(a, [b] + ([c] + ([d] + ([e] + ([f] + ([g] + [h]))))));
  }

  lemma TestFileNames()
    ensures FileNames(TestLines()) == [".bash_logout", ".bashrc", ".profile", "run.pid", "staging_info.yml"]
  {
    NamesEight(BashLogout, Bashrc, Profile, AppDir, LogsDir, RunPid, StagingInfo, TmpDir);
    var x: seq<String> := [];
    assert FileOf(AppDir) == x && FileOf(LogsDir) == x && FileOf(TmpDir) == x;
    assert FileOf(StagingInfo) + x == ["staging_info.yml"];
  }

  lemma TestDirNames()
    ensures DirNames(TestLines()) == ["app/", "logs/", "tmp/"]
  {
    NamesEight(BashLogout, Bashrc, Profile, AppDir, LogsDir, RunPid, StagingInfo, TmpDir);
    var x: seq<String> := [];
    assert DirOf(BashLogout) == x && DirOf(Bashrc) == x && DirOf(Profile) == x;
    assert DirOf(RunPid) == x && DirOf(StagingInfo) == x;
    SlashedNames();
  }

  lemma SlashedNames()
    ensures DirOf(AppDir) == ["app/"] && DirOf(LogsDir) == ["logs/"] && DirOf(TmpDir) == ["tmp/"]
  {
    assert "app" + "/" == "app/" by {
      assert ("app" + "/")[3] == '/';
    }
    assert "logs" + "/" == "logs/" by {
      assert ("logs" + "/")[4] == '/';
    }
    assert "tmp" + "/" == "tmp/" by {
      assert ("tmp" + "/")[3] == '/';
    }
  }
}

=== FILE: loaders.dfy ===
/**
 The `parser.go` + `loaders.go` snapshot's file download. `CheckDownload`
 records a FAILED status line but `writeFile` ignores its answer, so the
 body is written anyway; the counter moves (unless verbose) before piece
 three is even read; a failed write ends the process through `check`.
 Listing is `LegacyParser.ExecParseDir`.
 */
module Loaders {
  import opened Text
  import opened Outcomes

  /** What `CheckDownload` leaves behind when it returns. */
  datatype Check = Check(halt: Halt, failure: Option<String>)

  /**
   `CheckDownload`: a FAILED status line records one server error; otherwise
   a transport error ends the process. Reading the status line of a
   one-piece response panics.
   */
  function CheckDownload(readPath: String, file: seq<String>, failed: bool): (c: Check)
    ensures c.halt == Panicked <==> |file| < 2
    ensures c.failure.Some? <==> |file| >= 2 && Contains(file[1], "FAILED")
    ensures c.failure.Some? ==> c.failure.value == ServerError(readPath) && c.halt == Running
    ensures c.halt == Exited <==> |file| >= 2 && !Contains(file[1], "FAILED") && failed
  {
    if |file| < 2 then Check(Panicked, None)
    else if Contains(file[1], "FAILED") then Check(Running, Some(ServerError(readPath)))
    else if failed then Check(Exited, None)
    else Check(Running, None)
  }

  /**
   `downloadFile` with its `writeFile`: check (answer ignored), count unless
   verbose, read piece three, write it verbatim; a failed write ends the
   process. A download that leaves the process running has written its
   file, with one attempt.
   */
  function DownloadFile(readPath: String, out: Fetched, writeOk: bool, verbose: bool): (r: FileResult)
    ensures r.halt == Running <==> r.written.Some?
    ensures r.written.Some? ==> r.attempts == 1
    ensures r.halt != Truncated
  {
    var file := SplitAfter3(out.output);
    var c := CheckDownload(readPath, file, out.failed);
    if c.halt != Running then
      FileResult(c.halt, false, c.failure, None, 0)
    else if |file| < 3 then
      FileResult(Panicked, !verbose, c.failure, None, 0)
    else if writeOk then
      FileResult(Running, !verbose, c.failure, Some(file[2]), 1)
    else
      FileResult(Exited, !verbose, c.failure, None, 1)
  }

  /**
   A FAILED file is recorded and still written, verbatim: the failure and
   the written content come together.
   */
  lemma FailedStillWritten(readPath: String, out: Fetched, writeOk: bool, verbose: bool)
    requires |SplitAfter3(out.output)| == 3 && Contains(SplitAfter3(out.output)[1], "FAILED") && writeOk
    ensures var r := DownloadFile(readPath, out, writeOk, verbose);
            r == FileResult(Running, !verbose, Some(ServerError(readPath)), Some(SplitAfter3(out.output)[2]), 1)
  {
  }

  /**
   Once the check lets the download through, the counter moves exactly when
   not verbose, whether or not the body is then present or written.
   */
  lemma CountedBeforeWrite(readPath: String, out: Fetched, writeOk: bool, verbose: bool)
    requires CheckDownload(readPath, SplitAfter3(out.output), out.failed).halt == Running
    ensures DownloadFile(readPath, out, writeOk, verbose).counted == !verbose
  {
  }

  /** A failed local write ends the process (through `check` in `downloadFile`). */
  lemma WriteErrorExits(readPath: String, out: Fetched, verbose: bool)
    requires |SplitAfter3(out.output)| == 3
    requires CheckDownload(readPath, SplitAfter3(out.output), out.failed).halt == Running
    ensures DownloadFile(readPath, out, false, verbose).halt == Exited
    ensures DownloadFile(readPath, out, false, verbose).written.None?
  {
  }
}

=== FILE: monolith.dfy ===
/**
 The monolithic snapshot `download.go`: its own filter-list rules and its
 own `downloadFile`. Its `execParseDir` is `LegacyParser.ExecParseDir`, its
 `checkToFilter` is `Filter.CheckToFilter` with the local root, and its
 `isDelimiter` is `SizeToken.IsDelimiter`.
 */
module Monolith {
  import opened Text
  import opened Outcomes
  import Filter

  /** A `.cfignore` line: one leading slash removed, no white-space trimming. */
  function LineEntry(line: String): String {
    TrimPrefix(line, "/")
  }

  /** An `--omit` piece: white space trimmed, then one leading slash removed. */
  function OmitEntry(piece: String): String {
    TrimPrefix(TrimSpace(piece), "/")
  }

  function LineEntries(lines: seq<String>): (r: seq<String>)
    ensures |r| == |lines|
  {
    if lines == [] then [] else [LineEntry(lines[0])] + LineEntries(lines[1..])
  }

  function OmitEntries(pieces: seq<String>): (r: seq<String>)
    ensures |r| == |pieces|
  {
    if pieces == [] then [] else [OmitEntry(pieces[0])] + OmitEntries(pieces[1..])
  }

  /** Drops one empty last element, the one a final newline leaves. */
  function DropTrailingEmpty(xs: seq<String>): (r: seq<String>)
    ensures r == xs || (xs != [] && xs[|xs| - 1] == [] && r == xs[..|xs| - 1])
    ensures xs != [] && xs[|xs| - 1] == [] ==> r == xs[..|xs| - 1]
  {
    if xs != [] && xs[|xs| - 1] == [] then xs[..|xs| - 1] else xs
  }

  /**
   The final pass over one entry: one trailing slash removed, a slash put in
   front; dropped when that trims to a lone slash.
   */
  function Finish(x: String): (r: Option<String>)
    ensures r.Some? ==> Kept(r.value) && r.value[1..] == TrimSuffix(x, "/")
  {
    var y := "/" + TrimSuffix(x, "/");
    if TrimSpace(y) == "/" then None else Some(y)
  }

  function FinishAll(xs: seq<String>): (r: seq<String>)
    ensures |r| <= |xs|
  {
    if xs == [] then []
    else
      match Finish(xs[0])
      case None => FinishAll(xs[1..])
      case Some(y) => [y] + FinishAll(xs[1..])
  }

  /** `getFilterList` of `download.go`: every entry begins with a slash, and none trims to a lone slash. */
  function GetFilterList(cfignore: Option<String>, omit: String, verbose: bool): (r: seq<String>)
    ensures forall k :: 0 <= k < |r| ==> Kept(r[k])
  {
    var lines := if cfignore.None? && verbose then [] else DropTrailingEmpty(LineEntries(Split(Filter.Content(cfignore), '\n')));
    var omits := if omit != [] then OmitEntries(Split(omit, ';')) else [];
    FinishAllKept(lines + omits);
    FinishAll(lines + omits)
  }

  /** An entry the final pass keeps. */
  predicate Kept(y: String) {
    y != [] && y[0] == '/' && TrimSpace(y) != "/"
  }

  /** One step of `FinishAll`. */
  lemma FinishAllCons(xs: seq<String>)
    requires xs != []
    ensures FinishAll(xs) == AsSeq(Finish(xs[0])) + FinishAll(xs[1..])
  {
    if Finish(xs[0]).None? {
      assert [] + FinishAll(xs[1..]) == FinishAll(xs[1..]);
    }
  }

  lemma {:induction false} FinishAllKept(xs: seq<String>)
    ensures All(FinishAll(xs), Kept)
    decreases |xs|
  {
    if xs != [] {
      FinishAllKept(xs[1..]);
      AllAsSeq(Finish(xs[0]), Kept);
      FinishAllCons(xs);
      AllAppend(AsSeq(Finish(xs[0])), FinishAll(xs[1..]), Kept);
    }
  }

  /** The final pass over a concatenation is the concatenation of the passes. */
  lemma {:induction false} FinishAllAppend(a: seq<String>, b: seq<String>)
    ensures FinishAll(a + b) == FinishAll(a) + FinishAll(b)
    decreases |a|
  {
    if a == [] {
      assert a + b == b;
    } else {
      var ab := a + b;
      assert ab[0] == a[0] && ab[1..] == a[1..] + b;
      FinishAllAppend(a[1..], b);
      FinishAllCons(ab);
      FinishAllCons(a);
      Associative(AsSeq(Finish(a[0])), FinishAll(a[1..]), FinishAll(b));
    }
  }

  /** An empty omit value adds no entries. */
  lemma EmptyOmit(cfignore: Option<String>, verbose: bool)
    ensures GetFilterList(cfignore, [], verbose)
         == FinishAll(if cfignore.None? && verbose then [] else DropTrailingEmpty(LineEntries(Split(Filter.Content(cfignore), '\n'))))
  {
    var lines := if cfignore.None? && verbose then [] else DropTrailingEmpty(LineEntries(Split(Filter.Content(cfignore), '\n')));
    var none: seq<String> := [];
    assert lines + none == lines;
  }

  /**
   Dropping the single trailing empty line changes nothing: the final pass
   drops every empty line anyway, wherever it stands.
   */
  lemma TrailingDropRedundant(xs: seq<String>)
    ensures FinishAll(DropTrailingEmpty(xs)) == FinishAll(xs)
  {
    if xs != [] && xs[|xs| - 1] == [] {
      var init := xs[..|xs| - 1];
      var last: seq<String> := [[]];
      assert xs == init + last;
      FinishAllAppend(init, last);
      EmptyFinished();
      assert FinishAll(last) == [] by {
        assert last[1..] == [];
      }
      assert FinishAll(init) + [] == FinishAll(init);
    }
  }

  /**
   A `.cfignore` line keeps its white space: a line that does not start or
   end with a slash and is not all white space becomes that line behind a
   slash, unlike in the refactored filter.
   */
  lemma LineNotTrimmed(line: String)
    requires line != [] && line[0] != '/' && line[|line| - 1] != '/'
    requires !AllSpace(line)
    ensures Finish(LineEntry(line)) == Some("/" + line)
  {
    var y := "/" + line;
    assert TrimPrefix(line, "/") == line;
    assert !HasSuffix(line, "/");
    assert TrimSuffix(line, "/") == line;
  }

  /**
   A lone slash: the refactored filter keeps it as the empty entry, this
   one drops it.
   */
  lemma LoneSlashDiffers()
    ensures Filter.Normalize("/") == Some([])
    ensures Finish(LineEntry("/")).None?
  {
    Filter.EmptyEntry("/");
    TrimSpaceChar('/');
    assert LineEntry("/") == [];
    EmptyFinished();
  }

  /** The final pass drops an empty entry: it becomes a lone slash. */
  lemma EmptyFinished()
    ensures Finish([]).None?
  {
    assert "/" + TrimSuffix([], "/") == "/";
    TrimSpaceChar('/');
  }

  /**
   `downloadFile` of `download.go`: read piece three (a panic if missing),
   record a server error for a FAILED status line without writing, end the
   process on a transport error, bump the counter unless verbose (before
   writing), then write once; a failed write ends the process.
   */
  function DownloadFile(readPath: String, out: Fetched, writeOk: bool, verbose: bool): (r: FileResult)
    ensures r.failure.Some? ==> r.written.None? && !r.counted && r.halt == Running
    ensures r.halt == Running <==> r.failure.Some? || r.written.Some?
    ensures r.written.Some? ==> r.attempts == 1
    ensures r.halt != Truncated
  {
    var ps := SplitAfter3(out.output);
    if |ps| < 3 then
      FileResult(Panicked, false, None, None, 0)
    else if Contains(ps[1], "FAILED") then
      FileResult(Running, false, Some(ServerError(readPath)), None, 0)
    else if out.failed then
      FileResult(Exited, false, None, None, 0)
    else if writeOk then
      FileResult(Running, !verbose, None, Some(ps[2]), 1)
    else
      FileResult(Exited, !verbose, None, None, 1)
  }

  /**
   A FAILED status line records one server error and writes nothing; the
   counter moves only when not verbose, and is already moved when a failed
   write ends the process; a written file holds piece three verbatim.
   */
  lemma DownloadFileOutcome(readPath: String, out: Fetched, writeOk: bool, verbose: bool)
    ensures var r := DownloadFile(readPath, out, writeOk, verbose);
            var ps := SplitAfter3(out.output);
            && (r.halt == Panicked <==> |ps| < 3)
            && (r.failure.Some? <==> |ps| == 3 && Contains(ps[1], "FAILED"))
            && (r.failure.Some? ==> r.failure.value == ServerError(readPath) && r.written.None? && !r.counted)
            && (r.written.Some? <==> |ps| == 3 && !Contains(ps[1], "FAILED") && !out.failed && writeOk)
            && (r.written.Some? ==> r.written.value == ps[2])
            && (r.counted <==> |ps| == 3 && !Contains(ps[1], "FAILED") && !out.failed && !verbose)
  {
  }
}

=== FILE: outcomes.dfy ===
/**
 Shared vocabulary of the plugin model: what a `cf files` call returns, how a
 process run can end, and the result records of the per-file and
 per-directory steps that every generation of the plugin is built from.
 */
module Outcomes {
  import opened Text

  datatype Option<T> = None | Some(value: T)

  /**
   One `cf files` invocation: its combined output and whether the
   subprocess reported an error (Go's `err != nil`).
   */
  datatype Fetched = Fetched(output: String, failed: bool)

  /**
   How far a run got. `Exited` is `os.Exit(1)` (directly or through the
   `check` helper), `Panicked` an out-of-range slice index; `Truncated`
   marks a walk cut off by the model's depth budget and has no counterpart
   in the program.
   */
  datatype Halt = Running | Exited | Panicked | Truncated

  /** What one file download did. */
  datatype FileResult = FileResult(
    halt: Halt,
    counted: bool,              // the files-downloaded counter was bumped
    failure: Option<String>,    // the message appended to the failure list, if any
    written: Option<String>,    // the content that reached the local file, if any
    attempts: nat)              // local write attempts made

  /** What one directory listing did. */
  datatype ListResult = ListResult(
    halt: Halt,
    files: seq<String>,
    dirs: seq<String>,
    failure: Option<String>,
    fetches: nat)               // `cf files` calls made

  /** The failure message of a file or directory the server would not hand out. */
  function ServerError(path: String): (m: String)
    ensures |m| == |path| + 32
    ensures m[16..16 + |path|] == path
    ensures m[15] == '\'' && m[16 + |path|] == '\''
  {
    " Server Error: '" + path + "' not downloaded"
  }

  /** The failure message of a file whose local write kept failing. */
  function WriteError(path: String): (m: String)
    ensures |m| == |path| + 62
    ensures m[15..15 + |path|] == path
    ensures m[14] == '\'' && m[15 + |path|] == '\''
  {
    " Write Error: '" + path + "'" + " encountered error while writing to local file"
  }

  /** Different paths give different server-error messages: the message names its path. */
  lemma ServerErrorInjective(p: String, q: String)
    ensures ServerError(p) == ServerError(q) ==> p == q
  {
    if ServerError(p) == ServerError(q) {
      assert |p| == |q|;
      assert p == ServerError(p)[16..16 + |p|];
    }
  }

  /** Different paths give different write-error messages. */
  lemma WriteErrorInjective(p: String, q: String)
    ensures WriteError(p) == WriteError(q) ==> p == q
  {
    if WriteError(p) == WriteError(q) {
      assert |p| == |q|;
      assert p == WriteError(p)[15..15 + |p|];
    }
  }

  /** The two messages never coincide, whatever the paths. */
  lemma MessagesDiffer(p: String, q: String)
    ensures ServerError(p) != WriteError(q)
  {
    assert ServerError(p)[1] == 'S';
    assert WriteError(q)[1] == 'W';
  }

  /** An option as a list of at most one element. */
  function AsSeq<T>(o: Option<T>): (s: seq<T>)
    ensures |s| <= 1
  {
    if o.Some? then [o.value] else []
  }

  /** Every element of `xs` satisfies `p`. */
  predicate All<T>(xs: seq<T>, p: T -> bool) {
    forall k :: 0 <= k < |xs| ==> p(xs[k])
  }

  lemma AllAppend<T>(a: seq<T>, b: seq<T>, p: T -> bool)
    requires All(a, p) && All(b, p)
    ensures All(a + b, p)
  {
    forall k | 0 <= k < |a + b| ensures p((a + b)[k]) {
      if k < |a| {
        assert (a + b)[k] == a[k];
      } else {
        assert (a + b)[k] == b[k - |a|];
      }
    }
  }

  lemma AllAsSeq<T>(o: Option<T>, p: T -> bool)
    requires o.Some? ==> p(o.value)
    ensures All(AsSeq(o), p)
  {
  }
}

=== FILE: prototype.dfy ===
/**
 The prototype snapshot `test.go`: listing reads every other field (names
 with no spaces and one size column assumed), a file body mentioning a
 "status code" is only reported on the console, and there is no filter.
 */
module Prototype {
  import opened Text
  import opened Outcomes

  const EmptyMarker: String := "No files found"
  const StatusCode: String := "status code"

  /** The fields at even positions: the names, when every name is one field followed by one size field. */
  function EvenTokens(ts: seq<String>): (r: seq<String>)
    ensures |r| == (|ts| + 1) / 2
    decreases |ts|
  {
    if ts == [] then []
    else
      var rest := EvenTokens(if |ts| >= 2 then ts[2..] else []);
      [ts[0]] + rest
  }

  /** The names that end with a slash (`dirs`) or that do not (`!dirs`), in order. */
  function Select(xs: seq<String>, dirs: bool): (r: seq<String>)
    ensures forall k :: 0 <= k < |r| ==> HasSuffix(r[k], "/") == dirs
    ensures |r| <= |xs|
  {
    if xs == [] then []
    else (if HasSuffix(xs[0], "/") == dirs then [xs[0]] else []) + Select(xs[1..], dirs)
  }

  /** The fields from position `i` on (none once `i` passes the end). */
  function From(ts: seq<String>, i: nat): seq<String> {
    if i <= |ts| then ts[i..] else []
  }

  /**
   The listing loop as written: `i` steps by two; a field ending with a
   slash is a directory, any other field a file; the fields in between are
   never looked at.
   */
  method Pairwise(ts: seq<String>) returns (files: seq<String>, dirs: seq<String>)
    ensures files == Select(EvenTokens(ts), false)
    ensures dirs == Select(EvenTokens(ts), true)
  {
    files, dirs := [], [];
    var i := 0;
    while i < |ts|
      invariant i <= |ts| + 1
      invariant Tracks(ts, i, files, false)
      invariant Tracks(ts, i, dirs, true)
      decreases |ts| + 1 - i
    {
      Advance(ts, i, files, false);
      Advance(ts, i, dirs, true);
      files := files + Picked(ts[i], false);
      dirs := dirs + Picked(ts[i], true);
      i := i + 2;
    }
    Done(ts, i, files, false);
    Done(ts, i, dirs, true);
  }

  /** The names picked so far, followed by those the loop picks from position `i` on, are all the loop picks. */
  predicate Tracks(ts: seq<String>, i: nat, acc: seq<String>, dirs: bool) {
    Select(EvenTokens(ts), dirs) == acc + Select(EvenTokens(From(ts, i)), dirs)
  }

  /** What one field adds to the list of directories (`dirs`) or of files. */
  function Picked(t: String, dirs: bool): seq<String> {
    if HasSuffix(t, "/") == dirs then [t] else []
  }

  lemma Done(ts: seq<String>, i: nat, acc: seq<String>, dirs: bool)
    requires i >= |ts| && Tracks(ts, i, acc, dirs)
    ensures acc == Select(EvenTokens(ts), dirs)
  {
    assert From(ts, i) == [];
    assert acc + [] == acc;
  }

  /** One turn of the loop keeps its invariant for one of the two lists. */
  lemma Advance(ts: seq<String>, i: nat, acc: seq<String>, dirs: bool)
    requires i < |ts|
    requires Tracks(ts, i, acc, dirs)
    ensures Tracks(ts, i + 2, acc + Picked(ts[i], dirs), dirs)
  {
    var t := From(ts, i);
    var next := EvenTokens(From(ts, i + 2));
    assert t[0] == ts[i];
    assert (if |t| >= 2 then t[2..] else []) == From(ts, i + 2);
    var here := EvenTokens(t);
    assert here == [ts[i]] + next;
    assert here[1..] == next;
    var mine := Picked(ts[i], dirs);
    assert Select(here, dirs) == mine + Select(next, dirs);
    Associative(acc, mine, Select(next, dirs));
  }

  /** The loop's result does not depend on the fields at odd positions. */
  lemma {:induction false} OddFieldsIgnored(ts: seq<String>, us: seq<String>)
    requires |ts| == |us|
    requires forall k :: 0 <= k < |ts| && k % 2 == 0 ==> ts[k] == us[k]
    ensures EvenTokens(ts) == EvenTokens(us)
    decreases |ts|
  {
    if |ts| >= 2 {
      forall k | 0 <= k < |ts| - 2 && k % 2 == 0 ensures ts[2..][k] == us[2..][k] {
        assert ts[k + 2] == us[k + 2];
      }
      OddFieldsIgnored(ts[2..], us[2..]);
    }
  }

  /** Every even-position field lands in exactly one of the two lists. */
  lemma {:induction false} PairwiseCount(xs: seq<String>)
    ensures |Select(xs, false)| + |Select(xs, true)| == |xs|
    decreases |xs|
  {
    if xs != [] {
      PairwiseCount(xs[1..]);
    }
  }

  /**
   `execParseDir` of the prototype: a missing piece panics; a body
   mentioning "No files found" is empty; a transport error ends the process;
   otherwise the pairwise loop reads the fields of the body. No failure is
   ever recorded.
   */
  function ExecParseDir(readPath: String, out: Fetched): (r: ListResult)
    ensures r.failure.None? && r.fetches == 1 && r.halt != Truncated
    ensures r.halt == Panicked <==> |SplitAfter3(out.output)| < 3
    ensures r.halt == Exited <==> |SplitAfter3(out.output)| == 3 && !Contains(SplitAfter3(out.output)[2], EmptyMarker) && out.failed
    ensures forall k :: 0 <= k < |r.dirs| ==> HasSuffix(r.dirs[k], "/")
    ensures forall k :: 0 <= k < |r.files| ==> !HasSuffix(r.files[k], "/")
  {
    var ps := SplitAfter3(out.output);
    if |ps| < 3 then ListResult(Panicked, [], [], None, 1)
    else if Contains(ps[2], EmptyMarker) then ListResult(Running, [], [], None, 1)
    else if out.failed then ListResult(Exited, [], [], None, 1)
    else
      var names := EvenTokens(Fields(ps[2]));
      ListResult(Running, Select(names, false), Select(names, true), None, 1)
  }

  /**
   `downloadFile` of the prototype: a missing piece panics; a body with a
   "status code" is reported on the console only, neither written nor
   recorded; a transport error ends the process; otherwise the body is
   written verbatim, and a failed write ends the process. Nothing is
   counted.
   */
  function DownloadFile(readPath: String, out: Fetched, writeOk: bool): (r: FileResult)
    ensures !r.counted && r.failure.None? && r.halt != Truncated
    ensures r.written.Some? ==> r.halt == Running
    ensures r.written.Some? <==> |SplitAfter3(out.output)| == 3 && !Contains(SplitAfter3(out.output)[2], StatusCode) && !out.failed && writeOk
    ensures r.written.Some? ==> r.written.value == SplitAfter3(out.output)[2]
    ensures r.halt == Exited <==> |SplitAfter3(out.output)| == 3 && !Contains(SplitAfter3(out.output)[2], StatusCode) && (out.failed || !writeOk)
  {
    var ps := SplitAfter3(out.output);
    if |ps| < 3 then FileResult(Panicked, false, None, None, 0)
    else if Contains(ps[2], StatusCode) then FileResult(Running, false, None, None, 0)
    else if out.failed then FileResult(Exited, false, None, None, 0)
    else if writeOk then FileResult(Running, false, None, Some(ps[2]), 1)
    else FileResult(Exited, false, None, None, 1)
  }

  /**
   The local root and the starting path of the prototype's `Run`: the root
   is `<wd>/<app>-concurrent/`; with exactly three arguments the third is
   the starting path, given a trailing slash if it lacks one.
   */
  function Context(workingDir: String, appName: String, args: seq<String>): (r: (String, String))
    ensures HasSuffix(r.1, "/")
    ensures |args| != 3 ==> r.1 == "/"
    ensures |args| == 3 ==> args[2] <= r.1 && |r.1| <= |args[2]| + 1
    ensures |args| == 3 && HasSuffix(args[2], "/") ==> r.1 == args[2]
    ensures workingDir + "/" + appName <= r.0 && HasSuffix(r.0, "-concurrent/")
  {
    var root := workingDir + "/" + appName + "-concurrent/";
    if |args| == 3 then
      (root, if HasSuffix(args[2], "/") then args[2] else args[2] + "/")
    else
      (root, "/")
  }

  /** Supplying the computed starting path again gives it back unchanged. */
  lemma ContextIdempotent(workingDir: String, appName: String, args: seq<String>)
    requires |args| == 3
    ensures var p := Context(workingDir, appName, args).1;
            Context(workingDir, appName, [args[0], args[1], p]).1 == p
  {
  }
}

=== FILE: size_token.dfy ===
/**
 The size column of a `cf files` listing. A token is a delimiter when it
 matches the regular expression `^[0-9]([0-9]|.)*(G|M|B|K)$` or is the dash
 that stands in for a directory's size.
 */
module SizeToken {
  import opened Text

  predicate IsDigit(c: char) {
    '0' <= c <= '9'
  }

  /** The unit letters of the pattern's last group. */
  predicate IsUnit(c: char) {
    c == 'G' || c == 'M' || c == 'B' || c == 'K'
  }

  /** One step of `([0-9]|.)`: a digit, or any rune but a newline. */
  predicate MatchesAtom(c: char) {
    IsDigit(c) || c != '\n'
  }

  /** `([0-9]|.)*(G|M|B|K)$`, by the structure of the pattern: the star either stops before the unit letter or takes one more rune. */
  predicate MatchesTail(t: String)
    decreases |t|
  {
    || (|t| == 1 && IsUnit(t[0]))
    || (|t| >= 1 && MatchesAtom(t[0]) && MatchesTail(t[1..]))
  }

  /** The whole pattern, anchored at both ends. */
  predicate MatchesSizePattern(s: String) {
    |s| >= 1 && IsDigit(s[0]) && MatchesTail(s[1..])
  }

  /** The listing delimiter test of the plugin. */
  predicate IsDelimiter(s: String) {
    MatchesSizePattern(s) || s == "-"
  }

  /** The star-then-unit tail is exactly "ends in a unit letter, no newline before it". */
  lemma {:induction false} MatchesTailExactly(t: String)
    ensures MatchesTail(t) <==> |t| >= 1 && IsUnit(t[|t| - 1]) && '\n' !in t[..|t| - 1]
    decreases |t|
  {
    if |t| >= 1 {
      MatchesTailExactly(t[1..]);
      if |t| >= 2 {
        assert t[..|t| - 1] == [t[0]] + t[1..][..|t[1..]| - 1];
      }
    }
  }

  /**
   Because `.` matches any rune but a newline, the digit alternative adds
   nothing: a delimiter is `-`, or at least two runes that start with a digit,
   end with G, M, B or K and hold no newline.
   */
  lemma DelimiterCharacterisation(s: String)
    ensures IsDelimiter(s) <==>
      s == "-" || (|s| >= 2 && IsDigit(s[0]) && IsUnit(s[|s| - 1]) && '\n' !in s)
  {
    if |s| >= 1 {
      MatchesTailExactly(s[1..]);
      if |s| >= 2 {
        assert s == [s[0]] + s[1..][..|s| - 2] + [s[|s| - 1]];
      }
    }
  }

  /** For the tokens a listing is cut into (never holding white space) the newline condition is void. */
  lemma DelimiterOfToken(s: String)
    requires NoSpace(s)
    ensures IsDelimiter(s) <==> s == "-" || (|s| >= 2 && IsDigit(s[0]) && IsUnit(s[|s| - 1]))
  {
    DelimiterCharacterisation(s);
    assert IsSpace('\n');
  }
}

=== FILE: text.dfy ===
/**
 The few Go `strings` functions the plugin relies on, over `seq<char>`.
 A `char` stands for one decoded rune; byte-level UTF-8 is not modelled.
 */
module Text {

  type String = seq<char>

  /**
   Go's `unicode.IsSpace`: tab, newline, vertical tab, form feed, carriage
   return and space, then U+0085, U+00A0 and the Unicode White_Space runes
   above Latin-1. Written by range so that printable ASCII is ruled out in
   two comparisons.
   */
  predicate IsSpace(c: char) {
    if c <= ' ' then
      c == ' ' || ('\t' <= c <= '\r')
    else if c < '\U{0085}' then
      false
    else
      || c == '\U{0085}' || c == '\U{00A0}' || c == '\U{1680}'
      || ('\U{2000}' <= c <= '\U{200A}')
      || c == '\U{2028}' || c == '\U{2029}' || c == '\U{202F}' || c == '\U{205F}' || c == '\U{3000}'
  }

  predicate NoSpace(s: String) {
    forall i :: 0 <= i < |s| ==> !IsSpace(s[i])
  }

  predicate AllSpace(s: String) {
    forall i :: 0 <= i < |s| ==> IsSpace(s[i])
  }

  /** `strings.HasPrefix` is Dafny's prefix order `p <= s`. */
  predicate HasSuffix(s: String, x: String) {
    |x| <= |s| && s[|s| - |x|..] == x
  }

  /** `strings.TrimPrefix`: removes `p` once, if `s` starts with it. */
  function TrimPrefix(s: String, p: String): (r: String)
    ensures p <= s ==> p + r == s
    ensures !(p <= s) ==> r == s
  {
    if p <= s then s[|p|..] else s
  }

  /** `strings.TrimSuffix`: removes `x` once, if `s` ends with it. */
  function TrimSuffix(s: String, x: String): (r: String)
    ensures HasSuffix(s, x) ==> r + x == s
    ensures !HasSuffix(s, x) ==> r == s
  {
    if HasSuffix(s, x) then s[..|s| - |x|] else s
  }

  /** `sub` occurs in `s` starting at index `i`. */
  ghost predicate OccursAt(s: String, sub: String, i: int) {
    0 <= i && i + |sub| <= |s| && s[i..i + |sub|] == sub
  }

  /** `strings.Contains`, searched left to right. */
  function Contains(s: String, sub: String): (r: bool)
    ensures r <==> exists i :: OccursAt(s, sub, i)
    decreases |s|
  {
    if |s| < |sub| then
      false
    else if sub <= s then
      assert OccursAt(s, sub, 0);
      true
    else
      var r := Contains(s[1..], sub);
      assert forall i :: OccursAt(s[1..], sub, i) <==> OccursAt(s, sub, i + 1) by {
        forall i ensures OccursAt(s[1..], sub, i) <==> OccursAt(s, sub, i + 1) {
          if 0 <= i && i + |sub| <= |s[1..]| {
            assert s[1..][i..i + |sub|] == s[i + 1..i + 1 + |sub|];
          }
        }
      }
      assert !OccursAt(s, sub, 0);
      assert (exists i :: OccursAt(s, sub, i)) ==> exists i :: OccursAt(s[1..], sub, i) by {
        if exists i :: OccursAt(s, sub, i) {
          var i :| OccursAt(s, sub, i);
          assert OccursAt(s[1..], sub, i - 1);
        }
      }
      r
  }

  /** Index of the first `c` in `s`, or -1 (Go's `strings.IndexByte`). */
  function IndexOf(s: String, c: char): (r: int)
    ensures -1 <= r < |s|
    ensures r == -1 <==> c !in s
    ensures r >= 0 ==> s[r] == c && c !in s[..r]
  {
    if |s| == 0 then -1
    else if s[0] == c then 0
    else
      var k := IndexOf(s[1..], c);
      assert s == [s[0]] + s[1..];
      if k == -1 then -1
      else
        assert s[..k + 1] == [s[0]] + s[1..][..k];
        k + 1
  }

  /** Concatenation of a sequence of strings. */
  function Concat(ps: seq<String>): String {
    if ps == [] then [] else ps[0] + Concat(ps[1..])
  }

  /** The pieces join back with `sep` between them (inverse of `Split`). */
  function Join(ps: seq<String>, sep: char): String {
    if ps == [] then []
    else if |ps| == 1 then ps[0]
    else ps[0] + [sep] + Join(ps[1..], sep)
  }

  /** A line piece of `SplitAfter3`: ends with its only newline. */
  predicate IsLine(p: String) {
    |p| >= 1 && p[|p| - 1] == '\n' && '\n' !in p[..|p| - 1]
  }

  /**
   Go's `strings.SplitAfterN(s, "\n", 3)`: the first line (newline kept),
   the second line (newline kept) and the remainder; fewer pieces when `s`
   holds fewer newlines.
   */
  function SplitAfter3(s: String): (r: seq<String>)
    ensures Concat(r) == s
    ensures 1 <= |r| <= 3
    ensures |r| >= 2 <==> '\n' in s
    ensures forall k :: 0 <= k < |r| - 1 ==> IsLine(r[k])
    ensures |r| < 3 ==> '\n' !in r[|r| - 1]
  {
    var i := IndexOf(s, '\n');
    if i < 0 then
      assert Concat([s]) == s + Concat([]);
      [s]
    else
      var tail := SplitAfter2(s[i + 1..]);
      LineAt(s, i);
      LineThenPieces(s, i, tail);
      [s[..i + 1]] + tail
  }

  /** The first line in front of the pieces of the rest. */
  lemma LineThenPieces(s: String, i: nat, tail: seq<String>)
    requires i < |s| && IsLine(s[..i + 1]) && Concat(tail) == s[i + 1..]
    requires 1 <= |tail| <= 2
    requires |tail| == 2 ==> IsLine(tail[0])
    requires |tail| == 1 ==> '\n' !in tail[0]
    ensures var r := [s[..i + 1]] + tail;
      Concat(r) == s && 2 <= |r| <= 3 && (forall k :: 0 <= k < |r| - 1 ==> IsLine(r[k])) &&
      (|r| < 3 ==> '\n' !in r[|r| - 1])
  {
    var r := [s[..i + 1]] + tail;
    assert r[0] == s[..i + 1] && r[1..] == tail;
    assert s == s[..i + 1] + s[i + 1..];
  }

  /** The first line of `s` ends at its first newline `i`. */
  lemma LineAt(s: String, i: int)
    requires 0 <= i < |s| && s[i] == '\n' && '\n' !in s[..i]
    ensures IsLine(s[..i + 1])
  {
    assert s[..i + 1][..i] == s[..i];
  }

  /** `strings.SplitAfterN(s, "\n", 2)`, the tail half of `SplitAfter3`. */
  function SplitAfter2(s: String): (r: seq<String>)
    ensures Concat(r) == s
    ensures 1 <= |r| <= 2
    ensures |r| == 2 <==> '\n' in s
    ensures |r| == 2 ==> IsLine(r[0])
    ensures |r| == 1 ==> '\n' !in r[0]
  {
    var j := IndexOf(s, '\n');
    if j < 0 then
      assert Concat([s]) == s + Concat([]);
      [s]
    else
      LineAt(s, j);
      assert s == s[..j + 1] + s[j + 1..];
      assert Concat([s[j + 1..]]) == s[j + 1..] + Concat([]);
      [s[..j + 1], s[j + 1..]]
  }

  /** `strings.Split` on a one-character separator. */
  function Split(s: String, sep: char): (r: seq<String>)
    ensures |r| >= 1
    ensures forall k :: 0 <= k < |r| ==> sep !in r[k]
    ensures Join(r, sep) == s
    decreases |s|
  {
    var i := IndexOf(s, sep);
    if i < 0 then
      [s]
    else
      var tail := Split(s[i + 1..], sep);
      var r := [s[..i]] + tail;
      assert r[0] == s[..i] && r[1..] == tail;
      assert Join(r, sep) == s[..i] + [sep] + Join(tail, sep);
      assert s == s[..i] + [sep] + s[i + 1..];
      r
  }

  /** Length of the longest space-free prefix of `s`. */
  function WordLength(s: String): (n: nat)
    ensures n <= |s|
    ensures NoSpace(s[..n])
    ensures n < |s| ==> IsSpace(s[n])
  {
    if s == [] || IsSpace(s[0]) then 0
    else
      var n := WordLength(s[1..]);
      assert s[..n + 1] == [s[0]] + s[1..][..n];
      n + 1
  }

  /** `strings.Fields`: the maximal runs of non-space runes, in order. */
  function Fields(s: String): (r: seq<String>)
    ensures forall k :: 0 <= k < |r| ==> r[k] != [] && NoSpace(r[k])
    decreases |s|
  {
    if s == [] then []
    else if IsSpace(s[0]) then Fields(s[1..])
    else
      var n := WordLength(s);
      [s[..n]] + Fields(s[n..])
  }

  /** Leading white space does not change the fields. */
  lemma {:induction false} FieldsSkipSpace(ws: String, rest: String)
    requires AllSpace(ws)
    ensures Fields(ws + rest) == Fields(rest)
    decreases |ws|
  {
    if ws != [] {
      var s := ws + rest;
      assert s != [] && IsSpace(s[0]);
      assert Fields(s) == Fields(s[1..]);
      assert s[1..] == ws[1..] + rest;
      FieldsSkipSpace(ws[1..], rest);
    } else {
      assert ws + rest == rest;
    }
  }

  /** A space-free word followed by white space (or nothing) is one field. */
  lemma FieldsWord(w: String, rest: String)
    requires w != [] && NoSpace(w)
    requires rest == [] || IsSpace(rest[0])
    ensures Fields(w + rest) == [w] + Fields(rest)
  {
    var s := w + rest;
    WordLengthOfWord(w, rest);
    assert s[..|w|] == w;
    assert s[|w|..] == rest;
  }

  /** A word, a gap of white space and a second word, followed by white space or nothing: two fields. */
  lemma TwoWords(w: String, gap: String, size: String, rest: String)
    requires w != [] && NoSpace(w) && gap != [] && AllSpace(gap) && size != [] && NoSpace(size)
    requires rest == [] || IsSpace(rest[0])
    ensures Fields(w + (gap + (size + rest))) == [w, size] + Fields(rest)
  {
    FieldsWord(w, gap + (size + rest));
    FieldsSkipSpace(gap, size + rest);
    FieldsWord(size, rest);
    Associative([w], [size], Fields(rest));
    assert [w] + [size] == [w, size];
  }

  /** Appending a slash keeps a space-free name a space-free word. */
  lemma SlashedWord(name: String)
    requires NoSpace(name)
    ensures NoSpace(name + "/") && name + "/" != []
  {
    assert forall i :: 0 <= i < |name| ==> (name + "/")[i] == name[i];
  }

  lemma {:induction false} WordLengthOfWord(w: String, rest: String)
    requires NoSpace(w)
    requires rest == [] || IsSpace(rest[0])
    ensures WordLength(w + rest) == |w|
    decreases |w|
  {
    if w == [] {
      assert w + rest == rest;
    } else {
      assert (w + rest)[1..] == w[1..] + rest;
      WordLengthOfWord(w[1..], rest);
    }
  }

  /** Leading white space removed. */
  function TrimLeftSpace(s: String): (r: String)
    ensures |r| <= |s| && r == s[|s| - |r|..]
    ensures AllSpace(s[..|s| - |r|])
    ensures r == [] || !IsSpace(r[0])
  {
    if s == [] || !IsSpace(s[0]) then s
    else
      var r := TrimLeftSpace(s[1..]);
      LeftStep(s, r);
      r
  }

  /** Trailing white space removed. */
  function TrimRightSpace(s: String): (r: String)
    ensures r <= s
    ensures AllSpace(s[|r|..])
    ensures r == [] || !IsSpace(r[|r| - 1])
  {
    if s == [] || !IsSpace(s[|s| - 1]) then s
    else
      var r := TrimRightSpace(s[..|s| - 1]);
      RightStep(s, r);
      r
  }

  /** One leading space more in front of what the rest trims to. */
  lemma LeftStep(s: String, r: String)
    requires s != [] && IsSpace(s[0])
    requires var t := s[1..]; |r| <= |t| && r == t[|t| - |r|..] && AllSpace(t[..|t| - |r|])
    ensures |r| <= |s| && r == s[|s| - |r|..] && AllSpace(s[..|s| - |r|])
  {
    var k := |s| - |r|;
    assert s[1..][k - 1..] == s[k..];
    assert s[..k] == [s[0]] + s[1..][..k - 1];
    SpaceConcat([s[0]], s[1..][..k - 1]);
  }

  /** One trailing space more behind what the rest trims to. */
  lemma RightStep(s: String, r: String)
    requires s != [] && IsSpace(s[|s| - 1])
    requires var t := s[..|s| - 1]; r <= t && AllSpace(t[|r|..])
    ensures r <= s && AllSpace(s[|r|..])
  {
    var t := s[..|s| - 1];
    assert s[|r|..] == t[|r|..] + [s[|s| - 1]];
    SpaceConcat(t[|r|..], [s[|s| - 1]]);
  }

  /** `strings.TrimSpace`: leading and trailing white space removed. */
  function TrimSpace(s: String): (r: String)
    ensures r == [] || (!IsSpace(r[0]) && !IsSpace(r[|r| - 1]))
    ensures r == [] <==> AllSpace(s)
    ensures s == [] || (!IsSpace(s[0]) && !IsSpace(s[|s| - 1])) ==> r == s
  {
    var l := TrimLeftSpace(s);
    var r := TrimRightSpace(l);
    TrimSpaceEmpty(s, l, r);
    r
  }

  /** A single non-space character is kept as it is. */
  lemma TrimSpaceChar(c: char)
    requires !IsSpace(c)
    ensures TrimSpace([c]) == [c]
  {
  }

  lemma TrimSpaceEmpty(s: String, l: String, r: String)
    requires l == TrimLeftSpace(s) && r == TrimRightSpace(l)
    ensures r == [] <==> AllSpace(s)
  {
    var k := |s| - |l|;
    if r == [] {
      assert s[..k] == s;
    } else {
      assert r[0] == l[0] == s[k];
    }
  }

  /**
    * The result of `TrimSpace` is the infix of `s` left between an
    * all-white-space prefix and an all-white-space suffix.
    */
  lemma TrimSpaceInfix(s: String)
    ensures Framed(s, |s| - |TrimLeftSpace(s)|, TrimSpace(s))
  {
    TrimBothInfix(s);
    assert TrimSpace(s) == TrimRightSpace(TrimLeftSpace(s));
  }

  lemma TrimBothInfix(s: String)
    ensures Framed(s, |s| - |TrimLeftSpace(s)|, TrimRightSpace(TrimLeftSpace(s)))
  {
    var l := TrimLeftSpace(s);
    var r := TrimRightSpace(l);
    PrefixSlice(r, l);
    TrimmedInfix(s, l, r);
  }

  lemma PrefixSlice(r: String, l: String)
    requires r <= l
    ensures |r| <= |l| && r == l[..|r|]
  {
  }

  /** `r` sits at offset `k` of `s`, with only white space before and after it. */
  predicate Framed(s: String, k: nat, r: String) {
    k + |r| <= |s| && r == s[k..k + |r|] && AllSpace(s[..k]) && AllSpace(s[k + |r|..])
  }

  lemma TrimmedInfix(s: String, l: String, r: String)
    requires |l| <= |s| && l == s[|s| - |l|..] && AllSpace(s[..|s| - |l|])
    requires |r| <= |l| && r == l[..|r|] && AllSpace(l[|r|..])
    ensures Framed(s, |s| - |l|, r)
  {
    var k := |s| - |l|;
    assert l[..|r|] == s[k..k + |r|];
    assert l[|r|..] == s[k + |r|..];
  }

  /** White space around an unpadded string is exactly what `TrimSpace` removes. */
  lemma TrimSpacePadded(a: String, e: String, b: String)
    requires AllSpace(a) && AllSpace(b)
    requires e == [] || (!IsSpace(e[0]) && !IsSpace(e[|e| - 1]))
    ensures TrimSpace(a + (e + b)) == e
  {
    if e == [] {
      assert a + (e + b) == a + b;
      SpaceConcat(a, b);
    } else {
      TrimLeftPadded(a, e + b);
      TrimRightPadded(e, b);
    }
  }

  lemma {:induction false} TrimLeftPadded(a: String, t: String)
    requires AllSpace(a)
    requires t == [] || !IsSpace(t[0])
    ensures TrimLeftSpace(a + t) == t
    decreases |a|
  {
    if a == [] {
      assert a + t == t;
    } else {
      assert (a + t)[0] == a[0];
      assert (a + t)[1..] == a[1..] + t;
      TrimLeftPadded(a[1..], t);
    }
  }

  lemma {:induction false} TrimRightPadded(t: String, b: String)
    requires AllSpace(b)
    requires t == [] || !IsSpace(t[|t| - 1])
    ensures TrimRightSpace(t + b) == t
    decreases |b|
  {
    if b == [] {
      assert t + b == t;
    } else {
      var s := t + b;
      assert s[|s| - 1] == b[|b| - 1];
      assert s[..|s| - 1] == t + b[..|b| - 1];
      TrimRightPadded(t, b[..|b| - 1]);
    }
  }

  lemma SpaceConcat(a: String, b: String)
    requires AllSpace(a) && AllSpace(b)
    ensures AllSpace(a + b)
  {
    forall i | 0 <= i < |a + b| ensures IsSpace((a + b)[i]) {
      if i < |a| { assert (a + b)[i] == a[i]; } else { assert (a + b)[i] == b[i - |a|]; }
    }
  }

  /** Two complete lines and a rest split into exactly those three pieces. */
  lemma SplitAfter3Lines(a: String, b: String, c: String)
    requires IsLine(a) && IsLine(b)
    ensures SplitAfter3(a + b + c) == [a, b, c]
  {
    Associative(a, b, c);
    LinesSplit(a, b, c);
  }

  lemma LinesSplit(a: String, b: String, c: String)
    requires IsLine(a) && IsLine(b)
    ensures SplitAfter3(a + (b + c)) == [a, b, c]
  {
    SplitAfter3Line(a, b + c);
    SplitAfter2Line(b, c);
    assert [a] + [b, c] == [a, b, c];
  }

  /** A complete line in front: `SplitAfter3` cuts it off and splits the rest in two. */
  lemma SplitAfter3Line(a: String, t: String)
    requires IsLine(a)
    ensures SplitAfter3(a + t) == [a] + SplitAfter2(t)
  {
    var s := a + t;
    FirstLine(a, t);
    assert s[..|a|] == a && s[|a|..] == t;
  }

  /** A complete line in front: `SplitAfter2` cuts it off and keeps the rest whole. */
  lemma SplitAfter2Line(b: String, c: String)
    requires IsLine(b)
    ensures SplitAfter2(b + c) == [b, c]
  {
    FirstLine(b, c);
    assert (b + c)[..|b|] == b && (b + c)[|b|..] == c;
  }

  /** The first newline of `l + rest`, for a line `l`, is the end of `l`. */
  lemma FirstLine(l: String, rest: String)
    requires IsLine(l)
    ensures IndexOf(l + rest, '\n') == |l| - 1
  {
    var s := l + rest;
    var i := IndexOf(s, '\n');
    assert s[|l| - 1] == '\n';
    assert s[..|l| - 1] == l[..|l| - 1];
  }

  /** Sequence concatenation regrouped; stated once so that proofs about lists of strings stay small. */
  lemma Associative<T>(a: seq<T>, b: seq<T>, c: seq<T>)
    ensures a + (b + c) == (a + b) + c
  {
  }
}

=== FILE: tokenizer.dfy ===
/**
 The name accumulator that turns the body of a `cf files` listing into file
 and directory names. The same loop appears in every generation of the
 plugin that parses listings greedily (the `dir_parser` package and the
 older `execParseDir` snapshots). Names may hold single spaces; the only
 boundaries are a token ending in `/` (closes a directory name, slash kept)
 and a size token (closes a file name).
 */
module Tokenizer {
  import opened Text
  import opened SizeToken

  /** The loop's state: the pending name and the names emitted so far. */
  datatype Accumulator = Accumulator(name: String, files: seq<String>, dirs: seq<String>)

  /** What a listing body parses into. */
  datatype Entries = Entries(files: seq<String>, dirs: seq<String>)

  const Start := Accumulator([], [], [])

  /**
   One iteration of the loop over the body's tokens. A token ending in `/`
   emits exactly one directory name; a size token emits exactly one file
   name when a name is pending; either empties the pending buffer, and any
   other token extends it.
   */
  function Step(a: Accumulator, tok: String): (r: Accumulator)
    ensures a.files <= r.files && a.dirs <= r.dirs
    ensures |r.dirs| == |a.dirs| + (if HasSuffix(tok, "/") then 1 else 0)
    ensures |r.files| == |a.files| + (if !HasSuffix(tok, "/") && IsDelimiter(tok) && a.name != [] then 1 else 0)
    ensures r.name == [] <==> HasSuffix(tok, "/") || IsDelimiter(tok)
  {
    if HasSuffix(tok, "/") then
      Accumulator([], a.files, a.dirs + [a.name + tok])
    else if IsDelimiter(tok) then
      if |a.name| > 0 then Accumulator([], a.files + [TrimSuffix(a.name, " ")], a.dirs)
      else Accumulator([], a.files, a.dirs)
    else
      Accumulator(a.name + tok + " ", a.files, a.dirs)
  }

  /** The loop: every token in turn. Emitted names are only ever appended, at most one per token. */
  function Run(a: Accumulator, toks: seq<String>): (r: Accumulator)
    ensures a.files <= r.files && a.dirs <= r.dirs
    ensures |r.files| + |r.dirs| <= |a.files| + |a.dirs| + |toks|
    decreases |toks|
  {
    if toks == [] then a else Run(Step(a, toks[0]), toks[1..])
  }

  /** The names a token sequence yields, starting from an empty buffer: at most one per token. */
  function Tokenize(toks: seq<String>): (r: Entries)
    ensures |r.files| + |r.dirs| <= |toks|
  {
    var a := Run(Start, toks);
    Entries(a.files, a.dirs)
  }

  /**
   The body of a listing: split into fields, then tokenized. Every
   directory name ends with `/`; every file name is non-empty and has no
   white space at either end.
   */
  function ParseBody(body: String): (r: Entries)
    ensures forall k :: 0 <= k < |r.dirs| ==> GoodDir(r.dirs[k])
    ensures forall k :: 0 <= k < |r.files| ==> GoodFile(r.files[k])
  {
    RunGood(Start, Fields(body));
    Tokenize(Fields(body))
  }

  /** A directory name as emitted: ends with a slash. */
  predicate GoodDir(d: String) {
    HasSuffix(d, "/")
  }

  /** A file name as emitted: non-empty, neither starting nor ending with white space. */
  predicate GoodFile(f: String) {
    f != [] && !IsSpace(f[0]) && !IsSpace(f[|f| - 1])
  }

  /** The pending buffer: empty, or tokens each followed by one space. */
  predicate GoodPending(name: String) {
    name == [] || (|name| >= 2 && !IsSpace(name[0]) && name[|name| - 1] == ' ' && !IsSpace(name[|name| - 2]))
  }

  predicate GoodAccumulator(a: Accumulator) {
    && GoodPending(a.name)
    && (forall k :: 0 <= k < |a.files| ==> GoodFile(a.files[k]))
    && (forall k :: 0 <= k < |a.dirs| ==> GoodDir(a.dirs[k]))
  }

  predicate GoodToken(t: String) {
    t != [] && NoSpace(t)
  }

  lemma StepGood(a: Accumulator, tok: String)
    requires GoodAccumulator(a) && GoodToken(tok)
    ensures GoodAccumulator(Step(a, tok))
  {
    var r := Step(a, tok);
    if HasSuffix(tok, "/") {
      var d := a.name + tok;
      assert d[|d| - 1..] == tok[|tok| - 1..];
      assert GoodDir(r.dirs[|r.dirs| - 1]);
    } else if IsDelimiter(tok) {
      if |a.name| > 0 {
        var f := TrimSuffix(a.name, " ");
        assert HasSuffix(a.name, " ");
        assert f == a.name[..|a.name| - 1];
        assert GoodFile(r.files[|r.files| - 1]);
      }
    } else {
      var n := a.name + tok + " ";
      assert n[|n| - 2] == tok[|tok| - 1];
      assert n[0] == if a.name == [] then tok[0] else a.name[0];
    }
  }

  lemma {:induction false} RunGood(a: Accumulator, toks: seq<String>)
    requires GoodAccumulator(a)
    requires forall k :: 0 <= k < |toks| ==> GoodToken(toks[k])
    ensures GoodAccumulator(Run(a, toks))
    decreases |toks|
  {
    if toks != [] {
      StepGood(a, toks[0]);
      RunGood(Step(a, toks[0]), toks[1..]);
    }
  }

  /** Running over `a + b` is running over `a`, then over `b`. */
  lemma {:induction false} RunAppend(acc: Accumulator, a: seq<String>, b: seq<String>)
    ensures Run(acc, a + b) == Run(Run(acc, a), b)
    decreases |a|
  {
    if a == [] {
      assert a + b == b;
    } else {
      assert (a + b)[0] == a[0];
      assert (a + b)[1..] == a[1..] + b;
      RunAppend(Step(acc, a[0]), a[1..], b);
    }
  }

  /**
   Source order is kept: the names produced by a prefix of the tokens come
   first, unchanged, in the names produced by the whole sequence.
   */
  lemma TokenizeKeepsOrder(a: seq<String>, b: seq<String>)
    ensures Tokenize(a).files <= Tokenize(a + b).files
    ensures Tokenize(a).dirs <= Tokenize(a + b).dirs
  {
    RunAppend(Start, a, b);
  }

  /** A word of a file name: a token that neither closes a directory nor looks like a size. */
  predicate Word(t: String) {
    !HasSuffix(t, "/") && !IsDelimiter(t)
  }

  /** The pending buffer after reading the words `ws`: each word followed by one space. */
  function Spaced(ws: seq<String>): String {
    if ws == [] then [] else ws[0] + " " + Spaced(ws[1..])
  }

  /** Words only add to the pending buffer. */
  lemma {:induction false} Gather(a: Accumulator, ws: seq<String>)
    requires forall k :: 0 <= k < |ws| ==> Word(ws[k])
    ensures Run(a, ws) == Accumulator(a.name + Spaced(ws), a.files, a.dirs)
    decreases |ws|
  {
    if ws == [] {
      assert a.name + [] == a.name;
    } else {
      var a1 := Step(a, ws[0]);
      assert a1 == Accumulator(a.name + ws[0] + " ", a.files, a.dirs);
      Gather(a1, ws[1..]);
      Associative(a.name, ws[0], " ");
      Associative(a.name, ws[0] + " ", Spaced(ws[1..]));
    }
  }

  /** The buffer is the words joined by single spaces, plus one space. */
  lemma {:induction false} SpacedJoin(ws: seq<String>)
    requires ws != []
    ensures Spaced(ws) == Join(ws, ' ') + " "
    decreases |ws|
  {
    if |ws| == 1 {
      assert Spaced(ws[1..]) == [];
      assert ws[0] + " " + [] == ws[0] + " ";
    } else {
      SpacedJoin(ws[1..]);
      assert ws[0] + [' '] == ws[0] + " ";
      Associative(ws[0] + " ", Join(ws[1..], ' '), " ");
    }
  }

  /**
   The words before a size token make one file name, joined by single
   spaces; a size token with nothing pending (the dash after a directory
   name) emits nothing.
   */
  lemma SpacedName(acc: Accumulator, ws: seq<String>, size: String)
    requires acc.name == []
    requires forall k :: 0 <= k < |ws| ==> Word(ws[k])
    requires IsDelimiter(size)
    ensures Run(acc, ws + [size]) == Accumulator([], acc.files + (if ws == [] then [] else [Join(ws, ' ')]), acc.dirs)
  {
    RunAppend(acc, ws, [size]);
    Gather(acc, ws);
    var a := Run(acc, ws);
    CloseName(a, size);
    if ws != [] {
      SpacedJoin(ws);
      var n := Join(ws, ' ') + " ";
      assert a.name == n;
      assert TrimSuffix(n, " ") == Join(ws, ' ') by {
        assert HasSuffix(n, " ");
        assert n[..|n| - 1] == Join(ws, ' ');
      }
    } else {
      assert a == acc;
    }
  }

  /** A size token closes the pending name, if any, as one file name. */
  lemma CloseName(a: Accumulator, size: String)
    requires IsDelimiter(size)
    ensures Run(a, [size]) == Accumulator([], a.files + (if a.name == [] then [] else [TrimSuffix(a.name, " ")]), a.dirs)
  {
    assert !HasSuffix(size, "/") by {
      DelimiterCharacterisation(size);
    }
    assert Run(a, [size]) == Run(Step(a, size), []);
  }

  /** One line of a well-formed listing: a name and its size column. */
  datatype Line = Line(name: String, isDir: bool, size: String)

  /** The tokens a line contributes: a directory's name carries its slash. */
  function LineTokens(l: Line): seq<String> {
    if l.isDir then [l.name + "/", l.size] else [l.name, l.size]
  }

  function LinesTokens(ls: seq<Line>): seq<String> {
    if ls == [] then [] else LineTokens(ls[0]) + LinesTokens(ls[1..])
  }

  function FileNames(ls: seq<Line>): seq<String> {
    if ls == [] then [] else (if ls[0].isDir then [] else [ls[0].name]) + FileNames(ls[1..])
  }

  function DirNames(ls: seq<Line>): seq<String> {
    if ls == [] then [] else (if ls[0].isDir then [ls[0].name + "/"] else []) + DirNames(ls[1..])
  }

  /**
   A line the tokenizer reads back: its size column is a delimiter; a
   directory name is one token; a file name is one token that neither ends
   with a slash nor looks like a size.
   */
  predicate Readable(l: Line) {
    && IsDelimiter(l.size)
    && NoSpace(l.name)
    && (!l.isDir ==> l.name != [] && !HasSuffix(l.name, "/") && !IsDelimiter(l.name))
  }

  /** Every line is readable (stated by recursion, so that no quantifier needs instantiating). */
  predicate AllReadable(ls: seq<Line>) {
    ls == [] || (Readable(ls[0]) && AllReadable(ls[1..]))
  }

  lemma {:induction false} AllReadableEach(ls: seq<Line>)
    requires forall k :: 0 <= k < |ls| ==> Readable(ls[k])
    ensures AllReadable(ls)
    decreases |ls|
  {
    if ls != [] {
      assert forall k :: 0 <= k < |ls[1..]| ==> ls[1..][k] == ls[k + 1];
      AllReadableEach(ls[1..]);
    }
  }

  lemma ReadLine(acc: Accumulator, l: Line)
    requires acc.name == [] && Readable(l)
    ensures Run(acc, LineTokens(l))
         == Accumulator([], acc.files + (if l.isDir then [] else [l.name]),
                            acc.dirs + (if l.isDir then [l.name + "/"] else []))
  {
    var toks := LineTokens(l);
    assert !HasSuffix(l.size, "/") by {
      DelimiterCharacterisation(l.size);
    }
    var a1 := Step(acc, toks[0]);
    var a2 := Step(a1, toks[1]);
    assert Run(acc, toks) == Run(a1, toks[1..]);
    assert toks[1..][1..] == [];
    assert Run(a1, toks[1..]) == Run(a2, []) == a2;
    if l.isDir {
      var d := l.name + "/";
      assert d[|d| - 1..] == "/";
      assert acc.name + d == d;
      assert a1 == Accumulator([], acc.files, acc.dirs + [d]);
    } else {
      var n := l.name + " ";
      assert acc.name + l.name + " " == n;
      assert a1 == Accumulator(n, acc.files, acc.dirs);
      assert TrimSuffix(n, " ") == l.name by {
        assert HasSuffix(n, " ");
        assert n[..|n| - 1] == l.name;
      }
    }
  }

  /** Reading a listing made of readable lines gives back its names, in order. */
  lemma {:induction false} ReadLines(acc: Accumulator, ls: seq<Line>)
    requires acc.name == []
    requires AllReadable(ls)
    ensures Run(acc, LinesTokens(ls)) == Accumulator([], acc.files + FileNames(ls), acc.dirs + DirNames(ls))
    decreases |ls|
  {
    if ls == [] {
      assert acc.files + [] == acc.files && acc.dirs + [] == acc.dirs;
    } else {
      var mid := ReadHead(acc, ls);
      ReadLines(mid, ls[1..]);
    }
  }

  /** The state after reading line `l` with an empty buffer. */
  function After(acc: Accumulator, l: Line): Accumulator {
    Accumulator([], acc.files + (if l.isDir then [] else [l.name]),
                    acc.dirs + (if l.isDir then [l.name + "/"] else []))
  }

  /** The first line read: the loop continues from `mid` with the remaining lines. */
  lemma ReadHead(acc: Accumulator, ls: seq<Line>) returns (mid: Accumulator)
    requires acc.name == [] && ls != [] && Readable(ls[0])
    ensures mid.name == []
    ensures Run(acc, LinesTokens(ls)) == Run(mid, LinesTokens(ls[1..]))
    ensures acc.files + FileNames(ls) == mid.files + FileNames(ls[1..])
    ensures acc.dirs + DirNames(ls) == mid.dirs + DirNames(ls[1..])
  {
    mid := After(acc, ls[0]);
    assert LinesTokens(ls) == LineTokens(ls[0]) + LinesTokens(ls[1..]);
    ReadLineThen(acc, ls[0], LinesTokens(ls[1..]));
    NamesAfter(acc, ls);
  }

  lemma ReadLineThen(acc: Accumulator, l: Line, rest: seq<String>)
    requires acc.name == [] && Readable(l)
    ensures Run(acc, LineTokens(l) + rest) == Run(After(acc, l), rest)
  {
    RunAppend(acc, LineTokens(l), rest);
    ReadLine(acc, l);
  }

  lemma NamesAfter(acc: Accumulator, ls: seq<Line>)
    requires ls != []
    ensures acc.files + FileNames(ls) == After(acc, ls[0]).files + FileNames(ls[1..])
    ensures acc.dirs + DirNames(ls) == After(acc, ls[0]).dirs + DirNames(ls[1..])
  {
    NamesCons(ls);
    Associative(acc.files, if ls[0].isDir then [] else [ls[0].name], FileNames(ls[1..]));
    Associative(acc.dirs, if ls[0].isDir then [ls[0].name + "/"] else [], DirNames(ls[1..]));
  }


  lemma NamesCons(ls: seq<Line>)
    requires ls != []
    ensures ls[0].isDir ==> FileNames(ls) == FileNames(ls[1..]) && DirNames(ls) == [ls[0].name + "/"] + DirNames(ls[1..])
    ensures !ls[0].isDir ==> FileNames(ls) == [ls[0].name] + FileNames(ls[1..]) && DirNames(ls) == DirNames(ls[1..])
  {
    assert [] + FileNames(ls[1..]) == FileNames(ls[1..]);
    assert [] + DirNames(ls[1..]) == DirNames(ls[1..]);
  }

  /** Tokenizing the tokens of readable lines returns their file and directory names. */
  lemma TokenizeLines(ls: seq<Line>)
    requires forall k :: 0 <= k < |ls| ==> Readable(ls[k])
    ensures Tokenize(LinesTokens(ls)) == Entries(FileNames(ls), DirNames(ls))
  {
    AllReadableEach(ls);
    ReadLines(Start, ls);
  }
}

=== FILE: walk.dfy ===
/**
 The download walk shared by every generation: create the local directory,
 hand each unfiltered file to a file download, then for each unfiltered
 subdirectory create it, list it and walk it. Goroutines become plain
 calls made at the point where the program starts them, and the WaitGroup
 becomes two counters, units started and units finished. The remote tree,
 the local writes and directory creation are the inputs of `Env`; `fuel`
 bounds the depth of the walk.
 */
module Walk {
  import opened Text
  import opened Outcomes
  import Filter
  import DirParser
  import Downloader
  import LegacyParser
  import Monolith
  import Loaders
  import Prototype

  /**
   Which generation runs: the refactored packages, the monolithic
   `download.go`, the `parser.go` + `loaders.go` snapshot, or the
   `test.go` prototype (which may walk subdirectories synchronously).
   */
  datatype Variant = Refactored | Monolithic | Snapshot | Proto(superConcurrent: bool)

  /** Settings of one run: the generation, verbosity, the root the filter strips, and the filter list. */
  datatype Config = Config(variant: Variant, verbose: bool, root: String, filterList: seq<String>)

  /**
   The world outside: the `cf files` response for a path at each attempt,
   whether each local write attempt at a path succeeds, and whether creating
   a local directory fails.
   */
  datatype Env = Env(fetch: String -> nat -> Fetched, writes: String -> nat -> bool, mkdirFails: String -> bool)

  /**
   What the walk has done so far: how it stands, the files-downloaded
   counter, the reported failure list, failures recorded where nothing
   reads them, units started and finished, remote files fetched, remote
   directories listed, and local files written with their contents.
   */
  datatype State = State(
    halt: Halt,
    counted: nat,
    failures: seq<String>,
    hidden: seq<String>,
    spawned: nat,
    done: nat,
    fetched: seq<String>,
    listed: seq<String>,
    written: seq<(String, String)>)

  /** A subdirectory walk finishes its own unit, unless the prototype calls it synchronously. */
  predicate Concurrent(v: Variant) {
    !(v.Proto? && !v.superConcurrent)
  }

  /** Whether a remote path is skipped: the prototype has no filter. */
  predicate Filtered(cfg: Config, path: String) {
    !cfg.variant.Proto? && Filter.CheckToFilter(path, cfg.root, cfg.filterList)
  }

  /** One file download of the running generation. */
  function FileStep(cfg: Config, env: Env, readPath: String, writePath: String): (r: FileResult)
    ensures r.halt != Truncated
    ensures r.written.Some? ==> r.halt == Running
  {
    var out := env.fetch(readPath)(0);
    match cfg.variant
    case Refactored => Downloader.DownloadFile(readPath, out, env.writes(writePath))
    case Monolithic => Monolith.DownloadFile(readPath, out, env.writes(writePath)(0), cfg.verbose)
    case Snapshot => Loaders.DownloadFile(readPath, out, env.writes(writePath)(0), cfg.verbose)
    case Proto(_) => Prototype.DownloadFile(readPath, out, env.writes(writePath)(0))
  }

  /** One directory listing of the running generation. */
  function ListStep(cfg: Config, env: Env, readPath: String): (r: ListResult)
    ensures r.halt != Truncated
    ensures r.fetches >= 1
  {
    match cfg.variant
    case Refactored => DirParser.ExecParseDir(readPath, env.fetch(readPath))
    case Monolithic => LegacyParser.ExecParseDir(readPath, env.fetch(readPath)(0))
    case Snapshot => LegacyParser.ExecParseDir(readPath, env.fetch(readPath)(0))
    case Proto(_) => Prototype.ExecParseDir(readPath, env.fetch(readPath)(0))
  }

  /**
   A file unit started and run to its end: the file is fetched, and the unit
   finishes unless the download stopped the process.
   */
  function AfterFile(s: State, readPath: String, writePath: String, f: FileResult): (r: State)
    ensures Extends(s, r)
    ensures r.fetched == s.fetched + [readPath] && r.listed == s.listed
    ensures r.spawned == s.spawned + 1
    ensures r.done == s.done + 1 <==> f.halt == Running
    ensures |r.written| <= |s.written| + 1
  {
    s.(halt := f.halt,
       counted := s.counted + (if f.counted then 1 else 0),
       failures := s.failures + AsSeq(f.failure),
       spawned := s.spawned + 1,
       done := s.done + (if f.halt == Running then 1 else 0),
       fetched := s.fetched + [readPath],
       written := s.written + (if f.written.Some? then [(writePath, f.written.value)] else []))
  }

  /**
   A subdirectory listed. The refactored downloader lists through a parser
   of its own, whose failure list nobody reads; the older generations share
   one global list.
   */
  function AfterList(cfg: Config, s: State, readPath: String, l: ListResult): (r: State)
    ensures Extends(s, r)
    ensures r.listed == s.listed + [readPath] && r.fetched == s.fetched
    ensures cfg.variant.Refactored? ==> r.failures == s.failures
    ensures |r.failures| + |r.hidden| == |s.failures| + |s.hidden| + (if l.failure.Some? then 1 else 0)
  {
    if cfg.variant.Refactored? then
      s.(halt := l.halt, hidden := s.hidden + AsSeq(l.failure), listed := s.listed + [readPath])
    else
      s.(halt := l.halt, failures := s.failures + AsSeq(l.failure), listed := s.listed + [readPath])
  }

  /** Everything recorded by `s` is still recorded by `r`: lists only grow at the end, counters only go up. */
  predicate Extends(s: State, r: State) {
    && s.counted <= r.counted
    && s.failures <= r.failures
    && s.hidden <= r.hidden
    && s.spawned <= r.spawned
    && s.done <= r.done
    && s.fetched <= r.fetched
    && s.listed <= r.listed
    && s.written <= r.written
  }

  /** Every remote path fetched or listed since `s` lies below `readPath` and is not filtered. */
  predicate Below(cfg: Config, s: State, r: State, readPath: String)
    requires Extends(s, r)
  {
    && (forall k :: |s.fetched| <= k < |r.fetched| ==> readPath <= r.fetched[k] && !Filtered(cfg, r.fetched[k]))
    && (forall k :: |s.listed| <= k < |r.listed| ==> readPath <= r.listed[k] && !Filtered(cfg, r.listed[k]))
  }

  /** While running, every unit started since `s` has finished, and `own` more units besides. */
  predicate Balanced(s: State, r: State, own: nat) {
    r.halt == Running ==> r.done + s.spawned == s.done + r.spawned + own
  }

  /**
   Refactored accounting: unless the walk ended in a panic, every file
   fetched since `s` was either counted or added one failure.
   */
  predicate Accounted(cfg: Config, s: State, r: State) {
    cfg.variant.Refactored? && r.halt != Panicked ==>
      r.counted + |r.failures| + |s.fetched| == s.counted + |s.failures| + |r.fetched|
  }

  /** The guarantees of every part of the walk, from `s` to `r`, for a walk at `readPath`. */
  predicate Walked(cfg: Config, s: State, r: State, readPath: String, own: nat) {
    && (s.halt != Running ==> r == s)
    && Extends(s, r)
    && Below(cfg, s, r, readPath)
    && Balanced(s, r, own)
    && Accounted(cfg, s, r)
  }

  /** The full remote paths of the entries under `readPath` that the filter lets through, in order. */
  function Kept(cfg: Config, readPath: String, names: seq<String>): (r: seq<String>)
    ensures forall k :: 0 <= k < |r| ==> !Filtered(cfg, r[k])
  {
    if names == [] then []
    else (if Filtered(cfg, readPath + names[0]) then [] else [readPath + names[0]]) + Kept(cfg, readPath, names[1..])
  }

  /** The prototype filters nothing: every entry is kept, as `readPath` + name, in order. */
  lemma {:induction false} NoFilterKeepsAll(cfg: Config, readPath: String, names: seq<String>)
    requires cfg.variant.Proto?
    ensures |Kept(cfg, readPath, names)| == |names|
    ensures forall k :: 0 <= k < |names| ==> Kept(cfg, readPath, names)[k] == readPath + names[k]
    decreases |names|
  {
    if names != [] {
      NoFilterKeepsAll(cfg, readPath, names[1..]);
      assert Kept(cfg, readPath, names) == [readPath + names[0]] + Kept(cfg, readPath, names[1..]);
    }
  }

  /**
   The file loop of `Download`. When it runs to the end, it has fetched
   exactly the unfiltered files, as `readPath` + name in listing order, one
   unit each.
   */
  function Files(cfg: Config, env: Env, files: seq<String>, readPath: String, writePath: String, s: State): (r: State)
    ensures Walked(cfg, s, r, readPath, 0)
    ensures r.halt == Running ==> r.fetched == s.fetched + Kept(cfg, readPath, files)
    ensures r.halt == Running ==> r.spawned == s.spawned + |Kept(cfg, readPath, files)|
    decreases |files|
  {
    if files == [] || s.halt != Running then s
    else
      var rp, wp := readPath + files[0], writePath + files[0];
      var s1 := if Filtered(cfg, rp) then s else AfterFile(s, rp, wp, FileStep(cfg, env, rp, wp));
      FileUnit(cfg, env, s, rp, wp);
      var r := Files(cfg, env, files[1..], readPath, writePath, s1);
      Chain(cfg, s, s1, r, readPath, readPath, 0, 0);
      var step := if Filtered(cfg, rp) then [] else [rp];
      assert Kept(cfg, readPath, files) == step + Kept(cfg, readPath, files[1..]);
      Gathered(s, s1, r, step, Kept(cfg, readPath, files[1..]));
      r
  }

  /** Files fetched by one pass and by the rest of the loop add up. */
  lemma Gathered(s: State, s1: State, r: State, step: seq<String>, rest: seq<String>)
    requires r.halt == Running ==> s1.fetched == s.fetched + step && s1.spawned == s.spawned + |step|
    requires r.halt == Running ==> r.fetched == s1.fetched + rest && r.spawned == s1.spawned + |rest|
    ensures r.halt == Running ==> r.fetched == s.fetched + (step + rest) && r.spawned == s.spawned + |step + rest|
  {
    Associative(s.fetched, step, rest);
  }

  /** One pass of the file loop keeps the guarantees. */
  lemma FileUnit(cfg: Config, env: Env, s: State, rp: String, wp: String)
    requires s.halt == Running
    ensures var s1 := if Filtered(cfg, rp) then s else AfterFile(s, rp, wp, FileStep(cfg, env, rp, wp));
            Walked(cfg, s, s1, rp, 0)
  {
    if !Filtered(cfg, rp) {
      var f := FileStep(cfg, env, rp, wp);
      if cfg.variant.Refactored? {
        var out := env.fetch(rp)(0);
        Downloader.WriteFileAccounting(rp, SplitAfter3(out.output), env.writes(wp));
      }
    }
  }

  /** The guarantees compose: a walk at `inner` below `outer` is also below `outer`. */
  lemma Chain(cfg: Config, s: State, s1: State, r: State, outer: String, inner: String, own1: nat, own2: nat)
    requires Walked(cfg, s, s1, outer, own1)
    requires Walked(cfg, s1, r, inner, own2)
    requires outer <= inner
    requires s1.halt != Running ==> own2 == 0
    ensures Walked(cfg, s, r, outer, own1 + own2)
  {
    forall k | |s.fetched| <= k < |r.fetched|
      ensures outer <= r.fetched[k] && !Filtered(cfg, r.fetched[k])
    {
      if k < |s1.fetched| {
        assert r.fetched[k] == s1.fetched[k];
      } else {
        PrefixTrans(outer, inner, r.fetched[k]);
      }
    }
    forall k | |s.listed| <= k < |r.listed|
      ensures outer <= r.listed[k] && !Filtered(cfg, r.listed[k])
    {
      if k < |s1.listed| {
        assert r.listed[k] == s1.listed[k];
      } else {
        PrefixTrans(outer, inner, r.listed[k]);
      }
    }
  }

  lemma PrefixTrans(a: String, b: String, c: String)
    requires a <= b && b <= c
    ensures a <= c
  {
    assert c[..|a|] == b[..|a|];
  }

  /**
   `Download`: create the local directory (a failure ends the process),
   walk the files, walk the subdirectories, then finish this unit.
   */
  function Download(cfg: Config, env: Env, files: seq<String>, dirs: seq<String>, readPath: String, writePath: String, s: State, fuel: nat): (r: State)
    ensures Walked(cfg, s, r, readPath, if Concurrent(cfg.variant) then 1 else 0)
    decreases fuel, 1
  {
    if s.halt != Running then s
    else if env.mkdirFails(writePath) then s.(halt := Exited)
    else
      var s1 := Files(cfg, env, files, readPath, writePath, s);
      var s2 := Dirs(cfg, env, dirs, readPath, writePath, s1, fuel);
      Chain(cfg, s, s1, s2, readPath, readPath, 0, 0);
      var r := if s2.halt == Running && Concurrent(cfg.variant) then s2.(done := s2.done + 1) else s2;
      r
  }

  /** The subdirectory loop of `Download`. When it runs to the end, it has listed every unfiltered subdirectory. */
  function Dirs(cfg: Config, env: Env, dirs: seq<String>, readPath: String, writePath: String, s: State, fuel: nat): (r: State)
    ensures Walked(cfg, s, r, readPath, 0)
    ensures r.halt == Running ==> forall p :: p in Kept(cfg, readPath, dirs) ==> p in r.listed
    decreases fuel, 0, |dirs|
  {
    if dirs == [] || s.halt != Running then s
    else
      var rp, wp := readPath + dirs[0], writePath + dirs[0];
      if Filtered(cfg, rp) then
        assert Kept(cfg, readPath, dirs) == Kept(cfg, readPath, dirs[1..]);
        Dirs(cfg, env, dirs[1..], readPath, writePath, s, fuel)
      else
        var s1 := Visit(cfg, env, readPath, rp, wp, s, fuel);
        var r := Dirs(cfg, env, dirs[1..], readPath, writePath, s1, fuel);
        Chain(cfg, s, s1, r, readPath, readPath, 0, 0);
        assert Kept(cfg, readPath, dirs) == [rp] + Kept(cfg, readPath, dirs[1..]);
        StillListed(rp, Kept(cfg, readPath, dirs), Kept(cfg, readPath, dirs[1..]), s1.listed, r.listed, r.halt == Running);
        r
  }

  /**
   One unfiltered subdirectory: create it locally (a failure ends the
   process), list it, start its unit unless the walk is synchronous, and
   walk it.
   */
  function Visit(cfg: Config, env: Env, readPath: String, rp: String, wp: String, s: State, fuel: nat): (r: State)
    requires s.halt == Running && readPath <= rp && !Filtered(cfg, rp)
    ensures Walked(cfg, s, r, readPath, 0)
    ensures r.halt == Running ==> rp in r.listed
    decreases fuel, 0, 0
  {
    if env.mkdirFails(wp) then s.(halt := Exited)
    else if fuel == 0 then s.(halt := Truncated)
    else
      var l := ListStep(cfg, env, rp);
      if l.halt != Running then
        ListStopped(cfg, s, rp, l, readPath);
        AfterList(cfg, s, rp, l)
      else
        var s3 := Download(cfg, env, l.files, l.dirs, rp, wp, Spawn(cfg, AfterList(cfg, s, rp, l)), fuel - 1);
        SubWalk(cfg, s, l, s3, readPath, rp);
        s3
  }

  /** A directory's unit started, unless the walk is synchronous. */
  function Spawn(cfg: Config, s: State): (r: State)
    ensures r.spawned == s.spawned + 1 <==> Concurrent(cfg.variant)
    ensures r.(spawned := s.spawned) == s
  {
    if Concurrent(cfg.variant) then s.(spawned := s.spawned + 1) else s
  }

  /** A listing that ends the process leaves the directory listed and nothing else fetched. */
  lemma ListStopped(cfg: Config, s: State, rp: String, l: ListResult, readPath: String)
    requires s.halt == Running && l.halt != Running
    requires readPath <= rp && !Filtered(cfg, rp)
    ensures Walked(cfg, s, AfterList(cfg, s, rp, l), readPath, 0)
  {
    var s1 := AfterList(cfg, s, rp, l);
    assert s1.listed[|s.listed|] == rp;
  }

  /** A directory listed stays listed, and joins the ones the rest of the loop lists. */
  lemma StillListed(rp: String, kept: seq<String>, rest: seq<String>, l1: seq<String>, lr: seq<String>, running: bool)
    requires kept == [rp] + rest
    requires running ==> rp in l1
    requires l1 <= lr
    requires running ==> forall p :: p in rest ==> p in lr
    ensures running ==> forall p :: p in kept ==> p in lr
  {
    if running {
      var i :| 0 <= i < |l1| && l1[i] == rp;
      assert lr[i] == rp;
    }
  }

  /** Listing a subdirectory, starting its unit and walking it keeps the loop's guarantees and leaves it listed. */
  lemma SubWalk(cfg: Config, s: State, l: ListResult, s3: State, readPath: String, rp: String)
    requires s.halt == Running && l.halt == Running
    requires readPath <= rp && !Filtered(cfg, rp)
    requires Walked(cfg, Spawn(cfg, AfterList(cfg, s, rp, l)), s3, rp, if Concurrent(cfg.variant) then 1 else 0)
    ensures Walked(cfg, s, s3, readPath, 0)
    ensures s3.halt == Running ==> rp in s3.listed
  {
    var s2 := Spawn(cfg, AfterList(cfg, s, rp, l));
    assert s2.listed == s.listed + [rp];
    forall k | |s.fetched| <= k < |s3.fetched|
      ensures readPath <= s3.fetched[k] && !Filtered(cfg, s3.fetched[k])
    {
      PrefixTrans(readPath, rp, s3.fetched[k]);
    }
    forall k | |s.listed| <= k < |s3.listed|
      ensures readPath <= s3.listed[k] && !Filtered(cfg, s3.listed[k])
    {
      if k == |s.listed| {
        assert s2.listed[k] == rp;
        assert s3.listed[k] == s2.listed[k];
      } else {
        PrefixTrans(readPath, rp, s3.listed[k]);
      }
    }
    assert s3.listed[|s.listed|] == rp;
  }

  /**
   A walk started as `Run` starts it, with one unit added for the root and
   the starting path listed. While running, every unit has finished when it
   ends in the concurrent generations; in the synchronous prototype the
   root's unit stays open, since that walk never calls `Done`. In the
   refactored downloader, unless the walk ended in a panic, every file
   fetched was counted or reported. Every file fetched lies below the
   starting path and is not filtered.
   */
  lemma FromRoot(cfg: Config, env: Env, files: seq<String>, dirs: seq<String>, start: String, localRoot: String, h: Halt, fuel: nat)
    ensures var s0 := State(h, 0, [], [], 1, 0, [], [start], []);
            var r := Download(cfg, env, files, dirs, start, localRoot, s0, fuel);
            && (h != Running ==> r == s0)
            && (r.halt == Running ==> r.done + (if Concurrent(cfg.variant) then 0 else 1) == r.spawned)
            && (cfg.variant.Refactored? && r.halt != Panicked ==> r.counted + |r.failures| == |r.fetched|)
            && (forall k :: 0 <= k < |r.fetched| ==> start <= r.fetched[k] && !Filtered(cfg, r.fetched[k]))
  {
    var s0 := State(h, 0, [], [], 1, 0, [], [start], []);
    var r := Download(cfg, env, files, dirs, start, localRoot, s0, fuel);
    Fresh(cfg, s0, r, start, if Concurrent(cfg.variant) then 1 else 0);
  }

  /** The guarantees read from a state with nothing fetched or reported and one unit started. */
  lemma Fresh(cfg: Config, s0: State, r: State, start: String, own: nat)
    requires s0.counted == 0 && s0.failures == [] && s0.fetched == [] && s0.spawned == 1 && s0.done == 0
    requires own <= 1
    requires Walked(cfg, s0, r, start, own)
    ensures s0.halt == Running && r.halt == Running ==> r.done + 1 == r.spawned + own
    ensures cfg.variant.Refactored? && r.halt != Panicked ==> r.counted + |r.failures| == |r.fetched|
    ensures forall k :: 0 <= k < |r.fetched| ==> start <= r.fetched[k] && !Filtered(cfg, r.fetched[k])
  {
  }
}

=== FILE: walk_trace.dfy ===
/**
 What a walk that nothing stops does, read off the remote tree alone: the
 files it fetches, the directories it lists and the local files it writes,
 in order. A directory enters the walk only through the listing of its
 parent, and only when the filter lets it through; a file is fetched only
 as an entry of the starting listing or of a directory the walk listed.
 `Walk.Download` follows this trace whenever it ends with the process
 running.
 */
module WalkTrace {
  import opened Text
  import opened Outcomes
  import opened Walk

  /** The remote files fetched, remote directories listed and local files written (with contents). */
  datatype Trace = Trace(fetched: seq<String>, listed: seq<String>, written: seq<(String, String)>)

  const Empty := Trace([], [], [])

  /** One trace, then another. */
  function Then(a: Trace, b: Trace): Trace {
    Trace(a.fetched + b.fetched, a.listed + b.listed, a.written + b.written)
  }

  /** The listing the walk gets for each remote directory. */
  function Listing(cfg: Config, env: Env): String -> ListResult {
    q => ListStep(cfg, env, q)
  }

  /** The part of a walk state a trace records. */
  function Of(s: State): Trace {
    Trace(s.fetched, s.listed, s.written)
  }

  /** One file: fetched, and written at the local path of the same name when its download wrote it. */
  function FileTrace(cfg: Config, env: Env, rp: String, wp: String): Trace {
    Trace([rp], [], WriteAt(cfg, env, rp, wp))
  }

  /** The local file the download of `rp` to `wp` writes, with its contents, if it writes one. */
  function WriteAt(cfg: Config, env: Env, rp: String, wp: String): (r: seq<(String, String)>)
    ensures |r| <= 1
    ensures r == [] <==> FileStep(cfg, env, rp, wp).written.None?
    ensures r != [] ==> r[0].0 == wp && FileStep(cfg, env, rp, wp).written == Some(r[0].1)
  {
    var f := FileStep(cfg, env, rp, wp);
    if f.written.Some? then [(wp, f.written.value)] else []
  }

  /** The unfiltered files of one listing, in order. */
  function FilesTrace(cfg: Config, env: Env, files: seq<String>, readPath: String, writePath: String): Trace
    decreases |files|
  {
    if files == [] then Empty
    else
      var rp, wp := readPath + files[0], writePath + files[0];
      Then(if Filtered(cfg, rp) then Empty else FileTrace(cfg, env, rp, wp),
           FilesTrace(cfg, env, files[1..], readPath, writePath))
  }

  /** A directory with the given listing: its files, then its unfiltered subdirectories, each listed and walked. */
  function TreeTrace(cfg: Config, env: Env, listing: String -> ListResult, files: seq<String>, dirs: seq<String>, readPath: String, writePath: String, fuel: nat): Trace
    decreases fuel, 1
  {
    Then(FilesTrace(cfg, env, files, readPath, writePath), DirsTrace(cfg, env, listing, dirs, readPath, writePath, fuel))
  }

  /** The subdirectories of one listing; a filtered one contributes nothing, nor does anything below it. */
  function DirsTrace(cfg: Config, env: Env, listing: String -> ListResult, dirs: seq<String>, readPath: String, writePath: String, fuel: nat): Trace
    decreases fuel, 0, |dirs|
  {
    if dirs == [] then Empty
    else
      var rp, wp := readPath + dirs[0], writePath + dirs[0];
      Then(if Filtered(cfg, rp) || fuel == 0 then Empty else SubTrace(cfg, env, listing, rp, wp, fuel),
           DirsTrace(cfg, env, listing, dirs[1..], readPath, writePath, fuel))
  }

  /** One subdirectory: listed, then walked with what its listing returned. */
  function SubTrace(cfg: Config, env: Env, listing: String -> ListResult, rp: String, wp: String, fuel: nat): Trace
    requires fuel > 0
    decreases fuel, 0, 0
  {
    var l := listing(rp);
    Then(Trace([], [rp], []), TreeTrace(cfg, env, listing, l.files, l.dirs, rp, wp, fuel - 1))
  }

  /**
   The walk from `s` to `r` did what the trace `t` says and, while running,
   started one unit per file fetched and, unless it walks synchronously,
   one per directory listed.
   */
  predicate Follows(cfg: Config, s: State, r: State, t: Trace) {
    r.halt == Running ==>
      && Of(r) == Then(Of(s), t)
      && r.spawned == s.spawned + |t.fetched| + (if Concurrent(cfg.variant) then |t.listed| else 0)
  }

  lemma ThenAssociative(a: Trace, b: Trace, c: Trace)
    ensures Then(Then(a, b), c) == Then(a, Then(b, c))
  {
    Associative(a.fetched, b.fetched, c.fetched);
    Associative(a.listed, b.listed, c.listed);
    Associative(a.written, b.written, c.written);
  }

  lemma ThenEmpty(a: Trace)
    ensures Then(a, Empty) == a && Then(Empty, a) == a
  {
    assert a.fetched + [] == a.fetched && a.listed + [] == a.listed && a.written + [] == a.written;
    assert [] + a.fetched == a.fetched && [] + a.listed == a.listed && [] + a.written == a.written;
  }

  /** Two walks in a row follow their two traces in a row. */
  lemma FollowsChain(cfg: Config, s: State, s1: State, r: State, t1: Trace, t2: Trace)
    requires Follows(cfg, s, s1, t1) && Follows(cfg, s1, r, t2)
    requires s1.halt != Running ==> r == s1
    ensures Follows(cfg, s, r, Then(t1, t2))
  {
    if r.halt == Running {
      ThenAssociative(Of(s), t1, t2);
    }
  }

  /** A walk that changes nothing follows the empty trace. */
  lemma FollowsNothing(cfg: Config, s: State)
    ensures Follows(cfg, s, s, Empty)
  {
    ThenEmpty(Of(s));
  }

  /** The file loop follows the trace of its listing's files. */
  lemma {:induction false} FilesFollow(cfg: Config, env: Env, files: seq<String>, readPath: String, writePath: String, s: State)
    ensures Follows(cfg, s, Files(cfg, env, files, readPath, writePath, s), FilesTrace(cfg, env, files, readPath, writePath))
    decreases |files|
  {
    if files == [] || s.halt != Running {
      FollowsNothing(cfg, s);
    } else {
      var rp, wp := readPath + files[0], writePath + files[0];
      var s1 := if Filtered(cfg, rp) then s else AfterFile(s, rp, wp, FileStep(cfg, env, rp, wp));
      var step := if Filtered(cfg, rp) then Empty else FileTrace(cfg, env, rp, wp);
      if Filtered(cfg, rp) {
        FollowsNothing(cfg, s);
      }
      assert Follows(cfg, s, s1, step);
      FilesFollow(cfg, env, files[1..], readPath, writePath, s1);
      FollowsChain(cfg, s, s1, Files(cfg, env, files[1..], readPath, writePath, s1), step, FilesTrace(cfg, env, files[1..], readPath, writePath));
    }
  }

  /** `Download` follows the trace of the directory it walks. */
  lemma {:induction false} DownloadFollows(cfg: Config, env: Env, files: seq<String>, dirs: seq<String>, readPath: String, writePath: String, s: State, fuel: nat)
    ensures Follows(cfg, s, Download(cfg, env, files, dirs, readPath, writePath, s, fuel), TreeTrace(cfg, env, Listing(cfg, env), files, dirs, readPath, writePath, fuel))
    decreases fuel, 1
  {
    if s.halt == Running && !env.mkdirFails(writePath) {
      var s1 := Files(cfg, env, files, readPath, writePath, s);
      var s2 := Dirs(cfg, env, dirs, readPath, writePath, s1, fuel);
      FilesFollow(cfg, env, files, readPath, writePath, s);
      DirsFollow(cfg, env, dirs, readPath, writePath, s1, fuel);
      FollowsChain(cfg, s, s1, s2, FilesTrace(cfg, env, files, readPath, writePath), DirsTrace(cfg, env, Listing(cfg, env), dirs, readPath, writePath, fuel));
    }
  }

  /** The directory loop follows the trace of its listing's subdirectories. */
  lemma {:induction false} DirsFollow(cfg: Config, env: Env, dirs: seq<String>, readPath: String, writePath: String, s: State, fuel: nat)
    ensures Follows(cfg, s, Dirs(cfg, env, dirs, readPath, writePath, s, fuel), DirsTrace(cfg, env, Listing(cfg, env), dirs, readPath, writePath, fuel))
    decreases fuel, 0, |dirs| + 1
  {
    if dirs == [] || s.halt != Running {
      FollowsNothing(cfg, s);
    } else {
      var rp, wp := readPath + dirs[0], writePath + dirs[0];
      var rest := DirsTrace(cfg, env, Listing(cfg, env), dirs[1..], readPath, writePath, fuel);
      DirsFollow(cfg, env, dirs[1..], readPath, writePath, s, fuel);
      if Filtered(cfg, rp) {
        ThenEmpty(rest);
      } else {
        var s1 := Visit(cfg, env, readPath, rp, wp, s, fuel);
        var step := if fuel == 0 then Empty else SubTrace(cfg, env, Listing(cfg, env), rp, wp, fuel);
        VisitFollows(cfg, env, readPath, rp, wp, s, fuel);
        DirsFollow(cfg, env, dirs[1..], readPath, writePath, s1, fuel);
        FollowsChain(cfg, s, s1, Dirs(cfg, env, dirs[1..], readPath, writePath, s1, fuel), step, rest);
      }
    }
  }

  /** Visiting one unfiltered subdirectory follows its trace. */
  lemma {:induction false} VisitFollows(cfg: Config, env: Env, readPath: String, rp: String, wp: String, s: State, fuel: nat)
    requires s.halt == Running && readPath <= rp && !Filtered(cfg, rp)
    ensures Follows(cfg, s, Visit(cfg, env, readPath, rp, wp, s, fuel), if fuel == 0 then Empty else SubTrace(cfg, env, Listing(cfg, env), rp, wp, fuel))
    decreases fuel, 0, 1
  {
    if env.mkdirFails(wp) || fuel == 0 || ListStep(cfg, env, rp).halt != Running {
      VisitStops(cfg, env, readPath, rp, wp, s, fuel);
    } else {
      VisitWalks(cfg, env, readPath, rp, wp, s, fuel);
      SubTraceIs(cfg, env, rp, wp, fuel);
      ListedFollows(cfg, env, rp, wp, s, fuel, ListStep(cfg, env, rp));
    }
  }

  /** A subdirectory listed as `l`, its unit started and its walk follow the listing, then the walk's trace. */
  lemma {:induction false} ListedFollows(cfg: Config, env: Env, rp: String, wp: String, s: State, fuel: nat, l: ListResult)
    requires s.halt == Running && l.halt == Running && fuel > 0
    ensures Follows(cfg, s, Download(cfg, env, l.files, l.dirs, rp, wp, Spawn(cfg, AfterList(cfg, s, rp, l)), fuel - 1),
                    Then(Trace([], [rp], []), TreeTrace(cfg, env, Listing(cfg, env), l.files, l.dirs, rp, wp, fuel - 1)))
    decreases fuel, 0, 0
  {
    var s2 := Spawn(cfg, AfterList(cfg, s, rp, l));
    DownloadFollows(cfg, env, l.files, l.dirs, rp, wp, s2, fuel - 1);
    ListedThen(cfg, s, rp, l, Download(cfg, env, l.files, l.dirs, rp, wp, s2, fuel - 1), TreeTrace(cfg, env, Listing(cfg, env), l.files, l.dirs, rp, wp, fuel - 1));
  }

  /** The trace of a subdirectory: listed, then walked with its listing. */
  lemma SubTraceIs(cfg: Config, env: Env, rp: String, wp: String, fuel: nat)
    requires fuel > 0
    ensures var l := ListStep(cfg, env, rp);
            SubTrace(cfg, env, Listing(cfg, env), rp, wp, fuel) == Then(Trace([], [rp], []), TreeTrace(cfg, env, Listing(cfg, env), l.files, l.dirs, rp, wp, fuel - 1))
  {
  }

  /** Listing a subdirectory, starting its unit, then a walk that follows `t`, follow the listing followed by `t`. */
  lemma ListedThen(cfg: Config, s: State, rp: String, l: ListResult, r: State, t: Trace)
    requires s.halt == Running && l.halt == Running
    requires Follows(cfg, Spawn(cfg, AfterList(cfg, s, rp, l)), r, t)
    requires Spawn(cfg, AfterList(cfg, s, rp, l)).halt != Running ==> r == Spawn(cfg, AfterList(cfg, s, rp, l))
    ensures Follows(cfg, s, r, Then(Trace([], [rp], []), t))
  {
    var s2 := Spawn(cfg, AfterList(cfg, s, rp, l));
    ListedFirst(cfg, s, rp, l);
    FollowsChain(cfg, s, s2, r, Trace([], [rp], []), t);
  }

  /** A failed directory creation, a listing that stops the process, or no fuel left stop the visit. */
  lemma VisitStops(cfg: Config, env: Env, readPath: String, rp: String, wp: String, s: State, fuel: nat)
    requires s.halt == Running && readPath <= rp && !Filtered(cfg, rp)
    requires env.mkdirFails(wp) || fuel == 0 || ListStep(cfg, env, rp).halt != Running
    ensures Visit(cfg, env, readPath, rp, wp, s, fuel).halt != Running
  {
  }

  /** Otherwise the visit is the walk of the subdirectory, started from the listing. */
  lemma VisitWalks(cfg: Config, env: Env, readPath: String, rp: String, wp: String, s: State, fuel: nat)
    requires s.halt == Running && readPath <= rp && !Filtered(cfg, rp)
    requires !env.mkdirFails(wp) && fuel > 0 && ListStep(cfg, env, rp).halt == Running
    ensures var l := ListStep(cfg, env, rp);
            Visit(cfg, env, readPath, rp, wp, s, fuel) == Download(cfg, env, l.files, l.dirs, rp, wp, Spawn(cfg, AfterList(cfg, s, rp, l)), fuel - 1)
  {
  }

  /** Listing a subdirectory and starting its unit follow the trace that lists it. */
  lemma ListedFirst(cfg: Config, s: State, rp: String, l: ListResult)
    requires s.halt == Running && l.halt == Running
    ensures Follows(cfg, s, Spawn(cfg, AfterList(cfg, s, rp, l)), Trace([], [rp], []))
  {
    ThenEmpty(Of(s));
  }

  /** The unfiltered files of each listed directory, directory by directory, as full remote paths. */
  function FilesOf(cfg: Config, listing: String -> ListResult, qs: seq<String>): seq<String>
    decreases |qs|
  {
    if qs == [] then []
    else Kept(cfg, qs[0], listing(qs[0]).files) + FilesOf(cfg, listing, qs[1..])
  }

  /** The unfiltered subdirectories of each listed directory, directory by directory, as full remote paths. */
  function DirsOf(cfg: Config, listing: String -> ListResult, qs: seq<String>): seq<String>
    decreases |qs|
  {
    if qs == [] then []
    else Kept(cfg, qs[0], listing(qs[0]).dirs) + DirsOf(cfg, listing, qs[1..])
  }

  /** The local path that mirrors the remote path `p` below `readPath` under `writePath`. */
  function Mirror(readPath: String, writePath: String, p: String): (r: String)
    requires readPath <= p
    ensures writePath <= r && |r| - |writePath| == |p| - |readPath|
  {
    writePath + p[|readPath|..]
  }

  /**
   For each remote file in `ps`, in order, the local file its download
   writes at the mirrored path, if it writes one (a path not below
   `readPath` has no mirror).
   */
  function WritesOf(cfg: Config, env: Env, readPath: String, writePath: String, ps: seq<String>): seq<(String, String)>
    decreases |ps|
  {
    if ps == [] then []
    else
      (if readPath <= ps[0] then WriteAt(cfg, env, ps[0], Mirror(readPath, writePath, ps[0])) else [])
        + WritesOf(cfg, env, readPath, writePath, ps[1..])
  }

  lemma {:induction false} FilesOfAppend(cfg: Config, listing: String -> ListResult, a: seq<String>, b: seq<String>)
    ensures FilesOf(cfg, listing, a + b) == FilesOf(cfg, listing, a) + FilesOf(cfg, listing, b)
    decreases |a|
  {
    if a == [] {
      assert a + b == b;
    } else {
      assert (a + b)[0] == a[0] && (a + b)[1..] == a[1..] + b;
      FilesOfAppend(cfg, listing, a[1..], b);
      Associative(Kept(cfg, a[0], listing(a[0]).files), FilesOf(cfg, listing, a[1..]), FilesOf(cfg, listing, b));
    }
  }

  lemma {:induction false} DirsOfAppend(cfg: Config, listing: String -> ListResult, a: seq<String>, b: seq<String>)
    ensures DirsOf(cfg, listing, a + b) == DirsOf(cfg, listing, a) + DirsOf(cfg, listing, b)
    decreases |a|
  {
    if a == [] {
      assert a + b == b;
    } else {
      assert (a + b)[0] == a[0] && (a + b)[1..] == a[1..] + b;
      DirsOfAppend(cfg, listing, a[1..], b);
      Associative(Kept(cfg, a[0], listing(a[0]).dirs), DirsOf(cfg, listing, a[1..]), DirsOf(cfg, listing, b));
    }
  }

  lemma {:induction false} WritesOfAppend(cfg: Config, env: Env, readPath: String, writePath: String, a: seq<String>, b: seq<String>)
    ensures WritesOf(cfg, env, readPath, writePath, a + b) == WritesOf(cfg, env, readPath, writePath, a) + WritesOf(cfg, env, readPath, writePath, b)
    decreases |a|
  {
    if a == [] {
      assert a + b == b;
    } else {
      assert (a + b)[0] == a[0] && (a + b)[1..] == a[1..] + b;
      WritesOfAppend(cfg, env, readPath, writePath, a[1..], b);
      var here := if readPath <= a[0] then WriteAt(cfg, env, a[0], Mirror(readPath, writePath, a[0])) else [];
      Associative(here, WritesOf(cfg, env, readPath, writePath, a[1..]), WritesOf(cfg, env, readPath, writePath, b));
    }
  }

  /** A name below the walk at `readPath + x`, mirrored from `readPath` to `writePath`, lands at `writePath + x` + name. */
  lemma MirrorBelow(readPath: String, writePath: String, x: String, name: String)
    ensures readPath <= (readPath + x) + name
    ensures Mirror(readPath, writePath, (readPath + x) + name) == (writePath + x) + name
  {
    assert ((readPath + x) + name)[|readPath|..] == x + name;
  }

  /**
   What a trace does, explained from the listings: it fetches `first` and
   then the unfiltered files of each directory it lists, in order, and it
   writes each file fetched at its mirrored path when that file's download
   wrote it, in order.
   */
  predicate Explained(cfg: Config, env: Env, listing: String -> ListResult, readPath: String, writePath: String, first: seq<String>, t: Trace) {
    && t.fetched == first + FilesOf(cfg, listing, t.listed)
    && t.written == WritesOf(cfg, env, readPath, writePath, t.fetched)
  }

  /** The files of one listing are fetched as the unfiltered names, in order, and written at their mirrors. */
  lemma {:induction false} FilesExplained(cfg: Config, env: Env, files: seq<String>, readPath: String, writePath: String, x: String)
    ensures var t := FilesTrace(cfg, env, files, readPath + x, writePath + x);
            && t.fetched == Kept(cfg, readPath + x, files) && t.listed == []
            && t.written == WritesOf(cfg, env, readPath, writePath, t.fetched)
    decreases |files|
  {
    if files != [] {
      var rp, wp := (readPath + x) + files[0], (writePath + x) + files[0];
      var rest := FilesTrace(cfg, env, files[1..], readPath + x, writePath + x);
      FilesExplained(cfg, env, files[1..], readPath, writePath, x);
      var head := if Filtered(cfg, rp) then Empty else FileTrace(cfg, env, rp, wp);
      assert FilesTrace(cfg, env, files, readPath + x, writePath + x) == Then(head, rest);
      assert Kept(cfg, readPath + x, files) == head.fetched + Kept(cfg, readPath + x, files[1..]);
      MirrorBelow(readPath, writePath, x, files[0]);
      WrittenHead(cfg, env, readPath, writePath, rp, wp, head);
      WritesOfAppend(cfg, env, readPath, writePath, head.fetched, rest.fetched);
    }
  }

  /** A file's own trace is written as its mirror says. */
  lemma WrittenHead(cfg: Config, env: Env, readPath: String, writePath: String, rp: String, wp: String, head: Trace)
    requires readPath <= rp && Mirror(readPath, writePath, rp) == wp
    requires head == Empty || head == FileTrace(cfg, env, rp, wp)
    ensures head.written == WritesOf(cfg, env, readPath, writePath, head.fetched)
  {
    if head != Empty {
      assert [rp][0] == rp && [rp][1..] == [];
      assert WritesOf(cfg, env, readPath, writePath, [rp]) == WriteAt(cfg, env, rp, wp) + [];
    }
  }

  /** Two explained traces in a row, the second fetching only files of the directories it lists, are explained. */
  lemma ExplainedThen(cfg: Config, env: Env, listing: String -> ListResult, readPath: String, writePath: String, first: seq<String>, a: Trace, b: Trace)
    requires Explained(cfg, env, listing, readPath, writePath, first, a) && Explained(cfg, env, listing, readPath, writePath, [], b)
    ensures Explained(cfg, env, listing, readPath, writePath, first, Then(a, b))
  {
    FilesOfAppend(cfg, listing, a.listed, b.listed);
    WritesOfAppend(cfg, env, readPath, writePath, a.fetched, b.fetched);
    Associative(first, FilesOf(cfg, listing, a.listed), FilesOf(cfg, listing, b.listed));
    assert [] + FilesOf(cfg, listing, b.listed) == FilesOf(cfg, listing, b.listed);
  }

  /** Each directory listed is one of `kept` or an unfiltered subdirectory of a directory listed. */
  predicate Sourced(cfg: Config, listing: String -> ListResult, kept: seq<String>, t: Trace) {
    multiset(t.listed) <= multiset(kept) + multiset(DirsOf(cfg, listing, t.listed))
  }

  lemma SourcedThen(cfg: Config, listing: String -> ListResult, ka: seq<String>, kb: seq<String>, a: Trace, b: Trace)
    requires Sourced(cfg, listing, ka, a) && Sourced(cfg, listing, kb, b)
    ensures Sourced(cfg, listing, ka + kb, Then(a, b))
  {
    DirsOfAppend(cfg, listing, a.listed, b.listed);
  }

  /** A walked directory's trace is explained by its listing's files, and lists only unfiltered subdirectories of listings. */
  lemma {:induction false} TreeExplained(cfg: Config, env: Env, listing: String -> ListResult, files: seq<String>, dirs: seq<String>, readPath: String, writePath: String, x: String, fuel: nat)
    ensures var t := TreeTrace(cfg, env, listing, files, dirs, readPath + x, writePath + x, fuel);
            && Explained(cfg, env, listing, readPath, writePath, Kept(cfg, readPath + x, files), t)
            && Sourced(cfg, listing, Kept(cfg, readPath + x, dirs), t)
    decreases fuel, 1
  {
    var ft := FilesTrace(cfg, env, files, readPath + x, writePath + x);
    var dt := DirsTrace(cfg, env, listing, dirs, readPath + x, writePath + x, fuel);
    assert TreeTrace(cfg, env, listing, files, dirs, readPath + x, writePath + x, fuel) == Then(ft, dt);
    FilesExplained(cfg, env, files, readPath, writePath, x);
    DirsExplained(cfg, env, listing, dirs, readPath, writePath, x, fuel);
    FilesThenDirs(cfg, env, listing, readPath, writePath, Kept(cfg, readPath + x, dirs), ft, dt);
  }

  /** A listing's files, then its subdirectories' walks, are explained by the files kept. */
  lemma FilesThenDirs(cfg: Config, env: Env, listing: String -> ListResult, readPath: String, writePath: String, kept: seq<String>, ft: Trace, dt: Trace)
    requires ft.listed == [] && ft.written == WritesOf(cfg, env, readPath, writePath, ft.fetched)
    requires Explained(cfg, env, listing, readPath, writePath, [], dt) && Sourced(cfg, listing, kept, dt)
    ensures Explained(cfg, env, listing, readPath, writePath, ft.fetched, Then(ft, dt))
    ensures Sourced(cfg, listing, kept, Then(ft, dt))
  {
    assert FilesOf(cfg, listing, ft.listed) == [];
    assert ft.fetched + [] == ft.fetched;
    ExplainedThen(cfg, env, listing, readPath, writePath, ft.fetched, ft, dt);
    SourcedThen(cfg, listing, [], kept, ft, dt);
    assert [] + kept == kept;
  }

  /** The subdirectory loop's trace fetches only files of directories it lists, and lists only unfiltered subdirectories of listings. */
  lemma {:induction false} DirsExplained(cfg: Config, env: Env, listing: String -> ListResult, dirs: seq<String>, readPath: String, writePath: String, x: String, fuel: nat)
    ensures var t := DirsTrace(cfg, env, listing, dirs, readPath + x, writePath + x, fuel);
            && Explained(cfg, env, listing, readPath, writePath, [], t)
            && Sourced(cfg, listing, Kept(cfg, readPath + x, dirs), t)
    decreases fuel, 0, |dirs| + 1
  {
    if dirs == [] {
      assert DirsTrace(cfg, env, listing, dirs, readPath + x, writePath + x, fuel) == Empty;
    } else {
      var rp, wp := (readPath + x) + dirs[0], (writePath + x) + dirs[0];
      var rest := DirsTrace(cfg, env, listing, dirs[1..], readPath + x, writePath + x, fuel);
      var head := if Filtered(cfg, rp) || fuel == 0 then Empty else SubTrace(cfg, env, listing, rp, wp, fuel);
      var ka := if Filtered(cfg, rp) then [] else [rp];
      assert DirsTrace(cfg, env, listing, dirs, readPath + x, writePath + x, fuel) == Then(head, rest);
      assert Kept(cfg, readPath + x, dirs) == ka + Kept(cfg, readPath + x, dirs[1..]);
      DirsExplained(cfg, env, listing, dirs[1..], readPath, writePath, x, fuel);
      if head != Empty {
        Associative(readPath, x, dirs[0]);
        Associative(writePath, x, dirs[0]);
        SubExplained(cfg, env, listing, readPath, writePath, x + dirs[0], fuel);
      }
      ExplainedThen(cfg, env, listing, readPath, writePath, [], head, rest);
      SourcedThen(cfg, listing, ka, Kept(cfg, readPath + x, dirs[1..]), head, rest);
    }
  }

  /** A subdirectory's trace lists it first and then only unfiltered subdirectories of listings. */
  lemma {:induction false} SubExplained(cfg: Config, env: Env, listing: String -> ListResult, readPath: String, writePath: String, x: String, fuel: nat)
    requires fuel > 0
    ensures var t := SubTrace(cfg, env, listing, readPath + x, writePath + x, fuel);
            && Explained(cfg, env, listing, readPath, writePath, [], t)
            && Sourced(cfg, listing, [readPath + x], t)
    decreases fuel, 0, 0
  {
    var rp, wp := readPath + x, writePath + x;
    var l := listing(rp);
    var tt := TreeTrace(cfg, env, listing, l.files, l.dirs, rp, wp, fuel - 1);
    assert SubTrace(cfg, env, listing, rp, wp, fuel) == Then(Trace([], [rp], []), tt);
    TreeExplained(cfg, env, listing, l.files, l.dirs, readPath, writePath, x, fuel - 1);
    ListedExplained(cfg, env, listing, readPath, writePath, rp, tt);
  }

  /** A directory listed, then a walk explained by its listing, are explained, and listed first. */
  lemma ListedExplained(cfg: Config, env: Env, listing: String -> ListResult, readPath: String, writePath: String, rp: String, tt: Trace)
    requires Explained(cfg, env, listing, readPath, writePath, Kept(cfg, rp, listing(rp).files), tt)
    requires Sourced(cfg, listing, Kept(cfg, rp, listing(rp).dirs), tt)
    ensures Explained(cfg, env, listing, readPath, writePath, [], Then(Trace([], [rp], []), tt))
    ensures Sourced(cfg, listing, [rp], Then(Trace([], [rp], []), tt))
  {
    var l := listing(rp);
    assert ([rp] + tt.listed)[0] == rp && ([rp] + tt.listed)[1..] == tt.listed;
    assert FilesOf(cfg, listing, [rp] + tt.listed) == Kept(cfg, rp, l.files) + FilesOf(cfg, listing, tt.listed);
    assert DirsOf(cfg, listing, [rp] + tt.listed) == Kept(cfg, rp, l.dirs) + DirsOf(cfg, listing, tt.listed);
    assert [] + tt.fetched == tt.fetched && [] + tt.written == tt.written;
  }

  /**
   A walk that ends with the process running fetched, in order, the
   unfiltered files of its own listing and then those of each directory it
   listed; listed only unfiltered subdirectories of its own listing or of
   directories it listed, so no directory the filter skips is listed nor
   anything found only by listing one; wrote each file fetched, in order,
   at the local path mirroring it whenever that file's download wrote it;
   and started one unit per file fetched and, unless it walks
   synchronously, one per directory listed.
   */
  lemma WalkExplained(cfg: Config, env: Env, files: seq<String>, dirs: seq<String>, readPath: String, writePath: String, s: State, fuel: nat)
    ensures var r := Download(cfg, env, files, dirs, readPath, writePath, s, fuel);
            r.halt == Running ==>
              && |s.fetched| <= |r.fetched| && |s.listed| <= |r.listed|
              && var fetched, listed := r.fetched[|s.fetched|..], r.listed[|s.listed|..];
                 && fetched == Kept(cfg, readPath, files) + FilesOf(cfg, Listing(cfg, env), listed)
                 && multiset(listed) <= multiset(Kept(cfg, readPath, dirs)) + multiset(DirsOf(cfg, Listing(cfg, env), listed))
                 && r.written == s.written + WritesOf(cfg, env, readPath, writePath, fetched)
                 && r.spawned == s.spawned + |fetched| + (if Concurrent(cfg.variant) then |listed| else 0)
  {
    var r := Download(cfg, env, files, dirs, readPath, writePath, s, fuel);
    var t := TreeTrace(cfg, env, Listing(cfg, env), files, dirs, readPath, writePath, fuel);
    DownloadFollows(cfg, env, files, dirs, readPath, writePath, s, fuel);
    assert readPath + [] == readPath && writePath + [] == writePath;
    TreeExplained(cfg, env, Listing(cfg, env), files, dirs, readPath, writePath, [], fuel);
    if r.halt == Running {
      assert r.fetched[|s.fetched|..] == t.fetched;
      assert r.listed[|s.listed|..] == t.listed;
    }
  }

  /**
   The filter compares whole paths, not prefixes: with the directory
   `readPath + dir` filtered, its entry `dir/` in the listing of `readPath`
   is skipped, while an entry `dir/x` of the same listing (a name holding a
   slash) is kept and fetched as `readPath + dir/x`.
   */
  lemma SlashedNameKept(cfg: Config, readPath: String, dir: String, x: String)
    requires !cfg.variant.Proto? && cfg.root == [] && cfg.filterList == [readPath + dir]
    requires dir != [] && dir[|dir| - 1] != '/' && x != []
    ensures Kept(cfg, readPath, [dir + "/"]) == []
    ensures Kept(cfg, readPath, [dir + "/" + x]) == [readPath + (dir + "/" + x)]
  {
    KeptOne(cfg, readPath, dir + "/");
    KeptOne(cfg, readPath, dir + "/" + x);
    FilteredDir(readPath, dir);
    KeptBelow(readPath, dir, x);
  }

  /** The directory itself, with its trailing slash, matches its filter entry. */
  lemma FilteredDir(readPath: String, dir: String)
    requires dir != [] && dir[|dir| - 1] != '/'
    ensures Filter.CheckToFilter(readPath + (dir + "/"), [], [readPath + dir])
  {
    var e := readPath + dir;
    assert !HasSuffix(e, "/") by {
      assert e[|e| - 1] == dir[|dir| - 1];
    }
    Filter.ExactMatch([], e);
    assert [] + e + "/" == readPath + (dir + "/");
  }

  /** A path below the directory does not match its filter entry. */
  lemma KeptBelow(readPath: String, dir: String, x: String)
    requires x != []
    ensures !Filter.CheckToFilter(readPath + (dir + "/" + x), [], [readPath + dir])
  {
    var e := readPath + dir;
    Filter.NoPrefixMatch(e, "/" + x);
    assert e + ("/" + x) == readPath + (dir + "/" + x);
  }

  lemma KeptOne(cfg: Config, readPath: String, name: String)
    ensures Kept(cfg, readPath, [name]) == if Filtered(cfg, readPath + name) then [] else [readPath + name]
  {
    assert [name][1..] == [];
  }
}
